=== FILE: README.md ===
# IBKR portfolio impact analyzer — a verified model of its core

The analyzer loads an Interactive Brokers portfolio of stocks and options. It prices them with Black-Scholes, then replays a catalogue of market scenarios (earnings, Fed days, crashes, rallies, time decay) against them. From the results it computes portfolio risk figures: value at risk, drawdown, concentration, Greek exposure and IV rank. It raises risk alerts, watches an event calendar for scenarios worth running, and paces its monitoring loop by market hours.

This project restates that core in Dafny as pure functions over `real`, `seq` and `map`, and proves what each step promises:

- Python exceptions become a `Result` with a `Fault`.
- `None` becomes `Option`.
- Ordered Python dicts become sequences of key/value pairs with distinct keys (`Dicts`).
- Clock readings, broker replies, database answers and the calendar's query are parameters.

Modules follow the source packages:

| module | file | models |
|---|---|---|
| `Wrappers`, `Num`, `Seqs`, `Dicts` | wrappers.dfy, num.dfy, seqs.dfy, dicts.dfy | results, clamps, filtering/sorting/dedup, ordered dicts |
| `Dates` | dates.dfy | proleptic Gregorian dates, `toordinal`, `weekday`, `timedelta.days` |
| `Positions` | positions.dfy | `src/data_collection/position.py` and the position key |
| `BlackScholes` | black_scholes.dfy | `src/valuation/black_scholes.py` |
| `Scenarios` | scenarios.dfy | `src/scenario/scenario_templates.py` |
| `IvModel` | iv_model.dfy | `src/scenario/iv_model.py` |
| `Aggregation`, `Percentile` | aggregation.dfy, percentile.dfy | `src/valuation/portfolio_aggregation.py` |
| `RiskMetrics` | risk_metrics.dfy | `src/risk/risk_metrics.py` |
| `RiskAlerts` | risk_alerts.dfy | `src/risk/risk_alerts.py` |
| `EventCalendar` | event_calendar.dfy | FOMC and expiration generation in `src/calendar/event_calendar.py` |
| `EventDetection` | event_detection.dfy | `src/calendar/event_detection.py` |
| `Scheduler` | scheduler.dfy | `MarketHoursChecker` and the `RealTimeMonitor` loop in `src/automation/scheduler.py` |
| `MarketData` | market_data.dfy | the cache and snapshot throttle of `src/data_collection/market_data_manager.py` |
| `PositionTracker` | position_tracker.dfy | `src/data_collection/position_tracker.py` |

The Black-Scholes closed form is a function value inside `BlackScholes.Kernel`. Every pricing fact is therefore proved for any formula, and what is checked is the guard logic the source wraps around the formula.

## Model

| member | source | states |
|---|---|---|
| Positions.UpdatePositionValue | src/data_collection/position.py:44-49 | the stored value becomes price × quantity × (multiplier for options); nothing else changes |
| Positions.Create | src/data_collection/position.py:10-42 | every field of the new position is the one supplied (symbol, quantity, prices, option identity, Greeks, IV), except the value, which is recomputed from price, quantity and multiplier |
| Positions.UpdatePrice | src/data_collection/position.py:51-55 | sets the price and timestamp, keeps the value consistent, and leaves every other field alone |
| Positions.UpdateGreeks | src/data_collection/position.py:57-72 | each Greek is replaced only when a value is given; the timestamp always moves; nothing else changes |
| Positions.UpdatesKeepValueConsistent | src/data_collection/position.py:44-72 | Greek and price updates preserve the value invariant |
| Positions.UpdateGreeksIdempotent | src/data_collection/position.py:57-72 | applying the same Greek update twice equals applying it once |
| Positions.DaysToExpiration | src/data_collection/position.py:75-80 | defined exactly for options with an expiry; it is the floor of the remaining seconds over 86400 |
| Positions.GetPnl | src/data_collection/position.py:82-87 | P&L is the value minus the cost basis (scaled by the multiplier for options); it is zero at the entry price |
| Positions.GetPnlPercent | src/data_collection/position.py:89-93 | the percent move from the entry price; 0 when the entry price is 0 |
| Positions.PnlPercentIgnoresQuantity | src/data_collection/position.py:89-93 | the percent P&L does not depend on the quantity held |
| Positions.Moneyness | src/data_collection/position.py:95-114 | None without an option strike; spot/strike for calls and strike/spot otherwise; a zero divisor raises |
| Positions.IsItm | src/data_collection/position.py:116-127 | defined exactly when moneyness is; at-the-money is not ITM |
| Positions.ItmIffMoneynessAboveOne | src/data_collection/position.py:95-127 | with positive strike and spot, ITM holds iff moneyness exceeds 1 |
| Positions.Key | src/data_collection/position_tracker.py:136-150 | stocks and options get different key shapes |
| Positions.KeyIdentifiesContract | src/data_collection/position_tracker.py:136-150 | two positions share a key iff they are the same contract (symbol; for options also expiry, strike and right) |
| BlackScholes.Intrinsic | src/valuation/black_scholes.py:40-45 | the least non-negative value at or above the signed moneyness (S−K for calls, K−S otherwise) |
| BlackScholes.IntrinsicParity | src/valuation/black_scholes.py:40-45 | put-call parity at expiry: call payoff minus put payoff is S−K |
| BlackScholes.IntrinsicMonotoneInSpot | src/valuation/black_scholes.py:40-45 | the call payoff is non-decreasing and the put payoff non-increasing in the spot |
| BlackScholes.ScalarVol | src/valuation/black_scholes.py:47-49 | a non-positive volatility is replaced by the 0.30 default; a positive one is kept |
| BlackScholes.Price | src/valuation/black_scholes.py:40-63 | the intrinsic value at or after expiry; a zero strike before expiry raises; the price is never negative |
| BlackScholes.PriceNonPositiveVolIsDefault | src/valuation/black_scholes.py:47-49 | pricing with volatility ≤ 0 equals pricing with 30% |
| BlackScholes.PriceAtExpiryIgnoresModel | src/valuation/black_scholes.py:40-45 | at expiry the price does not depend on the formula or the volatility |
| BlackScholes.ComputeGreeks | src/valuation/black_scholes.py:82-133 | expired options get the step delta and zero higher Greeks; a zero strike raises |
| BlackScholes.GreeksNonPositiveVolIsDefault | src/valuation/black_scholes.py:91-92 | Greeks with volatility ≤ 0 equal Greeks at 30% |
| BlackScholes.Batch | src/valuation/black_scholes.py:152-184 | one non-negative price per row; expired rows get their intrinsic value |
| BlackScholes.BatchAgreesWithScalar | src/valuation/black_scholes.py:152-184 | above the batch floors the batch row equals the scalar price |
| BlackScholes.BatchAndScalarDifferBelowFloor | src/valuation/black_scholes.py:156-160 | below the 1% floor the batch and the scalar pricer disagree |
| BlackScholes.NewtonNext | src/valuation/black_scholes.py:219-231 | each Newton step stays inside the clamp interval |
| BlackScholes.SolveFrom | src/valuation/black_scholes.py:207-234 | the solver's answer stays inside the clamp interval; with no budget it returns its seed |
| BlackScholes.ImpliedVolatility | src/valuation/black_scholes.py:186-234 | the loop agrees with the recursive solver, stays clamped, raises only on a zero strike before expiry, and makes at most `max_iterations` updates |
| BlackScholes.SolverReturnsSeedWhenDone | src/valuation/black_scholes.py:207-222 | when the seed already prices within tolerance it is returned |
| BlackScholes.SolverAtExpiryReturnsSeed | src/valuation/black_scholes.py:207-225 | at expiry the solver returns its seed |
| Scenarios.Catalog | src/scenario/scenario_templates.py:11-35 | sixteen scenarios, each stored under its own name |
| Scenarios.CatalogKeysDistinct | src/scenario/scenario_templates.py:11-35 | no two scenarios share a name |
| Scenarios.TemplatesWellFormed | src/scenario/scenario_templates.py:38-268 | every template has exactly one IV rule; each multiplier table has a 'default' entry and otherwise only the five category keys; each DTE table has exactly the four bucket keys |
| Scenarios.CatalogFinds | src/scenario/scenario_templates.py:11-35 | looking up each template's name returns that template |
| Scenarios.CatalogHasCoreScenarios | src/scenario/scenario_templates.py:11-35 | Normal Day, Market Panic and Earnings Beat are present |
| Scenarios.NormalDayIsNeutral | src/scenario/scenario_templates.py:38-46 | Normal Day moves nothing |
| Scenarios.EarningsCrushShortDated | src/scenario/scenario_templates.py:49-95 | earnings scenarios cut short-dated IV, and inline results cut it the most |
| Scenarios.PanicSkewsToPuts | src/scenario/scenario_templates.py:97-111 | the panic IV multipliers order OTM puts over ATM over OTM calls |
| Scenarios.CreateCustom | src/scenario/scenario_templates.py:271-302 | copies its arguments; an empty multiplier table is dropped |
| Scenarios.CustomEmptyMultipliersDropped | src/scenario/scenario_templates.py:271-302 | an empty multiplier table acts as no table |
| IvModel.MoneynessBeta | src/scenario/iv_model.py:14-33 | the beta lies in [0.8, 1.3]; each of the five values 1.3, 1.2, 1.0, 0.9, 0.8 is taken exactly on its band (below 0.95, to 0.98, to 1.02, to 1.05, from 1.05) |
| IvModel.MoneynessBetaNonIncreasing | src/scenario/iv_model.py:14-33 | the beta never rises with moneyness |
| IvModel.TimeBeta | src/scenario/iv_model.py:36-53 | the beta lies in [0.5, 1.5]; each of 1.5, 1.0, 0.7, 0.5 is taken exactly on its band (up to 7, 8-30, 31-90, beyond 90 days) |
| IvModel.TimeBetaNonIncreasing | src/scenario/iv_model.py:36-53 | the beta never rises with DTE |
| IvModel.ApplyChange | src/scenario/iv_model.py:118-122 | base·(1+change) when that lies in [1%, 300%], otherwise the bound it crosses |
| IvModel.ApplyChangeMonotone | src/scenario/iv_model.py:118-122 | a larger change never gives a lower IV |
| IvModel.BetaWeight | src/scenario/iv_model.py:72-79 | the combined weight lies in [0.4, 1.95] |
| IvModel.IvShift | src/scenario/iv_model.py:56-87 | base·(1 + multiplier·beta weight) when that lies in [1%, 300%], always within the bounds; a zero multiplier keeps an in-range IV |
| IvModel.IvShiftIgnoresCategory | src/scenario/iv_model.py:56-87 | the category argument has no effect |
| IvModel.IvShiftMonotoneInMultiplier | src/scenario/iv_model.py:56-87 | a larger multiplier never gives a lower IV |
| IvModel.DteBucket | src/scenario/iv_model.py:106-114 | each of the four keys is chosen exactly on its band: up to 7, 8-30, 31-90, beyond 90 days |
| IvModel.ScenarioChange | src/scenario/iv_model.py:102-116 | the bucket's entry when present, otherwise the flat change |
| IvModel.ScenarioIv | src/scenario/iv_model.py:90-124 | base·(1 + scenario change) when that lies in [1%, 300%], otherwise the bound it crosses |
| IvModel.ScenarioIvDependsOnBucketOnly | src/scenario/iv_model.py:102-122 | two DTEs in the same bucket give the same IV |
| IvModel.CategoryOf | src/scenario/iv_model.py:166-177 | ATM iff 0.95 ≤ m < 1.05; OTM below, ITM above; put or call by the right |
| IvModel.AtmCategorySpansFourBetas | src/scenario/iv_model.py:166-177 | the ATM category covers moneyness values whose betas differ |
| IvModel.ScenarioMoneyness | src/scenario/iv_model.py:159-163 | spot/strike for calls and strike/spot otherwise; errors for a missing strike or a zero divisor |
| IvModel.PositionIv | src/scenario/iv_model.py:133-196 | 0 for stocks; an error exactly when moneyness fails; otherwise the category entry, else the `default` entry, through the beta-weighted shift, else the un-beta'd DTE rule |
| IvModel.DefaultActsAsCategoryEntry | src/scenario/iv_model.py:180-193 | with no category entries, a `default` entry d gives the same IV as an entry d for the option's own category |
| IvModel.CategoryEntryOverridesDefault | src/scenario/iv_model.py:180-194 | a category entry wins over `default` |
| IvModel.FallbackIgnoresMoneyness | src/scenario/iv_model.py:180-189 | without matching entries the IV follows the DTE rule, whatever the spot |
| IvModel.UniformScenarioIv | src/scenario/iv_model.py:180-189 | a custom scenario applies its flat change |
| IvModel.PutAtNinetyFiveIsItmNotAtm | src/scenario/iv_model.py:159-177 | a put at spot 95 and strike 100 is ITM_PUT, not ATM |
| Aggregation.CurrentMetrics | src/valuation/portfolio_aggregation.py:28-79 | the total splits into stock and option values; each Greek is the multiplier-weighted sum, with stock delta counted per share |
| Aggregation.StockOnlyMetrics | src/valuation/portfolio_aggregation.py:28-79 | an all-stock portfolio has no option value, its delta is the share count and its gamma and vega are zero |
| Aggregation.ShockStep | src/valuation/portfolio_aggregation.py:107-121 | one loop step keeps the dict's keys distinct |
| Aggregation.ShockedPrices | src/valuation/portfolio_aggregation.py:107-121 | the shocked-price dict has distinct keys |
| Aggregation.ShockedPriceOrigin | src/valuation/portfolio_aggregation.py:107-121 | an underlying's shocked price comes from its last stock, or else from its first option |
| Aggregation.ShockStepGet | src/valuation/portfolio_aggregation.py:107-121 | one step writes a stock's key, fills an option's key only when absent, and touches nothing else |
| Aggregation.PercentOf | src/valuation/portfolio_aggregation.py:154-155 | the P&L as a percent of the base; 0 on a zero base |
| Aggregation.ResultFor | src/valuation/portfolio_aggregation.py:135-145 | the per-position P&L is the new value minus the current value |
| Aggregation.StockScenarioValue | src/valuation/portfolio_aggregation.py:174-180 | a shared shocked price, when there is one, times the quantity; otherwise the stock's own price moved by the spot change, so with no change its current price times the quantity |
| Aggregation.StockAtOwnPrice | src/valuation/portfolio_aggregation.py:174-180 | valued at its own price, a stock is worth its position value |
| Aggregation.RemainingDays | src/valuation/portfolio_aggregation.py:194-200 | the days left after the scenario's days pass, floored at 0 |
| Aggregation.OptionScenarioValue | src/valuation/portfolio_aggregation.py:182-214 | a failure of the IV model propagates |
| Aggregation.OptionScenarioErrors | src/valuation/portfolio_aggregation.py:182-214 | it fails only on an IV failure, a missing strike, or a zero strike with time left |
| Aggregation.OptionScenarioAtExpiry | src/valuation/portfolio_aggregation.py:194-214 | with no days left it is the intrinsic value at the shocked spot times quantity and multiplier |
| Aggregation.OptionScenarioPriced | src/valuation/portfolio_aggregation.py:190-214 | whatever the time left, the value is the pricer's price at the shocked spot, the scenario IV and the remaining days over 365, with dividend yield 0 and the kernel's risk-free rate, times quantity and multiplier |
| Aggregation.OptionPricingFailurePropagates | src/valuation/portfolio_aggregation.py:204-214 | a pricer failure at those inputs is the position's failure, unchanged |
| Aggregation.OptionRepricedAtUnderlying | src/valuation/portfolio_aggregation.py:107-121 | in a scenario run an option is valued at its underlying's shared shocked price: that of the last stock on the underlying if there is one, else that of the first option on it |
| Aggregation.ScenarioValue | src/valuation/portfolio_aggregation.py:124-133 | stocks never fail, and a stock with a shared price under its own symbol is worth that price times its quantity; the option branch is stated by `OptionRepricedAtUnderlying` |
| Aggregation.Evaluate | src/valuation/portfolio_aggregation.py:124-151 | at most one result per position |
| Aggregation.EvaluateFailOpen | src/valuation/portfolio_aggregation.py:124-151 | a failing position keeps its current value in the total and is missing from the results |
| Aggregation.EvaluateNoFailure | src/valuation/portfolio_aggregation.py:124-151 | without failures there is one result per position, in order, and their P&Ls sum to the change in total |
| Aggregation.Extremes | src/valuation/portfolio_aggregation.py:158-160 | worst is the first minimum-P&L result and best the last maximum |
| Aggregation.RunScenario | src/valuation/portfolio_aggregation.py:81-172 | the current value, new value, P&L, percent, results and extremes of one scenario |
| Aggregation.StockZeroChange | src/valuation/portfolio_aggregation.py:81-180 | with no spot change, a consistent all-stock portfolio has zero P&L |
| Aggregation.RunMany | src/valuation/portfolio_aggregation.py:216-239 | results are keyed by distinct scenario names |
| Aggregation.RunManyGet | src/valuation/portfolio_aggregation.py:216-239 | each readable scenario's entry is its `run_scenario` result |
| Aggregation.RunManyKeys | src/valuation/portfolio_aggregation.py:216-239 | the result keys are exactly the readable scenario names, in catalogue order |
| Aggregation.PnlList | src/valuation/portfolio_aggregation.py:253 | one P&L per result, in dict order |
| Aggregation.ScenarioVar | src/valuation/portfolio_aggregation.py:241-262 | 0 for no results; otherwise one of the P&Ls |
| Aggregation.ScenarioVarIsOrderStatistic | src/valuation/portfolio_aggregation.py:258-260 | the VaR is the P&L at rank ⌊(1−c)·n⌋ of the sorted list |
| Aggregation.ScenarioVarMonotone | src/valuation/portfolio_aggregation.py:258-260 | higher confidence never gives a higher VaR |
| Aggregation.MaxDrawdownAsWritten | src/valuation/portfolio_aggregation.py:264-286 | as written, the loop succeeds only on an empty dict |
| Aggregation.MaxDrawdownAsWrittenRaises | src/valuation/portfolio_aggregation.py:277 | a one-scenario dict raises an unpacking error, whatever that scenario's result |
| Aggregation.MaxDrawdown | src/valuation/portfolio_aggregation.py:264-286 | the drawdown is at most 0 and at most every P&L; the worst scenario is named iff some P&L is negative |
| Percentile.PyIndex | src/valuation/portfolio_aggregation.py:260 | Python indexing, including negative indices, and its IndexError |
| Percentile.Pick | src/risk/risk_metrics.py:148-156 | the pick is an element of the list, or an IndexError |
| Percentile.PickInRange | src/valuation/portfolio_aggregation.py:259-260 | for fractions in [0, 1) the index is in range and the sorted element is returned |
| Percentile.PickIndexMonotone | src/valuation/portfolio_aggregation.py:259 | a larger fraction never gives a smaller index |
| Percentile.PickMonotone | src/valuation/portfolio_aggregation.py:258-260 | a larger fraction never picks a smaller value |
| Percentile.PickIsOrderStatistic | src/valuation/portfolio_aggregation.py:258-260 | the pick has at most i smaller elements and more than i no greater |
| Percentile.PickZeroIsMinimum | src/risk/risk_metrics.py:151-156 | an index of 0 picks the minimum |
| RiskMetrics.MaxConcentration | src/risk/risk_metrics.py:109-112 | 0 without a positive total or without positions; otherwise the largest position's share of the total, in percent: attained by some position and exceeded by none |
| RiskMetrics.PortfolioMetricsOf | src/risk/risk_metrics.py:66-129 | totals, counts and the P&L percent agree with the aggregator's metrics; the maximum concentration is the largest position's share in percent, or 0 without a positive total |
| RiskMetrics.RiskVar | src/risk/risk_metrics.py:132-165 | zeros for no results; a zero base raises; 99% VaR ≤ 95% VaR, both drawn from the P&Ls |
| RiskMetrics.RiskVarRanks | src/risk/risk_metrics.py:148-156 | each VaR is an order statistic of the P&Ls |
| RiskMetrics.RiskVarFewScenarios | src/risk/risk_metrics.py:151-156 | below 20 scenarios both VaRs are the minimum P&L |
| RiskMetrics.Minimum | src/risk/risk_metrics.py:186 | the least element |
| RiskMetrics.Maximum | src/risk/risk_metrics.py:187 | the greatest element |
| RiskMetrics.CalculateIvRank | src/risk/risk_metrics.py:168-205 | None for stocks, missing IV or empty history; otherwise min and max from the history, the rank is the current IV's place in [min, max] in percent (50 on a flat history), percentile in [0, 100] |
| RiskMetrics.RangeRank | src/risk/risk_metrics.py:189-193 | 50 for a flat range; otherwise the rank scaled back by the range width is 100 times the distance above the minimum |
| RiskMetrics.IvRankInRange | src/risk/risk_metrics.py:189-193 | with the current IV inside the history range, the rank lies in [0, 100] |
| RiskMetrics.Entries | src/risk/risk_metrics.py:258-269 | one concentration entry per position |
| RiskMetrics.DescendingFromNegated | src/risk/risk_metrics.py:271 | sorting by negated concentration orders them descending |
| RiskMetrics.IdentifyConcentrations | src/risk/risk_metrics.py:244-271 | a permutation of the entries above threshold, in descending order |
| RiskMetrics.ConcentrationsAboveThreshold | src/risk/risk_metrics.py:258-271 | every reported concentration exceeds the threshold |
| RiskMetrics.NoConcentrationWithoutValue | src/risk/risk_metrics.py:260-263 | a non-positive portfolio value reports nothing |
| RiskMetrics.ExposureLoop | src/risk/risk_metrics.py:284-323 | the long side is the sum of the positive contributions and the short side the sum of the non-positive ones, for delta and gamma; they add up to the totals, with the right signs |
| RiskMetrics.GreeksExposure | src/risk/risk_metrics.py:274-335 | long and short sides are the sums of the positive and non-positive contributions; net delta is the total; totals agree with the portfolio metrics |
| RiskAlerts.Collect | src/risk/risk_alerts.py:84-260 | at most one alert per item |
| RiskAlerts.CollectCount | src/risk/risk_alerts.py:84-260 | the alert count is the number of items the rule fires on |
| RiskAlerts.CollectKeeps | src/risk/risk_alerts.py:84-260 | a property of every produced alert holds of the list |
| RiskAlerts.LossAlert | src/risk/risk_alerts.py:84-104 | fires iff the loss exceeds the limit, reporting the loss as a fraction; HIGH iff it exceeds 1.5 times the limit |
| RiskAlerts.LossAlertMonotone | src/risk/risk_alerts.py:84-104 | a worse P&L alerts whenever a better one does, at no lower severity |
| RiskAlerts.ConcentrationAlert | src/risk/risk_alerts.py:106-128 | fires iff the share exceeds the limit, and then reports that share as its measure; HIGH iff it exceeds 1.5 times the limit |
| RiskAlerts.ConcentrationRulesAgree | src/risk/risk_alerts.py:106-128 | the alert fires on exactly the positions the metrics flag |
| RiskAlerts.EarningsAlert | src/risk/risk_alerts.py:130-154 | the exact firing condition on options by days to expiry, and the alert produced |
| RiskAlerts.ExpiringTodayNotFlagged | src/risk/risk_alerts.py:134-140 | an option expiring today is not flagged |
| RiskAlerts.IvAlert | src/risk/risk_alerts.py:156-188 | HIGH_IV and LOW_IV conditions as iff, LOW severity, the IV reported as the measure |
| RiskAlerts.NegativeIvIsLow | src/risk/risk_alerts.py:158-188 | a negative IV raises LOW_IV |
| RiskAlerts.IfFires | src/risk/risk_alerts.py:190-238 | an alert is emitted iff its condition holds |
| RiskAlerts.GreekAlerts | src/risk/risk_alerts.py:190-238 | vega, gamma and short-gamma alerts fire iff their limits are crossed; only short gamma is HIGH, the others MEDIUM; each reports its Greek (absolute for vega and gamma, signed for short gamma) |
| RiskAlerts.ShortGammaBreachesSmallLimit | src/risk/risk_alerts.py:212-237 | a short-gamma breach also breaches any gamma limit up to 1000 |
| RiskAlerts.StaleAlert | src/risk/risk_alerts.py:240-260 | fires iff the data age exceeds the limit |
| RiskAlerts.PortfolioKindsInMiddle | src/risk/risk_alerts.py:48-82 | portfolio alert kinds come only from the Greek check |
| RiskAlerts.AllOfConcat | src/risk/risk_alerts.py:48-82 | a property of both parts holds of their concatenation |
| RiskAlerts.Checked | src/risk/risk_alerts.py:62-82 | no alert of a check is CRITICAL |
| RiskAlerts.CheckAllRisks | src/risk/risk_alerts.py:48-82 | never CRITICAL; short gamma is reported iff gamma is below the level |
| RiskAlerts.CheckAllRisksResets | src/risk/risk_alerts.py:62-82 | earlier alerts do not affect the result |
| RiskAlerts.LossAlertCount | src/risk/risk_alerts.py:84-104 | the number of loss alerts is the number of scenarios over the limit |
| RiskAlerts.AlertsBySeverity | src/risk/risk_alerts.py:262-272 | exactly the stored alerts of that severity |
| RiskAlerts.HasCriticalAlerts | src/risk/risk_alerts.py:278-280 | true iff some stored alert is CRITICAL |
| RiskAlerts.NoCriticalAfterCheck | src/risk/risk_alerts.py:274-280 | after a check there are no critical alerts |
| RiskAlerts.ClearAlerts | src/risk/risk_alerts.py:331-333 | empties the alerts and keeps the limits |
| EventCalendar.FomcEvent | src/calendar/event_calendar.py:166-185 | a high-impact market FOMC event at 14:00 in the given year |
| EventCalendar.FomcCandidates | src/calendar/event_calendar.py:166-175 | one candidate per scheduled meeting |
| EventCalendar.FomcMeetings | src/calendar/event_calendar.py:156-188 | exactly the scheduled meetings still ahead |
| EventCalendar.NoFomcAfterLastMeeting | src/calendar/event_calendar.py:174-178 | after the last meeting, none is added |
| EventCalendar.DaysUntilFriday | src/calendar/event_calendar.py:241 | 0 to 6 days, landing the 1st of the month on a Friday |
| EventCalendar.ThirdFriday | src/calendar/event_calendar.py:237-244 | a Friday between the 15th and the 21st |
| EventCalendar.MonthlyExpirations | src/calendar/event_calendar.py:236-254 | medium-impact Fridays at 16:00 on days 15..21 of the year, after now; a month's expiration is emitted exactly when its third Friday's midnight is after now, and nothing else is emitted |
| EventCalendar.AllMonthsAheadInJanuary | src/calendar/event_calendar.py:237-254 | on 1 January all twelve months' expirations are added, in month order |
| EventCalendar.WeekOffset | src/calendar/event_calendar.py:259 | the offset to the w-th coming Friday |
| EventCalendar.WeeklyEvent | src/calendar/event_calendar.py:258-268 | a low-impact Friday at 16:00, the given number of weeks ahead |
| EventCalendar.WeeklyCandidates | src/calendar/event_calendar.py:258-259 | one candidate per week ahead |
| EventCalendar.WeeklyExpirations | src/calendar/event_calendar.py:256-268 | Fridays of the requested year, none before today; each of the 52 weekly candidates is emitted exactly when it falls in the year, and nothing else is emitted |
| EventCalendar.WeeklyStep | src/calendar/event_calendar.py:259 | consecutive weekly candidates are 7 days apart |
| EventCalendar.OptionExpirations | src/calendar/event_calendar.py:229-270 | every generated expiration is a Friday at 16:00; each month's and each week's expiration is present exactly under its own condition, and nothing else is |
| EventDetection.SymbolsFrom | src/calendar/event_detection.py:46-51 | the underlyings and stock symbols of the positions |
| EventDetection.WatchedSymbols | src/calendar/event_detection.py:46-51 | the same symbols without duplicates |
| EventDetection.EventsOf | src/calendar/event_detection.py:54-55 | exactly the events the calendar returns for those symbols |
| EventDetection.Bucketed | src/calendar/event_detection.py:58-67 | each bucket holds exactly the events due within its day limit (0, 1, 5, 30) |
| EventDetection.Bucket | src/calendar/event_detection.py:54-81 | the loop builds the four day-buckets of the reference filters |
| EventDetection.CheckEvents | src/calendar/event_detection.py:25-84 | the 30-day bucket holds exactly the gathered events due within 30 days |
| EventDetection.BucketsNest | src/calendar/event_detection.py:58-67 | each bucket is the next-wider bucket filtered by its own limit |
| EventDetection.GatheredCovers | src/calendar/event_detection.py:46-70 | every position's events and the market-wide events are gathered |
| EventDetection.TriggeredBy | src/calendar/event_detection.py:226-233 | the scenarios triggered by any of the events |
| EventDetection.RelevantScenarios | src/calendar/event_detection.py:213-246 | the loop returns the candidates without duplicates, first occurrence kept |
| EventDetection.RelevantScenariosShape | src/calendar/event_detection.py:223-246 | Normal Day first; Panic and Relief present; no duplicates; first-occurrence order |
| EventDetection.RelevantScenariosFollowEvents | src/calendar/event_detection.py:226-236 | Fed, earnings and decay scenarios appear iff a matching event is imminent |
| EventDetection.RelevantScenariosInCatalog | src/calendar/event_detection.py:213-246 | every suggested scenario exists in the catalogue |
| EventDetection.ThirdFridayAsWritten | src/calendar/event_detection.py:146 | as written, the computed day is 29..35, two weeks after the real third Friday |
| EventDetection.IsWeekly | src/calendar/event_detection.py:145-151 | as written, every expiry before the 29th counts as weekly |
| EventDetection.MonthlyExpiryTakenForWeekly | src/calendar/event_detection.py:145-151 | as written, every monthly expiry counts as a weekly one |
| EventDetection.FifthFridayTakenForMonthly | src/calendar/event_detection.py:145-151 | as written, 29 March 2024 counts as monthly |
| EventDetection.CorrectedWeeklyIff | src/calendar/event_detection.py:145-151 | corrected: an expiry is weekly iff it is not the third Friday |
| EventDetection.WindowsDisjoint | src/calendar/event_detection.py:162-168 | an event is never in both windows; the after-window is 1..3 days later |
| EventDetection.NearEvents | src/calendar/event_detection.py:128-184 | at most one flag per position |
| EventDetection.NearEventsSound | src/calendar/event_detection.py:140-177 | each flag is a weekly option on a named underlying with at least one nearby event, and its lists are the window filters |
| EventDetection.NearEventsFlags | src/calendar/event_detection.py:140-177 | a weekly option with an event in a window is flagged |
| Scheduler.IsMarketHours | src/automation/scheduler.py:151-174 | 09:30 and 16:00 on a weekday are both market hours; market hours are neither pre-market nor after-hours |
| Scheduler.IsPreMarket | src/automation/scheduler.py:177-198 | 04:00 on a weekday is pre-market, 09:30 is not; pre-market is never after-hours |
| Scheduler.IsAfterHours | src/automation/scheduler.py:201-222 | 16:00 is not after-hours; 20:00 on a weekday is |
| Scheduler.SessionsPartitionTradingDay | src/automation/scheduler.py:151-222 | weekends have no session; the three sessions are disjoint and together cover 4:00-20:00 on weekdays |
| Scheduler.SkipWeekend | src/automation/scheduler.py:248-250 | a weekday, reached by stepping over the remaining weekend days (two from a Saturday, one from a Sunday, none otherwise) |
| Scheduler.SkipWeekendSkipsOnlyWeekend | src/automation/scheduler.py:248-250 | only weekend days are skipped, stated on day ordinals |
| Scheduler.SkippedDayIsWeekend | src/automation/scheduler.py:248-250 | every date the loop steps over is a Saturday or a Sunday |
| Scheduler.TimeUntilMarketOpen | src/automation/scheduler.py:225-253 | 0 during market hours; otherwise the whole minutes until the next weekday open |
| Scheduler.NextOpenDate | src/automation/scheduler.py:241-250 | a weekday zero to three days ahead; strictly later once 09:30 has passed; today on a weekday before the open |
| Scheduler.NextOpenAhead | src/automation/scheduler.py:241-250 | the next open is on a weekday and after now |
| Scheduler.NextOpenIsFirst | src/automation/scheduler.py:241-250 | no weekday open lies strictly between now and the next open |
| Scheduler.ReplaceNextDay | src/automation/scheduler.py:246 | `replace(day=day+1)` raises exactly on a month's last day |
| Scheduler.SkipWeekendAsWritten | src/automation/scheduler.py:248-250 | when it does not raise it agrees with the corrected skip |
| Scheduler.TimeUntilMarketOpenAsWritten | src/automation/scheduler.py:225-253 | when it does not raise it agrees with the corrected count |
| Scheduler.AsWrittenFailsOnMonthEnd | src/automation/scheduler.py:244-246 | after the open on a month's last day, the original raises |
| Scheduler.MayThirtyFirstEvening | src/automation/scheduler.py:244-250 | 31 May 2024 at 17:00 raises, while the next open is 3 June |
| Scheduler.Recorded | src/automation/scheduler.py:117-132 | stamps one job and leaves the others |
| Scheduler.RunJobs | src/automation/scheduler.py:109-139 | the jobs fired are a subsequence of the listed jobs, so in listed order and, for distinct jobs, at most once each |
| Scheduler.RaisesOnlyOnLast | src/automation/scheduler.py:109-139 | every job fired before the last one returned; the pass reports a raise exactly when the last job fired raised |
| Scheduler.MonitorTick | src/automation/scheduler.py:109-139 | one pass fires update, scenarios and snapshot in that order, each at most once |
| Scheduler.AllSucceedRunsDueJobs | src/automation/scheduler.py:114-132 | when every callback returns, exactly the due jobs fire and are stamped |
| Scheduler.StampsMoveOnlyOnSuccess | src/automation/scheduler.py:114-139 | a stamp moves only for a job that fired and returned; fired jobs were due |
| Scheduler.FailingUpdateSkipsRest | src/automation/scheduler.py:114-139 | a raising update ends the pass |
| Scheduler.FirstTickRunsEverything | src/automation/scheduler.py:114-132 | the first pass runs all three jobs |
| Scheduler.NoRerunWithinInterval | src/automation/scheduler.py:114-132 | a job that ran is not rerun within its interval |
| Scheduler.RanAndReturnedIsStamped | src/automation/scheduler.py:114-132 | a job that fired and returned is stamped with now |
| MarketData.NewCache | src/data_collection/market_data_manager.py:18-26 | an empty cache with the given TTL |
| MarketData.CacheGet | src/data_collection/market_data_manager.py:28-36 | a hit iff the entry is younger than the TTL; a stale entry is removed; other keys untouched |
| MarketData.CacheSet | src/data_collection/market_data_manager.py:38-40 | stores the data stamped now; other keys untouched |
| MarketData.CacheClear | src/data_collection/market_data_manager.py:42-44 | no entries remain |
| MarketData.GetAfterSet | src/data_collection/market_data_manager.py:28-40 | reading back a set value succeeds exactly within the TTL |
| MarketData.SetOverwrites | src/data_collection/market_data_manager.py:38-40 | the second set wins |
| MarketData.ClearedMisses | src/data_collection/market_data_manager.py:28-44 | after clear every get misses |
| MarketData.SaveSnapshot | src/data_collection/market_data_manager.py:271-308 | skipped within the interval; all rows or none; the stamp advances only on commit |
| MarketData.NoSnapshotWithinInterval | src/data_collection/market_data_manager.py:278-304 | a second call within the interval writes nothing |
| MarketData.FailedSnapshotRetries | src/data_collection/market_data_manager.py:278-308 | a failed write leaves the throttle open |
| PositionTracker.CreatedKeys | src/data_collection/position_tracker.py:39-44 | the keys of the positions created |
| PositionTracker.Load | src/data_collection/position_tracker.py:39-44 | the store has distinct keys |
| PositionTracker.LastWithKey | src/data_collection/position_tracker.py:39-44 | the last created position with the key |
| PositionTracker.LoadLastWins | src/data_collection/position_tracker.py:39-44 | each key holds its last created position; keys keep first-appearance order |
| PositionTracker.GetPosition | src/data_collection/position_tracker.py:152-154 | found iff the key is stored |
| PositionTracker.StockPositions | src/data_collection/position_tracker.py:160-162 | exactly the stored positions that are not options |
| PositionTracker.OptionPositions | src/data_collection/position_tracker.py:164-166 | exactly the stored positions that are options |
| PositionTracker.StockAndOptionPartition | src/data_collection/position_tracker.py:156-166 | the stock and option lists split the stored positions |
| PositionTracker.PositionsByUnderlying | src/data_collection/position_tracker.py:168-184 | options on the underlying and the stock itself |
| PositionTracker.TotalPortfolioValue | src/data_collection/position_tracker.py:186-188 | the sum of values, equal to the metrics total and to the stock plus option sums |

## Left out

- The Black-Scholes closed form (`norm.cdf`, logarithms, square roots) is a parameter. The pricing facts hold for every formula, and nothing about the formula's own values is proved.
- Floating point is modelled as exact `real` arithmetic: no rounding, NaN or infinity.
- `int(...)` truncation of non-negative reals is modelled with `Num.Trunc`. Negative operands appear only in the VaR index, where Python's negative indexing is modelled (`Percentile.PyIndex`).
- I/O is left out: the IB connection, market data subscriptions, yfinance, SQLite reads and writes, CSV loading and report generation. Broker replies and database commits are parameters (`PositionTracker.Load` takes the created positions; `MarketData.SaveSnapshot` takes whether the write commits).
- The `asyncio` loop, `PortfolioScheduler`, sleeping and logging are left out. `Scheduler.MonitorTick` models one pass of the loop.
- The correlation matrix and the pandas DataFrame summaries are left out: they are statistics over data frames, not logic of the core.
- `calculate_position_metrics` is left out: it only reformats fields already modelled.
- Clocks are parameters. Times carry whole seconds: microseconds are dropped, and years are not capped at 9999.
- `get_upcoming_events` is a parameter (`EventDetection.Lookup`) because its result comes from the database.
- `flag_earnings_before_expiration` and `get_event_summary` are left out: they only restate events already bucketed.
- `get_market_hours` and `is_market_open` in the calendar are left out: they depend on an exchange-calendar library.
- Python set iteration order is arbitrary. The model uses first-appearance order for watched symbols and suggested scenarios, and the proved facts hold for the set contents whatever the order.
- Positions.Key: the key is a structured value rather than the formatted string `underlying_type_strike_YYYYMMDD`. String keys could collide (a stock symbol spelled like an option key, or components containing `_`); the structured key cannot.
- Aggregation.OptionScenarioValue: the price with time left comes from the uninterpreted pricing formula, so no number is claimed for it and no zero-change P&L is claimed for options. How the formula is called (spot, strike, years, IV, type, dividend yield 0, the kernel's risk-free rate) and how its result is scaled is stated by `OptionScenarioPriced` and `OptionPricingFailurePropagates`; failures and the value at expiry by `OptionScenarioErrors` and `OptionScenarioAtExpiry`.
- EventDetection.NearEvents: its own contract states only the flag count. The full soundness and completeness are stated by `NearEventsSound` and `NearEventsFlags`.
- RiskAlerts.CheckAllRisks: states the severity bound and the short-gamma condition. The per-rule conditions are stated on each rule (`LossAlert`, `ConcentrationAlert`, ...) and connected by `CollectCount`/`CollectKeeps`.
- `src/data_collection/position_tracker.py` uses `Optional` without importing it, so importing the module would fail. The model treats it as if the import were present.

## Findings

| source | as written | input that shows it | evidently intended | confidence | as-written member | corrected member |
|---|---|---|---|---|---|---|
| src/valuation/portfolio_aggregation.py:277 | `for scenario_name, result in scenario_results.values()` unpacks each result dict into two names | any non-empty result dict, e.g. one scenario `{"Market Panic": {...}}` | iterate `.items()` and return the most negative P&L and its scenario | high (not executed) | Aggregation.MaxDrawdownAsWritten, Aggregation.MaxDrawdownAsWrittenRaises | Aggregation.MaxDrawdown |
| src/automation/scheduler.py:246 | the next day is computed with `replace(day=day+1)`, and weekends are skipped the same way at line 250 | 31 May 2024 at 17:00 (any evening on a month's last day) raises "day is out of range for month" | advance by one calendar day (`timedelta(days=1)`) | high (not executed) | Scheduler.TimeUntilMarketOpenAsWritten, Scheduler.MayThirtyFirstEvening | Scheduler.TimeUntilMarketOpen, Scheduler.NextOpenIsFirst |
| src/calendar/event_detection.py:146 | the "third Friday" is computed as day 15 + (4 − weekday of the 1st) mod 7 + 14, always 29..35 | the monthly expiry 19 April 2024 counts as weekly; Friday 29 March 2024 counts as monthly | the third Friday is day 15..21, so only non-third-Friday expiries are weekly | high (not executed) | EventDetection.MonthlyExpiryTakenForWeekly, EventDetection.FifthFridayTakenForMonthly | EventDetection.CorrectedWeeklyIff |

Where the code and its documentation disagree, the model follows the code:

- A put with moneyness 1.05 (spot 95, strike 100) is ITM_PUT, not ATM.
- In a scenario, a failing position keeps its current value in the total but is missing from the per-position results.
- An option's own price stands in as the spot when no stock on the underlying is held.
- LOW_IV fires for negative IVs too.
- Weekly expirations count from today's date even after 16:00.
- Monthly expirations are compared against now at midnight of the third Friday.

=== FILE: aggregation.dfy ===
/** Portfolio valuation and scenario analysis: current Greeks and values, repricing every
    position under a scenario with a fail-open fallback, and statistics over many
    scenarios. */
module Aggregation {
  import opened Wrappers
  import opened Num
  import opened Seqs
  import opened Dicts
  import opened Dates
  import opened Positions
  import opened Scenarios
  import opened IvModel
  import opened BlackScholes
  import opened Percentile

  /** `calculate_current_portfolio_value`'s dictionary. */
  datatype Metrics = Metrics(totalValue: real, stockValue: real, optionValue: real,
                             delta: real, gamma: real, theta: real, vega: real, rho: real)

  function ValueOf(p: Position): real { p.positionValue }
  predicate IsStock(p: Position) { !p.isOption }
  predicate IsOptionPosition(p: Position) { p.isOption }

  /** An option Greek scaled by quantity and contract multiplier; nothing when unknown. */
  function Weighted(g: Option<real>, p: Position): real
  {
    if g.Some? then g.value * p.quantity * p.multiplier as real else 0.0
  }

  /** Per-position contributions: a share of stock carries a delta of one and no other
      Greek. */
  function DeltaOf(p: Position): real { if p.isOption then Weighted(p.delta, p) else p.quantity }
  function GammaOf(p: Position): real { if p.isOption then Weighted(p.gamma, p) else 0.0 }
  function ThetaOf(p: Position): real { if p.isOption then Weighted(p.theta, p) else 0.0 }
  function VegaOf(p: Position): real { if p.isOption then Weighted(p.vega, p) else 0.0 }
  function RhoOf(p: Position): real { if p.isOption then Weighted(p.rho, p) else 0.0 }

  /** One iteration of the accumulation loop. */
  function Accumulate(m: Metrics, p: Position): Metrics
  {
    Metrics(m.totalValue + p.positionValue,
            m.stockValue + (if p.isOption then 0.0 else p.positionValue),
            m.optionValue + (if p.isOption then p.positionValue else 0.0),
            m.delta + DeltaOf(p), m.gamma + GammaOf(p), m.theta + ThetaOf(p),
            m.vega + VegaOf(p), m.rho + RhoOf(p))
  }

  /** `calculate_current_portfolio_value`: the loop over the positions in order. */
  function CurrentMetrics(ps: seq<Position>): (m: Metrics)
    ensures m.totalValue == m.stockValue + m.optionValue
    ensures m.totalValue == Sum(ps, ValueOf)
    ensures m.stockValue == Sum(Filter(ps, IsStock), ValueOf)
    ensures m.optionValue == Sum(Filter(ps, IsOptionPosition), ValueOf)
    ensures m.delta == Sum(ps, DeltaOf) && m.gamma == Sum(ps, GammaOf) && m.theta == Sum(ps, ThetaOf)
    ensures m.vega == Sum(ps, VegaOf) && m.rho == Sum(ps, RhoOf)
    decreases |ps|
  {
    if |ps| == 0 then Metrics(0.0, 0.0, 0.0, 0.0, 0.0, 0.0, 0.0, 0.0)
    else
      var init := ps[..|ps| - 1];
      var last := ps[|ps| - 1];
      assert ps == init + [last];
      SumSnoc(init, last, ValueOf);
      SumSnoc(init, last, DeltaOf);
      SumSnoc(init, last, GammaOf);
      SumSnoc(init, last, ThetaOf);
      SumSnoc(init, last, VegaOf);
      SumSnoc(init, last, RhoOf);
      SumFilterSnoc(init, last, IsStock, ValueOf);
      SumFilterSnoc(init, last, IsOptionPosition, ValueOf);
      Accumulate(CurrentMetrics(init), last)
  }

  /** A portfolio of stock only has no option value, a delta equal to its share count, and
      no other Greek. */
  lemma {:induction false} StockOnlyMetrics(ps: seq<Position>)
    requires forall i :: 0 <= i < |ps| ==> !ps[i].isOption
    ensures CurrentMetrics(ps).optionValue == 0.0
    ensures CurrentMetrics(ps).delta == Sum(ps, (p: Position) => p.quantity)
    ensures CurrentMetrics(ps).gamma == 0.0 && CurrentMetrics(ps).vega == 0.0
  {
    if |ps| > 0 {
      StockOnlyMetrics(ps[1..]);
      assert Filter(ps, IsOptionPosition) == [] by {
        forall x | x in ps ensures !IsOptionPosition(x) { }
      }
    }
  }

  // ---------------------------------------------------------------- shocked prices

  /** A price moved by a relative change: `price * (1 + change)`. */
  function Shock(price: real, change: real): real { price * (1.0 + change) }

  /** The key a position writes in `underlying_prices`: its underlying for an option, its
      own symbol for a stock. */
  function ShockKey(p: Position): Option<string> {
    if p.isOption then p.underlying else Some(p.symbol)
  }

  /** One iteration of the loop that builds `underlying_prices`: an option fills in its
      underlying's key from its OWN current price, only if the key is still absent; a stock
      always writes its symbol's key. */
  function ShockStep(d: Dict<Option<string>, real>, p: Position, spotChange: real): (r: Dict<Option<string>, real>)
    requires DistinctKeys(d)
    ensures DistinctKeys(r)
  {
    if p.isOption && Get(d, ShockKey(p)).Some? then d
    else Put(d, ShockKey(p), Shock(p.currentPrice, spotChange))
  }

  /** The shocked-price dictionary of `run_scenario`, keyed by underlying (or stock symbol). */
  function ShockedPrices(ps: seq<Position>, spotChange: real): (d: Dict<Option<string>, real>)
    ensures DistinctKeys(d)
    decreases |ps|
  {
    if |ps| == 0 then [] else ShockStep(ShockedPrices(ps[..|ps| - 1], spotChange), ps[|ps| - 1], spotChange)
  }

  /** Whether `p` is a stock whose symbol is the key. */
  predicate StockOn(p: Position, k: Option<string>) { !p.isOption && Some(p.symbol) == k }

  /** Whether `p` is an option on the key's underlying. */
  predicate OptionOn(p: Position, k: Option<string>) { p.isOption && p.underlying == k }

  /** Index of the last stock on the key, -1 when there is none. */
  function LastStockIndex(ps: seq<Position>, k: Option<string>): (i: int)
    ensures -1 <= i < |ps|
    ensures i >= 0 ==> StockOn(ps[i], k)
    ensures forall j :: i < j < |ps| ==> !StockOn(ps[j], k)
    decreases |ps|
  {
    if |ps| == 0 then -1
    else if StockOn(ps[|ps| - 1], k) then |ps| - 1
    else LastStockIndex(ps[..|ps| - 1], k)
  }

  /** Index of the first option on the key, `|ps|` when there is none. */
  function FirstOptionIndex(ps: seq<Position>, k: Option<string>): (i: nat)
    ensures i <= |ps|
    ensures i < |ps| ==> OptionOn(ps[i], k)
    ensures forall j :: 0 <= j < i ==> !OptionOn(ps[j], k)
    decreases |ps|
  {
    if |ps| == 0 then 0
    else
      var i := FirstOptionIndex(ps[..|ps| - 1], k);
      if i < |ps| - 1 then i
      else if OptionOn(ps[|ps| - 1], k) then |ps| - 1
      else |ps|
  }

  /** Where a shocked price comes from: the last stock of that symbol if there is one,
      otherwise the first option on that underlying, priced at the option's own price. */
  lemma {:induction false} ShockedPriceOrigin(ps: seq<Position>, spotChange: real, k: Option<string>)
    ensures var s := LastStockIndex(ps, k);
            var o := FirstOptionIndex(ps, k);
            Get(ShockedPrices(ps, spotChange), k)
              == if s >= 0 then Some(Shock(ps[s].currentPrice, spotChange))
                 else if o < |ps| then Some(Shock(ps[o].currentPrice, spotChange))
                 else None
    decreases |ps|
  {
    if |ps| > 0 {
      var init := ps[..|ps| - 1];
      var p := ps[|ps| - 1];
      var d := ShockedPrices(init, spotChange);
      ShockedPriceOrigin(init, spotChange, k);
      assert forall i :: 0 <= i < |init| ==> init[i] == ps[i];
      var v := Shock(p.currentPrice, spotChange);
      var o := FirstOptionIndex(init, k);
      ShockStepGet(d, p, spotChange, k);
      assert LastStockIndex(ps, k) == if StockOn(p, k) then |ps| - 1 else LastStockIndex(init, k);
      assert FirstOptionIndex(ps, k) == if o < |init| then o else if OptionOn(p, k) then |ps| - 1 else |ps|;
    }
  }

  /** One step of the shocked-price loop, seen through a lookup of `k`. */
  lemma ShockStepGet(d: Dict<Option<string>, real>, p: Position, spotChange: real, k: Option<string>)
    requires DistinctKeys(d)
    ensures Get(ShockStep(d, p, spotChange), k)
         == if StockOn(p, k) || (OptionOn(p, k) && Get(d, k).None?) then Some(Shock(p.currentPrice, spotChange))
            else Get(d, k)
  {
    var v := Shock(p.currentPrice, spotChange);
    if !(p.isOption && Get(d, ShockKey(p)).Some?) {
      GetPut(d, ShockKey(p), v, k);
    }
  }

  // ---------------------------------------------------------------- repricing

  /** One entry of `position_results`. */
  datatype PositionResult = PositionResult(symbol: string, isOption: bool, currentValue: real,
                                           scenarioValue: real, pnl: real, pnlPercent: real)

  /** `pnl / base * 100`, or 0 when the base is 0. */
  function PercentOf(pnl: real, base: real): (r: real)
    ensures base == 0.0 ==> r == 0.0
    ensures base != 0.0 ==> r * base == pnl * 100.0
  {
    if base != 0.0 then pnl / base * 100.0 else 0.0
  }

  function ResultFor(p: Position, newValue: real): (r: PositionResult)
    ensures r.currentValue == p.positionValue && r.scenarioValue == newValue
    ensures r.currentValue + r.pnl == r.scenarioValue
  {
    var pnl := newValue - p.positionValue;
    PositionResult(p.symbol, p.isOption, p.positionValue, newValue, pnl, PercentOf(pnl, p.positionValue))
  }

  /** `_calculate_stock_scenario_value`: shocked price times quantity; without a shocked
      price the stock's own price is shocked. */
  function StockScenarioValue(p: Position, spec: Spec, price: Option<real>): (v: real)
    ensures price.Some? ==> v == price.value * p.quantity
    ensures price.None? ==> v == p.currentPrice * p.quantity * (1.0 + spec.spotChange)
    ensures price.None? && spec.spotChange == 0.0 ==> v == p.currentPrice * p.quantity
  {
    price.GetOr(Shock(p.currentPrice, spec.spotChange)) * p.quantity
  }

  /** Days to expiry after the scenario's days pass, never below 0. */
  function RemainingDays(p: Position, spec: Spec, now: Moment): (d: nat)
    ensures d >= EffectiveDte(p, now) - spec.daysPass
    ensures d == 0 || d == EffectiveDte(p, now) - spec.daysPass
  {
    var d := EffectiveDte(p, now) - spec.daysPass;
    if d > 0 then d else 0
  }

  /** `_calculate_option_scenario_value`: reprice with the shifted IV and the remaining time,
      per contract times quantity. A failure of the IV model or of the pricer propagates. */
  function OptionScenarioValue(k: Kernel, p: Position, spec: Spec, underlying: Option<real>,
                               now: Moment): (r: Result<real>)
    ensures PositionIv(p, spec, underlying.GetOr(Shock(p.currentPrice, spec.spotChange)), now).Err? ==> r.Err?
  {
    var spot := underlying.GetOr(Shock(p.currentPrice, spec.spotChange));
    match PositionIv(p, spec, spot, now)
    case Err(f) => Err(f)
    case Ok(iv) =>
      if p.strike.None? then Err(NoneOperand)
      else
        var years := RemainingDays(p, spec, now) as real / 365.0;
        match Price(k, spot, p.strike.value, years, iv, IsCall(p), 0.0)
        case Err(f) => Err(f)
        case Ok(price) => Ok(price * p.quantity * p.multiplier as real)
  }

  /** An option's scenario value fails only when its IV fails, its strike is missing, or
      time is left and the strike is 0. */
  lemma OptionScenarioErrors(k: Kernel, p: Position, spec: Spec, underlying: Option<real>, now: Moment)
    ensures OptionScenarioValue(k, p, spec, underlying, now).Err? ==>
              PositionIv(p, spec, underlying.GetOr(Shock(p.currentPrice, spec.spotChange)), now).Err?
              || p.strike.None? || (RemainingDays(p, spec, now) > 0 && p.strike.value == 0.0)
  {
    var years := RemainingDays(p, spec, now) as real / 365.0;
    assert years > 0.0 <==> RemainingDays(p, spec, now) > 0;
  }

  /** Whatever the time left, an option is repriced at the shocked spot, the scenario IV and
      the remaining days over 365, per contract times quantity. */
  lemma OptionScenarioPriced(k: Kernel, p: Position, spec: Spec, underlying: Option<real>, now: Moment,
                             spot: real, iv: real)
    requires spot == underlying.GetOr(Shock(p.currentPrice, spec.spotChange))
    requires PositionIv(p, spec, spot, now) == Ok(iv)
    requires p.strike.Some?
    requires Price(k, spot, p.strike.value, RemainingDays(p, spec, now) as real / 365.0, iv, IsCall(p), 0.0).Ok?
    ensures OptionScenarioValue(k, p, spec, underlying, now).Ok?
    ensures OptionScenarioValue(k, p, spec, underlying, now).value ==
              Price(k, spot, p.strike.value, RemainingDays(p, spec, now) as real / 365.0, iv, IsCall(p), 0.0).value
              * p.quantity * p.multiplier as real
  {
  }

  /** A failure of the pricer at those inputs passes through unchanged. */
  lemma OptionPricingFailurePropagates(k: Kernel, p: Position, spec: Spec, underlying: Option<real>, now: Moment,
                                       spot: real, iv: real)
    requires spot == underlying.GetOr(Shock(p.currentPrice, spec.spotChange))
    requires PositionIv(p, spec, spot, now) == Ok(iv)
    requires p.strike.Some?
    requires Price(k, spot, p.strike.value, RemainingDays(p, spec, now) as real / 365.0, iv, IsCall(p), 0.0).Err?
    ensures OptionScenarioValue(k, p, spec, underlying, now) ==
              Err(Price(k, spot, p.strike.value, RemainingDays(p, spec, now) as real / 365.0, iv, IsCall(p), 0.0).fault)
  {
  }

  /** With no time left after the scenario's days pass, an option is worth its payoff at the
      shocked spot, per contract times quantity, whatever the pricing formula. */
  lemma OptionScenarioAtExpiry(k: Kernel, p: Position, spec: Spec, underlying: Option<real>, now: Moment)
    requires PositionIv(p, spec, underlying.GetOr(Shock(p.currentPrice, spec.spotChange)), now).Ok?
    requires p.strike.Some? && RemainingDays(p, spec, now) == 0
    ensures OptionScenarioValue(k, p, spec, underlying, now).Ok?
    ensures OptionScenarioValue(k, p, spec, underlying, now).value ==
              Intrinsic(underlying.GetOr(Shock(p.currentPrice, spec.spotChange)), p.strike.value, IsCall(p))
              * p.quantity * p.multiplier as real
  {
    var spot := underlying.GetOr(Shock(p.currentPrice, spec.spotChange));
    var iv := PositionIv(p, spec, spot, now).value;
    assert RemainingDays(p, spec, now) as real / 365.0 == 0.0;
    var price := Price(k, spot, p.strike.value, 0.0, iv, IsCall(p), 0.0);
    assert price.Ok? && price.value == Intrinsic(spot, p.strike.value, IsCall(p));
    OptionScenarioPriced(k, p, spec, underlying, now, spot, iv);
  }

  /** The scenario value of one position, or the exception its evaluation raises. */
  function ScenarioValue(k: Kernel, p: Position, spec: Spec, prices: Dict<Option<string>, real>,
                         now: Moment): (r: Result<real>)
    ensures !p.isOption ==> r.Ok?
    ensures !p.isOption && Get(prices, Some(p.symbol)).Some? ==>
              r.value == Get(prices, Some(p.symbol)).value * p.quantity
  {
    if p.isOption then OptionScenarioValue(k, p, spec, Get(prices, p.underlying), now)
    else Ok(StockScenarioValue(p, spec, Get(prices, Some(p.symbol))))
  }

  /** What a position adds to the scenario total: its new value, or its current value when
      its evaluation raised. */
  function CarriedValue(k: Kernel, p: Position, spec: Spec, prices: Dict<Option<string>, real>,
                        now: Moment): real
  {
    match ScenarioValue(k, p, spec, prices, now)
    case Ok(v) => v
    case Err(_) => p.positionValue
  }

  function Carried(k: Kernel, spec: Spec, prices: Dict<Option<string>, real>, now: Moment): Position -> real
  {
    (p: Position) => CarriedValue(k, p, spec, prices, now)
  }

  function Fails(k: Kernel, spec: Spec, prices: Dict<Option<string>, real>, now: Moment): Position -> bool
  {
    (p: Position) => ScenarioValue(k, p, spec, prices, now).Err?
  }

  function ScenarioValueOf(r: PositionResult): real { r.scenarioValue }
  function PnlOf(r: PositionResult): real { r.pnl }
  function CurrentValueOf(r: PositionResult): real { r.currentValue }

  /** The second loop of `run_scenario`: the running total and the results list. */
  datatype Evaluation = Evaluation(total: real, results: seq<PositionResult>)

  function Evaluate(k: Kernel, ps: seq<Position>, spec: Spec, prices: Dict<Option<string>, real>,
                    now: Moment): (e: Evaluation)
    ensures |e.results| <= |ps|
    decreases |ps|
  {
    if |ps| == 0 then Evaluation(0.0, [])
    else
      var rest := Evaluate(k, ps[1..], spec, prices, now);
      match ScenarioValue(k, ps[0], spec, prices, now)
      case Ok(v) => Evaluation(v + rest.total, [ResultFor(ps[0], v)] + rest.results)
      case Err(_) => Evaluation(ps[0].positionValue + rest.total, rest.results)
  }

  /** Fail-open: the total is every successful new value plus the current value of every
      failing position, and the failing positions are missing from the results. */
  lemma {:induction false} EvaluateFailOpen(k: Kernel, ps: seq<Position>, spec: Spec,
                                            prices: Dict<Option<string>, real>, now: Moment)
    ensures var e := Evaluate(k, ps, spec, prices, now);
            e.total == Sum(e.results, ScenarioValueOf) + Sum(Filter(ps, Fails(k, spec, prices, now)), ValueOf)
            && |e.results| + |Filter(ps, Fails(k, spec, prices, now))| == |ps|
            && e.total == Sum(ps, Carried(k, spec, prices, now))
    decreases |ps|
  {
    if |ps| > 0 {
      var p := ps[0];
      var fails := Fails(k, spec, prices, now);
      var rest := Evaluate(k, ps[1..], spec, prices, now);
      EvaluateFailOpen(k, ps[1..], spec, prices, now);
      assert Filter(ps, fails) == (if fails(p) then [p] else []) + Filter(ps[1..], fails);
      SumAppend(if fails(p) then [p] else [], Filter(ps[1..], fails), ValueOf);
      assert Sum(ps, Carried(k, spec, prices, now))
          == CarriedValue(k, p, spec, prices, now) + Sum(ps[1..], Carried(k, spec, prices, now));
      match ScenarioValue(k, p, spec, prices, now)
      case Ok(v) =>
        assert Evaluate(k, ps, spec, prices, now).results == [ResultFor(p, v)] + rest.results;
      case Err(_) =>
    }
  }

  /** With no failure, the results are one per position, in order, and their P&L sums to the
      difference between the new and the current totals. */
  lemma {:induction false} EvaluateNoFailure(k: Kernel, ps: seq<Position>, spec: Spec,
                                             prices: Dict<Option<string>, real>, now: Moment)
    requires forall i :: 0 <= i < |ps| ==> ScenarioValue(k, ps[i], spec, prices, now).Ok?
    ensures var e := Evaluate(k, ps, spec, prices, now);
            |e.results| == |ps|
            && (forall i :: 0 <= i < |ps| ==>
                  e.results[i] == ResultFor(ps[i], ScenarioValue(k, ps[i], spec, prices, now).value))
            && Sum(e.results, PnlOf) == e.total - Sum(ps, ValueOf)
    decreases |ps|
  {
    if |ps| > 0 {
      EvaluateNoFailure(k, ps[1..], spec, prices, now);
    }
  }

  /** `run_scenario`'s dictionary. */
  datatype ScenarioResult = ScenarioResult(
    name: string, currentValue: real, scenarioValue: real, pnl: real, pnlPercent: real,
    worst: Option<PositionResult>, best: Option<PositionResult>,
    results: seq<PositionResult>, metrics: Metrics)

  /** The worst and the best result: head and tail of the stable ascending sort on P&L. */
  function Extremes(results: seq<PositionResult>): (r: (Option<PositionResult>, Option<PositionResult>))
    ensures r.0.None? <==> |results| == 0
    ensures r.1.None? <==> |results| == 0
    ensures |results| > 0 ==> r.0 == Some(results[FirstMinIndex(results, PnlOf)])
    ensures |results| > 0 ==> r.1 == Some(results[LastMaxIndex(results, PnlOf)])
  {
    var sorted := SortBy(results, PnlOf);
    if |sorted| == 0 then (None, None)
    else
      SortByHeadIsFirstMin(results, PnlOf);
      SortByLastIsLastMax(results, PnlOf);
      (Some(sorted[0]), Some(sorted[|sorted| - 1]))
  }

  /** `run_scenario`: shock the prices, reprice every position (fail-open), total up, and
      pick the worst and best results. */
  function RunScenario(k: Kernel, ps: seq<Position>, spec: Spec, now: Moment): (r: ScenarioResult)
    ensures r.currentValue == r.metrics.totalValue == Sum(ps, ValueOf)
    ensures r.scenarioValue == Sum(ps, Carried(k, spec, ShockedPrices(ps, spec.spotChange), now))
    ensures r.pnl == r.scenarioValue - r.currentValue
    ensures r.pnlPercent == PercentOf(r.pnl, r.currentValue)
    ensures r.results == Evaluate(k, ps, spec, ShockedPrices(ps, spec.spotChange), now).results
    ensures (r.worst, r.best) == Extremes(r.results)
  {
    var metrics := CurrentMetrics(ps);
    var prices := ShockedPrices(ps, spec.spotChange);
    var e := Evaluate(k, ps, spec, prices, now);
    EvaluateFailOpen(k, ps, spec, prices, now);
    var pnl := e.total - metrics.totalValue;
    var extremes := Extremes(e.results);
    ScenarioResult(spec.name, metrics.totalValue, e.total, pnl, PercentOf(pnl, metrics.totalValue),
                   extremes.0, extremes.1, e.results, metrics)
  }

  /** In a scenario run, an option is repriced at its underlying's shared shocked price: the
      last stock on the underlying's, or else the first option's on it. */
  lemma OptionRepricedAtUnderlying(k: Kernel, ps: seq<Position>, spec: Spec, now: Moment, i: int)
    requires 0 <= i < |ps| && ps[i].isOption
    ensures var u := ps[i].underlying;
            var s := LastStockIndex(ps, u);
            var o := FirstOptionIndex(ps, u);
            o <= i &&
            ScenarioValue(k, ps[i], spec, ShockedPrices(ps, spec.spotChange), now)
              == OptionScenarioValue(k, ps[i], spec,
                                     Some(Shock(ps[if s >= 0 then s else o].currentPrice, spec.spotChange)), now)
  {
    ShockedPriceOrigin(ps, spec.spotChange, ps[i].underlying);
  }

  /** With no price move, a portfolio of stocks whose values are up to date, and where
      stocks of one symbol carry one price, has zero scenario P&L. */
  lemma {:induction false} StockZeroChange(k: Kernel, ps: seq<Position>, spec: Spec, now: Moment)
    requires spec.spotChange == 0.0
    requires forall i :: 0 <= i < |ps| ==> !ps[i].isOption && ValueConsistent(ps[i])
    requires forall i, j :: 0 <= i < |ps| && 0 <= j < |ps| && ps[i].symbol == ps[j].symbol ==>
               ps[i].currentPrice == ps[j].currentPrice
    ensures RunScenario(k, ps, spec, now).pnl == 0.0
  {
    var prices := ShockedPrices(ps, spec.spotChange);
    forall i | 0 <= i < |ps|
      ensures Carried(k, spec, prices, now)(ps[i]) == ValueOf(ps[i])
    {
      StockKeepsValue(k, ps, spec, now, i);
    }
    SumCongruent(ps, Carried(k, spec, prices, now), ValueOf);
  }

  /** Under the same conditions each stock is carried at its current value. */
  lemma StockKeepsValue(k: Kernel, ps: seq<Position>, spec: Spec, now: Moment, i: int)
    requires spec.spotChange == 0.0 && 0 <= i < |ps|
    requires forall i :: 0 <= i < |ps| ==> !ps[i].isOption && ValueConsistent(ps[i])
    requires forall i, j :: 0 <= i < |ps| && 0 <= j < |ps| && ps[i].symbol == ps[j].symbol ==>
               ps[i].currentPrice == ps[j].currentPrice
    ensures Carried(k, spec, ShockedPrices(ps, spec.spotChange), now)(ps[i]) == ValueOf(ps[i])
  {
    var prices := ShockedPrices(ps, spec.spotChange);
    var p := ps[i];
    ShockedPriceOrigin(ps, spec.spotChange, Some(p.symbol));
    assert StockOn(ps[i], Some(p.symbol));
    var s := LastStockIndex(ps, Some(p.symbol));
    assert ps[s].currentPrice == p.currentPrice;
    assert Shock(p.currentPrice, 0.0) == p.currentPrice;
    assert Get(prices, Some(p.symbol)) == Some(p.currentPrice);
    StockAtOwnPrice(p, spec);
    assert ScenarioValue(k, p, spec, prices, now) == Ok(ExpectedValue(p));
  }

  /** A stock priced at its own current price is worth its expected value. */
  lemma StockAtOwnPrice(p: Position, spec: Spec)
    requires !p.isOption
    ensures StockScenarioValue(p, spec, Some(p.currentPrice)) == ExpectedValue(p)
  {
    var x, q := p.currentPrice, p.quantity;
    assert ExpectedValue(p) == x * q * 1.0;
    assert x * q * 1.0 == x * q;
  }

  // ---------------------------------------------------------------- many scenarios

  /** A scenario whose parameters `run_scenario` can read. */
  predicate Readable(entry: (string, Option<Spec>)) { entry.1.Some? }

  /** `run_multiple_scenarios`. `None` stands for a parameter object that `run_scenario`
      cannot read (its `.get` raises); that scenario is logged and left out. */
  function RunMany(k: Kernel, ps: seq<Position>, scenarios: Dict<string, Option<Spec>>,
                   now: Moment): (r: Dict<string, ScenarioResult>)
    requires DistinctKeys(scenarios)
    ensures DistinctKeys(r)
    decreases |scenarios|
  {
    if |scenarios| == 0 then []
    else
      var init := scenarios[..|scenarios| - 1];
      var rest := RunMany(k, ps, init, now);
      var (name, spec) := scenarios[|scenarios| - 1];
      if spec.Some? then Put(rest, name, RunScenario(k, ps, spec.value, now)) else rest
  }

  /** Each readable scenario's result sits under its own name; every other name, including a
      scenario that raised, is absent. */
  lemma {:induction false} RunManyGet(k: Kernel, ps: seq<Position>, scenarios: Dict<string, Option<Spec>>,
                                      now: Moment, name: string)
    requires DistinctKeys(scenarios)
    ensures var g := Get(scenarios, name);
            Get(RunMany(k, ps, scenarios, now), name)
              == if g.Some? && g.value.Some? then Some(RunScenario(k, ps, g.value.value, now)) else None
    decreases |scenarios|
  {
    if |scenarios| > 0 {
      var init := scenarios[..|scenarios| - 1];
      var last := scenarios[|scenarios| - 1];
      assert scenarios == init + [last];
      RunManyGet(k, ps, init, now, name);
      GetSnoc(init, last.0, last.1, name);
      if last.0 == name {
        assert Get(init, name).None? by {
          forall i | 0 <= i < |init|
            ensures Keys(init)[i] != name
          {
            assert scenarios[i].0 != scenarios[|scenarios| - 1].0;
          }
        }
      }
      var rest := RunMany(k, ps, init, now);
      if last.1.Some? {
        GetPut(rest, last.0, RunScenario(k, ps, last.1.value, now), name);
      }
    }
  }

  /** The result keys are the readable scenario names, in input order. */
  lemma {:induction false} RunManyKeys(k: Kernel, ps: seq<Position>, scenarios: Dict<string, Option<Spec>>,
                                       now: Moment)
    requires DistinctKeys(scenarios)
    ensures Keys(RunMany(k, ps, scenarios, now)) == Keys(Filter(scenarios, Readable))
    decreases |scenarios|
  {
    if |scenarios| > 0 {
      var init := scenarios[..|scenarios| - 1];
      var last := scenarios[|scenarios| - 1];
      assert scenarios == init + [last];
      RunManyKeys(k, ps, init, now);
      FilterSnoc(init, last, Readable);
      var rest := RunMany(k, ps, init, now);
      if last.1.Some? {
        LastNameFresh(scenarios);
        PutKeys(rest, last.0, RunScenario(k, ps, last.1.value, now));
        KeysAppend(Filter(init, Readable), [last]);
      } else {
        assert Filter(init, Readable) + [] == Filter(init, Readable);
      }
    }
  }

  /** With distinct names, the last name is not among the readable ones before it. */
  lemma LastNameFresh(scenarios: Dict<string, Option<Spec>>)
    requires DistinctKeys(scenarios) && |scenarios| > 0
    ensures scenarios[|scenarios| - 1].0 !in Keys(Filter(scenarios[..|scenarios| - 1], Readable))
  {
    var init := scenarios[..|scenarios| - 1];
    var f := Filter(init, Readable);
    forall i | 0 <= i < |f|
      ensures Keys(f)[i] != scenarios[|scenarios| - 1].0
    {
      assert f[i] in init;
      var j :| 0 <= j < |init| && init[j] == f[i];
      assert scenarios[j].0 != scenarios[|scenarios| - 1].0;
    }
  }

  // ---------------------------------------------------------------- value at risk

  /** `[result['portfolio_pnl'] for result in scenario_results.values()]`. */
  function PnlList(results: Dict<string, ScenarioResult>): (pnls: seq<real>)
    ensures |pnls| == |results|
    ensures forall i :: 0 <= i < |results| ==> pnls[i] == results[i].1.pnl
  {
    seq(|results|, i requires 0 <= i < |results| => results[i].1.pnl)
  }

  /** `PortfolioAggregator.calculate_var`: 0 for no scenarios, otherwise the pick at
      fraction `1 - confidence` of the sorted P&L list. */
  function ScenarioVar(results: Dict<string, ScenarioResult>, confidence: real): (r: Result<real>)
    ensures |results| == 0 ==> r == Ok(0.0)
    ensures r.Err? <==> |results| > 0 && PickIndex(|results|, 1.0 - confidence) < -|results|
    ensures r.Ok? && |results| > 0 ==> r.value in PnlList(results)
  {
    var pnls := PnlList(results);
    if |pnls| == 0 then Ok(0.0) else Pick(pnls, 1.0 - confidence)
  }

  /** For a confidence in (0, 1] the VaR is the scenario P&L of rank `int((1 - c) * n)`. */
  lemma ScenarioVarIsOrderStatistic(results: Dict<string, ScenarioResult>, confidence: real)
    requires |results| > 0 && 0.0 < confidence <= 1.0
    ensures ScenarioVar(results, confidence).Ok?
    ensures var v, i := ScenarioVar(results, confidence).value, PickIndex(|results|, 1.0 - confidence);
            Count(PnlList(results), Below(v)) <= i < Count(PnlList(results), AtMost(v))
  {
    PickIsOrderStatistic(PnlList(results), 1.0 - confidence);
  }

  /** Raising the confidence never raises the VaR. */
  lemma ScenarioVarMonotone(results: Dict<string, ScenarioResult>, c1: real, c2: real)
    requires 0.0 < c1 <= c2 <= 1.0
    ensures ScenarioVar(results, c1).Ok? && ScenarioVar(results, c2).Ok?
    ensures ScenarioVar(results, c2).value <= ScenarioVar(results, c1).value
  {
    if |results| > 0 {
      PickMonotone(PnlList(results), 1.0 - c2, 1.0 - c1);
    }
  }

  // ---------------------------------------------------------------- max drawdown

  datatype Drawdown = Drawdown(maxDrawdown: real, worstScenario: Option<string>)

  /** `calculate_max_drawdown` as written: its loop unpacks each result dictionary (which
      has nine keys) into two names, which raises on the first scenario. */
  function MaxDrawdownAsWritten(results: Dict<string, ScenarioResult>): (r: Result<Drawdown>)
    ensures r.Ok? <==> |results| == 0
  {
    if |results| == 0 then Ok(Drawdown(0.0, None)) else Err(UnpackMismatch)
  }

  /** A single scenario of any kind is enough: the loop raises before it looks at a P&L. */
  lemma MaxDrawdownAsWrittenRaises(r: ScenarioResult)
    ensures MaxDrawdownAsWritten([("Market Panic", r)]) == Err(UnpackMismatch)
  {
  }

  /** `calculate_max_drawdown` over (name, result) pairs: the lowest P&L below 0 and the
      first scenario reaching it, or 0 and no scenario when nothing loses. */
  method MaxDrawdown(results: Dict<string, ScenarioResult>) returns (r: Drawdown)
    ensures r.maxDrawdown <= 0.0
    ensures forall i :: 0 <= i < |results| ==> r.maxDrawdown <= results[i].1.pnl
    ensures r.worstScenario.None? <==> forall i :: 0 <= i < |results| ==> results[i].1.pnl >= 0.0
    ensures r.worstScenario.None? ==> r.maxDrawdown == 0.0
    ensures r.worstScenario.Some? ==>
              var i := FirstMinIndex(PnlList(results), Id);
              r.worstScenario == Some(results[i].0) && r.maxDrawdown == results[i].1.pnl
  {
    var worstPnl := 0.0;
    var worst: Option<string> := None;
    var at := 0;
    for i := 0 to |results|
      invariant worstPnl <= 0.0
      invariant forall j :: 0 <= j < i ==> worstPnl <= results[j].1.pnl
      invariant worst.None? <==> forall j :: 0 <= j < i ==> results[j].1.pnl >= 0.0
      invariant worst.None? ==> worstPnl == 0.0
      invariant worst.Some? ==> 0 <= at < i && worst == Some(results[at].0) && worstPnl == results[at].1.pnl
      invariant worst.Some? ==> forall j :: 0 <= j < at ==> worstPnl < results[j].1.pnl
    {
      var (name, result) := results[i];
      if result.pnl < worstPnl {
        worstPnl := result.pnl;
        worst := Some(name);
        at := i;
      }
    }
    r := Drawdown(worstPnl, worst);
    if worst.Some? {
      var pnls := PnlList(results);
      assert IsFirstMin(pnls, Id, at);
      FirstMinUnique(pnls, Id, at, FirstMinIndex(pnls, Id));
    }
  }
}

=== FILE: black_scholes.dfy ===
/** The pricing kernel's guard rails around the closed-form Black-Scholes formula.

    The formula itself (logarithms, square roots, the normal distribution) is not modelled:
    it is a function value inside `Kernel`, so every fact proved here holds for any formula
    the kernel is given. What is modelled is everything the original wraps around it: the
    expiry branch, the volatility default, the non-negative floor, the Greek scaling, the
    batch masking and the Newton-Raphson loop of the implied-volatility solver. */
module BlackScholes {
  import opened Wrappers
  import opened Num

  /** The arguments the closed form sees once the guards have run. */
  datatype Inputs = Inputs(spot: real, strike: real, years: real, vol: real,
                           isCall: bool, dividend: real, rate: real)

  /** Analytic Greeks before the per-day / per-point scaling the original applies. */
  datatype RawGreeks = RawGreeks(delta: real, gamma: real, theta: real, vega: real, rho: real)

  /** Greeks as reported: theta per calendar day, vega and rho per percentage point. */
  datatype Greeks = Greeks(delta: real, gamma: real, theta: real, vega: real, rho: real)

  /** A calculator: its risk-free rate and the closed-form price and Greeks it evaluates. */
  datatype Kernel = Kernel(rate: real, price: Inputs -> real, greeks: Inputs -> RawGreeks)

  const DefaultRate: real := 0.05
  /** Volatility substituted for a non-positive one by the scalar pricer and Greeks. */
  const DefaultVol: real := 0.30
  /** Lower bound the batch pricer puts on every volatility. */
  const BatchVolFloor: real := 0.01
  /** Lower bound the batch pricer puts on every time to expiry. */
  const BatchMinYears: real := 0.0000000001
  /** Starting point of the implied-volatility search. */
  const SeedVol: real := 0.30
  /** Price difference below which the implied-volatility search stops. */
  const PriceTolerance: real := 0.001
  const DefaultMaxIterations: int := 100

  /** Value at expiry: `max(0, S-K)` for a call ('C'), `max(0, K-S)` for anything else. */
  function Intrinsic(spot: real, strike: real, isCall: bool): (v: real)
    ensures v >= 0.0 && v >= (if isCall then spot - strike else strike - spot)
    ensures v == 0.0 || v == (if isCall then spot - strike else strike - spot)
  {
    if isCall then Max(0.0, spot - strike) else Max(0.0, strike - spot)
  }

  /** Put-call parity at expiry: a call's payoff less the put's is the spot less the strike. */
  lemma IntrinsicParity(spot: real, strike: real)
    ensures Intrinsic(spot, strike, true) - Intrinsic(spot, strike, false) == spot - strike
  {
  }

  /** The call payoff never falls as the spot rises; the put payoff never rises. */
  lemma IntrinsicMonotoneInSpot(s1: real, s2: real, strike: real)
    requires s1 <= s2
    ensures Intrinsic(s1, strike, true) <= Intrinsic(s2, strike, true)
    ensures Intrinsic(s1, strike, false) >= Intrinsic(s2, strike, false)
  {
  }

  /** The scalar pricer's volatility guard. */
  function ScalarVol(vol: real): (v: real)
    ensures v > 0.0
    ensures vol > 0.0 ==> v == vol
    ensures vol <= 0.0 ==> v == DefaultVol
  {
    if vol <= 0.0 then DefaultVol else vol
  }

  /** `calculate_option_price`. With time left, `spot / strike` raises on a zero strike. */
  function Price(k: Kernel, spot: real, strike: real, years: real, vol: real,
                 isCall: bool, dividend: real): (r: Result<real>)
    ensures years <= 0.0 ==> r == Ok(Intrinsic(spot, strike, isCall))
    ensures r.Err? <==> years > 0.0 && strike == 0.0
    ensures r.Ok? ==> r.value >= 0.0
  {
    if years <= 0.0 then Ok(Intrinsic(spot, strike, isCall))
    else if strike == 0.0 then Err(ZeroDivision)
    else Ok(Max(0.0, k.price(Inputs(spot, strike, years, ScalarVol(vol), isCall, dividend, k.rate))))
  }

  /** A non-positive volatility prices exactly like the 0.30 default. */
  lemma PriceNonPositiveVolIsDefault(k: Kernel, spot: real, strike: real, years: real,
                                     vol: real, isCall: bool, dividend: real)
    requires vol <= 0.0
    ensures Price(k, spot, strike, years, vol, isCall, dividend)
         == Price(k, spot, strike, years, DefaultVol, isCall, dividend)
  {
  }

  /** At or after expiry the price depends on neither the formula nor the volatility. */
  lemma PriceAtExpiryIgnoresModel(k1: Kernel, k2: Kernel, spot: real, strike: real,
                                  years: real, v1: real, v2: real, isCall: bool, q: real)
    requires years <= 0.0
    ensures Price(k1, spot, strike, years, v1, isCall, q) == Price(k2, spot, strike, years, v2, isCall, q)
  {
  }

  /** `calculate_greeks`. At expiry only an in-the-money call keeps a delta (of 1). */
  function ComputeGreeks(k: Kernel, spot: real, strike: real, years: real, vol: real,
                         isCall: bool, dividend: real): (r: Result<Greeks>)
    ensures years <= 0.0 ==>
              r == Ok(Greeks(if isCall && spot > strike then 1.0 else 0.0, 0.0, 0.0, 0.0, 0.0))
    ensures r.Err? <==> years > 0.0 && strike == 0.0
  {
    if years <= 0.0 then
      Ok(Greeks(if isCall && spot > strike then 1.0 else 0.0, 0.0, 0.0, 0.0, 0.0))
    else if strike == 0.0 then Err(ZeroDivision)
    else
      var g := k.greeks(Inputs(spot, strike, years, ScalarVol(vol), isCall, dividend, k.rate));
      Ok(Greeks(g.delta, g.gamma, g.theta / 365.0, g.vega / 100.0, g.rho / 100.0))
  }

  /** Non-positive volatility gets the same 0.30 default in the Greeks as in the price. */
  lemma GreeksNonPositiveVolIsDefault(k: Kernel, spot: real, strike: real, years: real,
                                      vol: real, isCall: bool, dividend: real)
    requires vol <= 0.0
    ensures ComputeGreeks(k, spot, strike, years, vol, isCall, dividend)
         == ComputeGreeks(k, spot, strike, years, DefaultVol, isCall, dividend)
  {
  }

  /** One element of `calculate_batch`: the time is raised to 1e-10 and the volatility to
      0.01 before the formula runs; expired entries take the intrinsic value instead; the
      result is floored at 0. Array division never raises, so a zero strike does not fail. */
  function BatchEntry(k: Kernel, spot: real, strike: real, years: real, vol: real,
                      isCall: bool, dividend: real): real
  {
    var model := k.price(Inputs(spot, strike, Max(years, BatchMinYears), Max(vol, BatchVolFloor),
                                isCall, dividend, k.rate));
    Max(0.0, if years <= 0.0 then Intrinsic(spot, strike, isCall) else model)
  }

  /** `calculate_batch` over equal-length arrays; missing dividend yields are zeros. */
  function Batch(k: Kernel, spots: seq<real>, strikes: seq<real>, years: seq<real>,
                 vols: seq<real>, isCalls: seq<bool>, dividends: Option<seq<real>>): (r: seq<real>)
    requires |strikes| == |years| == |vols| == |isCalls| == |spots|
    requires dividends.Some? ==> |dividends.value| == |spots|
    ensures |r| == |spots|
    ensures forall i :: 0 <= i < |r| ==> r[i] >= 0.0
    ensures forall i :: 0 <= i < |r| && years[i] <= 0.0 ==>
              r[i] == Intrinsic(spots[i], strikes[i], isCalls[i])
  {
    seq(|spots|, i requires 0 <= i < |spots| =>
      BatchEntry(k, spots[i], strikes[i], years[i], vols[i], isCalls[i],
                 if dividends.Some? then dividends.value[i] else 0.0))
  }

  /** Batch and scalar pricing agree on every expired entry, and on every live entry whose
      volatility is at least 0.01, whose time is at least 1e-10 and whose strike is not 0. */
  lemma BatchAgreesWithScalar(k: Kernel, spots: seq<real>, strikes: seq<real>, years: seq<real>,
                              vols: seq<real>, isCalls: seq<bool>, i: int)
    requires |strikes| == |years| == |vols| == |isCalls| == |spots|
    requires 0 <= i < |spots|
    requires years[i] <= 0.0 || (years[i] >= BatchMinYears && vols[i] >= BatchVolFloor && strikes[i] != 0.0)
    ensures Price(k, spots[i], strikes[i], years[i], vols[i], isCalls[i], 0.0)
         == Ok(Batch(k, spots, strikes, years, vols, isCalls, None)[i])
  {
  }

  /** A formula that returns its volatility argument, to make the vol guards observable. */
  function VolEcho(): Kernel
  {
    Kernel(DefaultRate, (x: Inputs) => x.vol, (x: Inputs) => RawGreeks(0.0, 0.0, 0.0, 0.0, 0.0))
  }

  /** The two vol guards differ: below 0.01 the batch and scalar prices part ways. */
  lemma BatchAndScalarDifferBelowFloor()
    ensures Price(VolEcho(), 100.0, 100.0, 1.0, 0.005, true, 0.0) == Ok(0.005)
    ensures Batch(VolEcho(), [100.0], [100.0], [1.0], [0.005], [true], None) == [0.01]
  {
    assert Batch(VolEcho(), [100.0], [100.0], [1.0], [0.005], [true], None)[0] == 0.01;
  }

  /** One iteration of `calculate_implied_volatility` from estimate `iv`: `Some(iv)` to
      stop with the estimate, `None` to continue from `Next`. */
  function NewtonStop(k: Kernel, target: real, spot: real, strike: real, years: real,
                      isCall: bool, dividend: real, iv: real): Result<bool>
  {
    var price := Price(k, spot, strike, years, iv, isCall, dividend);
    var greeks := ComputeGreeks(k, spot, strike, years, iv, isCall, dividend);
    if price.Err? || greeks.Err? then Err(ZeroDivision)
    else
      Ok(Abs(target - price.value) < PriceTolerance || greeks.value.vega * 100.0 == 0.0)
  }

  /** The Newton update `iv + diff / vega`, clamped to `[0.01, 3.0]`. */
  function NewtonNext(k: Kernel, target: real, spot: real, strike: real, years: real,
                      isCall: bool, dividend: real, iv: real): (r: real)
    requires NewtonStop(k, target, spot, strike, years, isCall, dividend, iv) == Ok(false)
    ensures VolFloor <= r <= VolCap
  {
    var price := Price(k, spot, strike, years, iv, isCall, dividend).value;
    var vega := ComputeGreeks(k, spot, strike, years, iv, isCall, dividend).value.vega * 100.0;
    ClampVol(iv + (target - price) / vega)
  }

  /** The solver's outcome from estimate `iv` with `budget` iterations left: the reference
      against which the loop in `ImpliedVolatility` is checked. */
  function SolveFrom(k: Kernel, target: real, spot: real, strike: real, years: real,
                     isCall: bool, dividend: real, iv: real, budget: nat): (r: Result<real>)
    requires VolFloor <= iv <= VolCap
    ensures r.Ok? ==> VolFloor <= r.value <= VolCap
    ensures budget == 0 ==> r == Ok(iv)
    decreases budget
  {
    if budget == 0 then Ok(iv)
    else
      match NewtonStop(k, target, spot, strike, years, isCall, dividend, iv)
      case Err(f) => Err(f)
      case Ok(stop) =>
        if stop then Ok(iv)
        else SolveFrom(k, target, spot, strike, years, isCall, dividend,
                       NewtonNext(k, target, spot, strike, years, isCall, dividend, iv), budget - 1)
  }

  /** `calculate_implied_volatility`: Newton-Raphson from 0.30 for at most `maxIterations`
      rounds. `updates` counts the Newton updates made. */
  method ImpliedVolatility(k: Kernel, target: real, spot: real, strike: real, years: real,
                           isCall: bool, dividend: real, maxIterations: int)
    returns (r: Result<real>, updates: nat)
    ensures r == SolveFrom(k, target, spot, strike, years, isCall, dividend, SeedVol,
                           if maxIterations > 0 then maxIterations else 0)
    ensures r.Ok? ==> VolFloor <= r.value <= VolCap
    ensures r.Err? <==> maxIterations > 0 && years > 0.0 && strike == 0.0
    ensures updates <= (if maxIterations > 0 then maxIterations else 0)
  {
    var budget: nat := if maxIterations > 0 then maxIterations else 0;
    var iv := SeedVol;
    var i: nat := 0;
    updates := 0;
    while i < budget
      invariant i <= budget && updates == i
      invariant VolFloor <= iv <= VolCap
      invariant SolveFrom(k, target, spot, strike, years, isCall, dividend, iv, budget - i)
             == SolveFrom(k, target, spot, strike, years, isCall, dividend, SeedVol, budget)
      invariant i > 0 ==> !(years > 0.0 && strike == 0.0)
    {
      var stop := NewtonStop(k, target, spot, strike, years, isCall, dividend, iv);
      if stop.Err? {
        return Err(stop.fault), updates;
      }
      if stop.value {
        return Ok(iv), updates;
      }
      iv := NewtonNext(k, target, spot, strike, years, isCall, dividend, iv);
      i := i + 1;
      updates := updates + 1;
    }
    r := Ok(iv);
  }

  /** The solver stops at the seed when the seed already prices within 0.001, or when the
      seed's vega is zero. */
  lemma SolverReturnsSeedWhenDone(k: Kernel, target: real, spot: real, strike: real,
                                  years: real, isCall: bool, dividend: real, budget: nat)
    requires budget > 0 && !(years > 0.0 && strike == 0.0)
    requires Abs(target - Price(k, spot, strike, years, SeedVol, isCall, dividend).value) < PriceTolerance
             || ComputeGreeks(k, spot, strike, years, SeedVol, isCall, dividend).value.vega == 0.0
    ensures SolveFrom(k, target, spot, strike, years, isCall, dividend, SeedVol, budget) == Ok(SeedVol)
  {
  }

  /** At or after expiry the vega is 0, so the solver returns the seed without iterating. */
  lemma SolverAtExpiryReturnsSeed(k: Kernel, target: real, spot: real, strike: real,
                                  years: real, isCall: bool, dividend: real, budget: nat)
    requires years <= 0.0
    ensures SolveFrom(k, target, spot, strike, years, isCall, dividend, SeedVol, budget) == Ok(SeedVol)
  {
  }
}

=== FILE: dates.dfy ===
/** Civil dates and times in the proleptic Gregorian calendar, following the arithmetic
    of Python's `datetime` module: `toordinal` numbers 0001-01-01 as day 1, `weekday`
    numbers Monday as 0, and `timedelta.days` rounds toward negative infinity. */
module Dates {

  datatype Date = Date(year: int, month: int, day: int)

  /** A naive `datetime` to the second (microseconds are not modelled). */
  datatype DateTime = DateTime(date: Date, hour: int, minute: int, second: int)

  predicate IsLeap(y: int)
  {
    y % 4 == 0 && (y % 100 != 0 || y % 400 == 0)
  }

  function DaysInYear(y: int): int
  {
    if IsLeap(y) then 366 else 365
  }

  function DaysInMonth(y: int, m: int): (n: int)
    ensures 28 <= n <= 31
  {
    if m == 2 then (if IsLeap(y) then 29 else 28)
    else if m == 4 || m == 6 || m == 9 || m == 11 then 30
    else 31
  }

  predicate ValidDate(d: Date)
  {
    d.year >= 1 && 1 <= d.month <= 12 && 1 <= d.day <= DaysInMonth(d.year, d.month)
  }

  predicate ValidTime(hour: int, minute: int, second: int)
  {
    0 <= hour < 24 && 0 <= minute < 60 && 0 <= second < 60
  }

  predicate Valid(t: DateTime)
  {
    ValidDate(t.date) && ValidTime(t.hour, t.minute, t.second)
  }

  /** A date that exists in the calendar, as every Python `date` object does. */
  type CivilDate = d: Date | ValidDate(d) witness Date(1, 1, 1)

  /** A datetime that exists in the calendar, as every Python `datetime` object does. */
  type Moment = t: DateTime | Valid(t) witness DateTime(Date(1, 1, 1), 0, 0, 0)

  /** Days in the months of year `y` before month `m` (Python's `_days_before_month`). */
  function DaysBeforeMonth(y: int, m: int): int
    requires 1 <= m <= 12
  {
    [0, 31, 59, 90, 120, 151, 181, 212, 243, 273, 304, 334][m - 1]
      + (if m > 2 && IsLeap(y) then 1 else 0)
  }

  lemma MonthStep(y: int, m: int)
    requires 1 <= m <= 12
    ensures m < 12 ==> DaysBeforeMonth(y, m + 1) == DaysBeforeMonth(y, m) + DaysInMonth(y, m)
    ensures m == 12 ==> DaysBeforeMonth(y, m) + DaysInMonth(y, m) == DaysInYear(y)
  {
  }

  /** Days in the years before year `y` (Python's `_days_before_year`). */
  function DaysBeforeYear(y: int): int
    requires y >= 1
  {
    var p := y - 1;
    p * 365 + p / 4 - p / 100 + p / 400
  }

  /** `date.toordinal()`. */
  function Ordinal(d: Date): int
    requires d.year >= 1 && 1 <= d.month <= 12
  {
    DaysBeforeYear(d.year) + DaysBeforeMonth(d.year, d.month) + d.day
  }

  /** `date.weekday()`: Monday is 0 and Sunday is 6. */
  function Weekday(d: Date): (w: int)
    requires d.year >= 1 && 1 <= d.month <= 12
    ensures 0 <= w < 7
  {
    (Ordinal(d) + 6) % 7
  }

  /** The calendar day after `d`. */
  function NextDay(d: Date): (r: Date)
    requires ValidDate(d)
    ensures ValidDate(r)
    ensures Ordinal(r) == Ordinal(d) + 1
  {
    if d.day < DaysInMonth(d.year, d.month) then Date(d.year, d.month, d.day + 1)
    else if d.month < 12 then
      MonthStep(d.year, d.month);
      Date(d.year, d.month + 1, 1)
    else
      MonthStep(d.year, d.month);
      YearStep(d.year);
      Date(d.year + 1, 1, 1)
  }

  /** `d + timedelta(days=n)`. */
  function AddDays(d: Date, n: nat): (r: Date)
    requires ValidDate(d)
    ensures ValidDate(r)
    ensures Ordinal(r) == Ordinal(d) + n
    decreases n
  {
    if n == 0 then d else AddDays(NextDay(d), n - 1)
  }

  lemma WeekdayAdvances(d: Date, n: nat)
    requires ValidDate(d)
    ensures Weekday(AddDays(d, n)) == (Weekday(d) + n) % 7
  {
    var r := AddDays(d, n);
    WeekdayShift(Ordinal(d), Ordinal(r), n);
    assert Weekday(r) == (Ordinal(r) + 6) % 7;
    assert Weekday(d) == (Ordinal(d) + 6) % 7;
  }

  lemma WeekdayShift(o: int, o2: int, n: int)
    requires o2 == o + n
    ensures (o2 + 6) % 7 == ((o + 6) % 7 + n) % 7
  {
    ModShift(o + 6, n, 7);
    assert o2 + 6 == o + 6 + n;
  }

  lemma ModShift(a: int, n: int, k: int)
    requires k >= 1
    ensures (a + n) % k == (a % k + n) % k
  {
    DivUnique(a, k, a / k, a % k);
    var q := (a % k + n) / k;
    var r := (a % k + n) % k;
    assert a + n == k * (a / k + q) + r;
    DivUnique(a + n, k, a / k + q, r);
  }

  lemma DivUnique(a: int, k: int, q: int, r: int)
    requires k >= 1 && a == k * q + r && 0 <= r < k
    ensures a / k == q && a % k == r
  {
    var q0, r0 := a / k, a % k;
    assert a == k * q0 + r0 && 0 <= r0 < k;
    assert k * (q0 - q) == r - r0;
    if q0 > q {
      MulMono(k, q0 - q);
    } else if q0 < q {
      MulMono(k, q - q0);
    }
  }

  lemma MulMono(k: int, d: int)
    requires k >= 1 && d >= 1
    ensures k * d >= k
  {
  }

  /** Within one month, moving the day of the month moves the ordinal by the same amount. */
  lemma OrdinalWithinMonth(y: int, m: int, a: int, b: int)
    requires y >= 1 && 1 <= m <= 12
    ensures Ordinal(Date(y, m, b)) == Ordinal(Date(y, m, a)) + (b - a)
  {
  }

  lemma DivStep(a: int, k: int)
    requires a >= 1 && k >= 1
    ensures a / k == (a - 1) / k + (if a % k == 0 then 1 else 0)
  {
    var q := (a - 1) / k;
    var r := (a - 1) % k;
    DivUnique(a - 1, k, q, r);
    if r == k - 1 {
      assert a == k * (q + 1) + 0;
      DivUnique(a, k, q + 1, 0);
    } else {
      assert a == k * q + (r + 1);
      DivUnique(a, k, q, r + 1);
    }
  }

  lemma MultiplesNest(y: int)
    ensures y % 100 == 0 ==> y % 4 == 0
    ensures y % 400 == 0 ==> y % 100 == 0
  {
    if y % 100 == 0 {
      var q := y / 100;
      assert y == 4 * (25 * q);
    }
    if y % 400 == 0 {
      var q := y / 400;
      assert y == 100 * (4 * q);
    }
  }

  lemma YearStep(y: int)
    requires y >= 1
    ensures DaysBeforeYear(y + 1) == DaysBeforeYear(y) + DaysInYear(y)
  {
    DivStep(y, 4);
    DivStep(y, 100);
    DivStep(y, 400);
    MultiplesNest(y);
  }

  function SecondOfDay(t: DateTime): int
  {
    t.hour * 3600 + t.minute * 60 + t.second
  }

  /** Seconds from a fixed origin; differences of these are `timedelta.total_seconds()`. */
  function Timestamp(t: DateTime): int
    requires t.date.year >= 1 && 1 <= t.date.month <= 12
  {
    Ordinal(t.date) * 86400 + SecondOfDay(t)
  }

  /** `(a - b).days`: whole days, rounded toward negative infinity. */
  function DaysBetween(a: DateTime, b: DateTime): (n: int)
    requires Valid(a) && Valid(b)
    ensures n * 86400 <= Timestamp(a) - Timestamp(b) < (n + 1) * 86400
  {
    (Timestamp(a) - Timestamp(b)) / 86400
  }

  /** `a < b` on datetimes. */
  predicate Before(a: DateTime, b: DateTime)
    requires Valid(a) && Valid(b)
  {
    Timestamp(a) < Timestamp(b)
  }

  /** Timestamps order moments by day first, then by the time of day. */
  lemma BeforeByDay(a: Moment, b: Moment)
    ensures Before(a, b) <==> Ordinal(a.date) < Ordinal(b.date)
                              || (Ordinal(a.date) == Ordinal(b.date) && SecondOfDay(a) < SecondOfDay(b))
  {
    var oa, ob := Ordinal(a.date), Ordinal(b.date);
    assert 0 <= SecondOfDay(a) < 86400 && 0 <= SecondOfDay(b) < 86400;
    if oa < ob {
      assert (oa + 1) * 86400 <= ob * 86400;
    } else if ob < oa {
      assert (ob + 1) * 86400 <= oa * 86400;
    }
  }

  /** `datetime(y, m, d, hour, minute)`. */
  function At(d: Date, hour: int, minute: int): DateTime
  {
    DateTime(d, hour, minute, 0)
  }
}

=== FILE: dicts.dfy ===
/** Insertion-ordered dictionaries, as Python's `dict` behaves: a sequence of key/value
    pairs with distinct keys, where assigning to a present key keeps its position. */
module Dicts {
  import opened Wrappers

  type Dict<K, V> = seq<(K, V)>

  function Keys<K, V>(d: Dict<K, V>): (ks: seq<K>)
    ensures |ks| == |d|
    ensures forall i :: 0 <= i < |d| ==> ks[i] == d[i].0
  {
    seq(|d|, i requires 0 <= i < |d| => d[i].0)
  }

  lemma KeysAppend<K, V>(a: Dict<K, V>, b: Dict<K, V>)
    ensures Keys(a + b) == Keys(a) + Keys(b)
  {
  }

  function Values<K, V>(d: Dict<K, V>): (vs: seq<V>)
    ensures |vs| == |d|
    ensures forall i :: 0 <= i < |d| ==> vs[i] == d[i].1
  {
    if |d| == 0 then [] else [d[0].1] + Values(d[1..])
  }

  predicate DistinctKeys<K(==), V>(d: Dict<K, V>)
  {
    forall i, j :: 0 <= i < j < |d| ==> d[i].0 != d[j].0
  }

  /** `d.get(k)`. */
  function Get<K(==), V>(d: Dict<K, V>, k: K): (r: Option<V>)
    ensures r.None? <==> k !in Keys(d)
  {
    if |d| == 0 then None
    else if d[0].0 == k then Some(d[0].1)
    else Get(d[1..], k)
  }

  /** In a dictionary with distinct keys, `Get` finds the value stored beside the key. */
  lemma {:induction false} GetAt<K, V>(d: Dict<K, V>, i: int)
    requires DistinctKeys(d) && 0 <= i < |d|
    ensures Get(d, d[i].0) == Some(d[i].1)
  {
    if i > 0 {
      assert d[0].0 != d[i].0;
      GetAt(d[1..], i - 1);
    }
  }

  /** `d[k] = v`: overwrite in place when `k` is present, append otherwise. */
  function Put<K(==), V>(d: Dict<K, V>, k: K, v: V): (r: Dict<K, V>)
    requires DistinctKeys(d)
    ensures DistinctKeys(r)
  {
    if k in Keys(d) then seq(|d|, i requires 0 <= i < |d| => if d[i].0 == k then (k, v) else d[i])
    else d + [(k, v)]
  }

  /** `d[k] = v` keeps the key order, appending `k` when it is new. */
  lemma PutKeys<K, V>(d: Dict<K, V>, k: K, v: V)
    requires DistinctKeys(d)
    ensures k in Keys(d) ==> Keys(Put(d, k, v)) == Keys(d)
    ensures k !in Keys(d) ==> Keys(Put(d, k, v)) == Keys(d) + [k]
  {
    var r := Put(d, k, v);
    if k in Keys(d) {
      assert forall i :: 0 <= i < |d| ==> Keys(r)[i] == Keys(d)[i];
    } else {
      assert forall i :: 0 <= i < |r| ==> Keys(r)[i] == (Keys(d) + [k])[i];
    }
  }

  /** After `d[k] = v`, `k` maps to `v` and every other key to what it mapped to before. */
  lemma GetPut<K, V>(d: Dict<K, V>, k: K, v: V, other: K)
    requires DistinctKeys(d)
    ensures Get(Put(d, k, v), k) == Some(v)
    ensures other != k ==> Get(Put(d, k, v), other) == Get(d, other)
  {
    var r := Put(d, k, v);
    PutKeys(d, k, v);
    assert k in Keys(r);
    var j :| 0 <= j < |r| && r[j].0 == k;
    assert r[j] == (k, v);
    GetAt(r, j);
    if other != k {
      if other in Keys(d) {
        var i :| 0 <= i < |d| && d[i].0 == other;
        assert r[i] == d[i];
        GetAt(d, i);
        GetAt(r, i);
      } else {
        assert other !in Keys(r);
      }
    }
  }

  /** Looking a key up in a dictionary extended at the end finds the old entry first. */
  lemma {:induction false} GetSnoc<K, V>(d: Dict<K, V>, k: K, v: V, other: K)
    ensures Get(d + [(k, v)], other)
         == if Get(d, other).Some? then Get(d, other) else if k == other then Some(v) else None
  {
    if |d| > 0 {
      assert (d + [(k, v)])[1..] == d[1..] + [(k, v)];
      GetSnoc(d[1..], k, v, other);
    }
  }
}

=== FILE: event_calendar.dfy ===
/** Generated calendar events: FOMC meetings on a fixed yearly schedule and option
    expirations (third Fridays and weekly Fridays). The events are returned rather than
    stored. */
module EventCalendar {
  import opened Seqs
  import opened Dates

  datatype EventKind = Fomc | Earnings | Expiration | OtherKind(name: string)

  datatype Impact = HighImpact | MediumImpact | LowImpact

  /** `MarketEvent`; the description text is left out. */
  datatype MarketEvent = MarketEvent(kind: EventKind, date: Moment, symbol: string, impact: Impact)

  const MarketSymbol := "MARKET"
  const Friday := 4
  const CloseHour := 16
  const FomcHour := 14
  const WeeksAhead := 52

  /** `a > now` on datetimes. */
  predicate After(now: Moment, a: Moment) { Before(now, a) }

  function AfterNow(now: Moment): MarketEvent -> bool { (e: MarketEvent) => After(now, e.date) }

  // ---------------------------------------------------------------- FOMC

  /** The eight (month, day) pairs of the meeting schedule. */
  const FomcSchedule: seq<(int, int)> := [(1, 31), (3, 21), (5, 2), (6, 13), (7, 25), (9, 19), (11, 7), (12, 12)]

  function FomcEvent(year: int, i: int): (e: MarketEvent)
    requires year >= 1 && 0 <= i < |FomcSchedule|
    ensures e.kind == Fomc && e.impact == HighImpact && e.symbol == MarketSymbol
    ensures e.date.hour == FomcHour && e.date.minute == 0 && e.date.date.year == year
  {
    var (m, d) := FomcSchedule[i];
    MarketEvent(Fomc, DateTime(Date(year, m, d), FomcHour, 0, 0), MarketSymbol, HighImpact)
  }

  function FomcCandidates(year: int): (es: seq<MarketEvent>)
    requires year >= 1
    ensures |es| == |FomcSchedule|
    ensures forall i :: 0 <= i < |es| ==> es[i] == FomcEvent(year, i)
  {
    seq(|FomcSchedule|, i requires 0 <= i < |FomcSchedule| => FomcEvent(year, i))
  }

  /** `load_fomc_meetings`: the scheduled meetings of the year that lie after `now`. */
  function FomcMeetings(year: int, now: Moment): (r: seq<MarketEvent>)
    requires year >= 1
    ensures |r| <= 8
    ensures forall e :: e in r ==> e in FomcCandidates(year) && After(now, e.date)
    ensures forall e :: e in FomcCandidates(year) && After(now, e.date) ==> e in r
    ensures forall e :: e in r ==> e.kind == Fomc && e.impact == HighImpact && e.symbol == MarketSymbol
                                   && e.date.hour == FomcHour && e.date.minute == 0 && e.date.date.year == year
  {
    Filter(FomcCandidates(year), AfterNow(now))
  }

  /** A later month of the same year starts after every day of an earlier one. */
  lemma {:induction false} DaysBeforeMonthGrows(y: int, m1: int, m2: int)
    requires 1 <= m1 < m2 <= 12
    ensures DaysBeforeMonth(y, m1) + DaysInMonth(y, m1) <= DaysBeforeMonth(y, m2)
    decreases m2 - m1
  {
    MonthStep(y, m1);
    if m1 + 1 < m2 {
      DaysBeforeMonthGrows(y, m1 + 1, m2);
    }
  }

  /** An earlier calendar day has an earlier timestamp, whatever the times of day. */
  lemma EarlierDayEarlierTime(a: Moment, b: Moment)
    requires Ordinal(a.date) < Ordinal(b.date)
    ensures Timestamp(a) < Timestamp(b)
  {
    assert SecondOfDay(a) < 86400;
    assert (Ordinal(a.date) + 1) * 86400 <= Ordinal(b.date) * 86400;
  }

  /** Once the year's last meeting has passed, no meeting is emitted. */
  lemma NoFomcAfterLastMeeting(year: int, now: Moment)
    requires year >= 1 && !Before(now, FomcEvent(year, 7).date)
    ensures FomcMeetings(year, now) == []
  {
    var cs := FomcCandidates(year);
    var last := FomcEvent(year, 7).date;
    forall i | 0 <= i < |cs|
      ensures !AfterNow(now)(cs[i])
    {
      if i < 7 {
        var (m, d) := FomcSchedule[i];
        DaysBeforeMonthGrows(year, m, 12);
        EarlierDayEarlierTime(cs[i].date, last);
      }
    }
    FilterNone(cs, AfterNow(now));
  }

  // ---------------------------------------------------------------- monthly expirations

  /** Moving forward inside one month only changes the day of the month. */
  lemma {:induction false} AddDaysWithinMonth(d: Date, n: nat)
    requires ValidDate(d) && d.day + n <= DaysInMonth(d.year, d.month)
    ensures AddDays(d, n) == Date(d.year, d.month, d.day + n)
    decreases n
  {
    if n > 0 {
      var e := NextDayWithinMonth(d);
      AddDaysStep(d, n);
      AddDaysWithinMonth(e, n - 1);
    }
  }

  lemma AddDaysStep(d: Date, n: nat)
    requires ValidDate(d) && n > 0
    ensures AddDays(d, n) == AddDays(NextDay(d), n - 1)
  {
  }

  /** The day after a day that is not the month's last. */
  lemma NextDayWithinMonth(d: Date) returns (e: Date)
    requires ValidDate(d) && d.day < DaysInMonth(d.year, d.month)
    ensures e == Date(d.year, d.month, d.day + 1) && ValidDate(e)
    ensures NextDay(d) == e
  {
    e := Date(d.year, d.month, d.day + 1);
  }

  /** `(4 - first_day.weekday()) % 7`: days from the 1st to the month's first Friday. */
  function DaysUntilFriday(year: int, month: int): (k: int)
    requires year >= 1 && 1 <= month <= 12
    ensures 0 <= k <= 6
    ensures (Weekday(Date(year, month, 1)) + k) % 7 == Friday
  {
    (Friday - Weekday(Date(year, month, 1))) % 7
  }

  /** First Friday plus 14 days. */
  function ThirdFriday(year: int, month: int): (d: CivilDate)
    requires year >= 1 && 1 <= month <= 12
    ensures d.year == year && d.month == month && 15 <= d.day <= 21
    ensures Weekday(d) == Friday
  {
    var first := Date(year, month, 1);
    var k := DaysUntilFriday(year, month);
    AddDaysWithinMonth(first, k + 14);
    WeekdayAdvances(first, k + 14);
    WholeWeeks(Weekday(first) + k, 2);
    AddDays(first, k + 14)
  }

  function MonthlyEvent(year: int, month: int): (e: MarketEvent)
    requires year >= 1 && 1 <= month <= 12
  {
    MarketEvent(Expiration, DateTime(ThirdFriday(year, month), CloseHour, 0, 0), MarketSymbol, MediumImpact)
  }

  /** The twelve third-Friday expirations of `year`, in month order. */
  function MonthlyCandidates(year: int): (es: seq<MarketEvent>)
    requires year >= 1
    ensures |es| == 12
    ensures forall i :: 0 <= i < 12 ==> es[i] == MonthlyEvent(year, i + 1)
  {
    seq(12, i requires 0 <= i < 12 => MonthlyEvent(year, i + 1))
  }

  /** The loop's test `third_friday > datetime.now()`: the expiration day's midnight is
      after `now`. */
  function DueAfter(now: Moment): MarketEvent -> bool
  {
    (e: MarketEvent) => Before(now, DateTime(e.date.date, 0, 0, 0))
  }

  /** A day whose midnight is after `now` has its close after `now` too. */
  lemma MidnightBeforeClose(now: Moment, d: CivilDate)
    requires Before(now, DateTime(d, 0, 0, 0))
    ensures Before(now, DateTime(d, CloseHour, 0, 0))
  {
  }

  /** The third-Friday half of `generate_option_expirations`: one expiration for each month
      of `year` whose third Friday's midnight is still after `now`, in month order. */
  function MonthlyExpirations(year: int, now: Moment): (r: seq<MarketEvent>)
    requires year >= 1
    ensures |r| <= 12
    ensures forall e :: e in r ==> e.kind == Expiration && e.impact == MediumImpact && e.symbol == MarketSymbol
    ensures forall e :: e in r ==> e.date.hour == CloseHour && e.date.minute == 0 && e.date.second == 0
    ensures forall e :: e in r ==> Weekday(e.date.date) == Friday && 15 <= e.date.date.day <= 21
                                   && e.date.date.year == year && After(now, e.date)
    ensures forall mo :: 1 <= mo <= 12 ==>
              (MonthlyEvent(year, mo) in r <==> Before(now, DateTime(ThirdFriday(year, mo), 0, 0, 0)))
    ensures forall e :: e in r ==> exists mo :: 1 <= mo <= 12 && e == MonthlyEvent(year, mo)
  {
    var cs := MonthlyCandidates(year);
    forall e | e in cs
      ensures exists mo :: 1 <= mo <= 12 && e == MonthlyEvent(year, mo)
    {
      var i :| 0 <= i < 12 && cs[i] == e;
      assert 1 <= i + 1 <= 12 && e == MonthlyEvent(year, i + 1);
    }
    forall mo | 1 <= mo <= 12
      ensures MonthlyEvent(year, mo) in cs
    {
      assert cs[mo - 1] == MonthlyEvent(year, mo);
    }
    forall e | e in cs && DueAfter(now)(e)
      ensures After(now, e.date)
    {
      MidnightBeforeClose(now, e.date.date);
    }
    Filter(cs, DueAfter(now))
  }

  /** On New Year's Day every third Friday of the year is still ahead. */
  lemma ThirdFridayAheadOfNewYear(year: int, month: int, now: Moment)
    requires year >= 1 && 1 <= month <= 12 && now.date == Date(year, 1, 1)
    ensures Before(now, DateTime(ThirdFriday(year, month), 0, 0, 0))
  {
    var d := ThirdFriday(year, month);
    if month > 1 {
      DaysBeforeMonthGrows(year, 1, month);
    }
    EarlierDayEarlierTime(now, DateTime(d, 0, 0, 0));
  }

  /** Generated on New Year's Day, the list has one expiration for each month. */
  lemma AllMonthsAheadInJanuary(year: int, now: Moment)
    requires year >= 1 && now.date == Date(year, 1, 1)
    ensures MonthlyExpirations(year, now) == MonthlyCandidates(year)
    ensures |MonthlyExpirations(year, now)| == 12
  {
    var cs := MonthlyCandidates(year);
    forall i | 0 <= i < |cs|
      ensures DueAfter(now)(cs[i])
    {
      ThirdFridayAheadOfNewYear(year, i + 1, now);
    }
    FilterAll(cs, DueAfter(now));
  }

  // ---------------------------------------------------------------- weekly expirations

  /** Shifting by whole weeks keeps the weekday arithmetic: `(a + 7w) % 7 == a % 7`. */
  lemma WholeWeeks(a: int, w: nat)
    ensures (a + 7 * w) % 7 == a % 7
  {
    DivUnique(a + 7 * w, 7, a / 7 + w, a % 7);
  }

  /** Days from a weekday to the next Friday on or after it, and the week shifts of it. */
  lemma FridayOffset(wd: int, w: nat)
    requires 0 <= wd < 7
    ensures var k := (Friday - wd) % 7; 0 <= k <= 6 && (wd + k + 7 * w) % 7 == Friday
  {
    var k := (Friday - wd) % 7;
    if wd <= Friday {
      DivUnique(Friday - wd, 7, 0, Friday - wd);
      WholeWeeks(Friday, w);
    } else {
      DivUnique(Friday - wd, 7, -1, Friday - wd + 7);
      WholeWeeks(Friday + 7, w);
      DivUnique(Friday + 7, 7, 1, Friday);
    }
  }

  /** The day offset of week `w`: `(4 - weekday + 7w) % 7 + 7w`. */
  function WeekOffset(now: Moment, w: nat): (n: nat)
    ensures n == (Friday - Weekday(now.date)) % 7 + 7 * w
    ensures (Weekday(now.date) + n) % 7 == Friday
  {
    WholeWeeks(Friday - Weekday(now.date), w);
    FridayOffset(Weekday(now.date), w);
    (Friday - Weekday(now.date) + 7 * w) % 7 + 7 * w
  }

  /** `now + timedelta(days=offset)` with the hour set to 16 and the minute to 0; the
      second carries over from `now`. */
  function WeeklyEvent(now: Moment, w: nat): (e: MarketEvent)
    ensures e.kind == Expiration && e.impact == LowImpact && e.symbol == MarketSymbol
    ensures e.date.hour == CloseHour && e.date.minute == 0 && e.date.second == now.second
    ensures Weekday(e.date.date) == Friday
    ensures Ordinal(e.date.date) == Ordinal(now.date) + WeekOffset(now, w)
  {
    var n := WeekOffset(now, w);
    WeekdayAdvances(now.date, n);
    MarketEvent(Expiration, DateTime(AddDays(now.date, n), CloseHour, 0, now.second), MarketSymbol, LowImpact)
  }

  function WeeklyCandidates(now: Moment): (es: seq<MarketEvent>)
    ensures |es| == WeeksAhead
    ensures forall w :: 0 <= w < WeeksAhead ==> es[w] == WeeklyEvent(now, w)
  {
    seq(WeeksAhead, w requires 0 <= w < WeeksAhead => WeeklyEvent(now, w))
  }

  function InYear(year: int): MarketEvent -> bool { (e: MarketEvent) => e.date.date.year == year }

  /** The weekly half of `generate_option_expirations`: the next 52 Fridays from today's
      date, kept when they fall in `year`. A Friday counts from today on, even after 16:00. */
  function WeeklyExpirations(year: int, now: Moment): (r: seq<MarketEvent>)
    ensures |r| <= WeeksAhead
    ensures forall e :: e in r ==> e.kind == Expiration && e.impact == LowImpact && e.date.hour == CloseHour
    ensures forall e :: e in r ==> Weekday(e.date.date) == Friday && e.date.date.year == year
    ensures forall e :: e in r ==> Ordinal(e.date.date) >= Ordinal(now.date)
    ensures forall w :: 0 <= w < WeeksAhead ==> (WeeklyEvent(now, w) in r <==> WeeklyEvent(now, w).date.date.year == year)
    ensures forall e :: e in r ==> exists w :: 0 <= w < WeeksAhead && e == WeeklyEvent(now, w)
  {
    var cs := WeeklyCandidates(now);
    assert forall w :: 0 <= w < WeeksAhead ==> WeeklyEvent(now, w) in cs by {
      forall w | 0 <= w < WeeksAhead
        ensures WeeklyEvent(now, w) in cs
      {
        assert cs[w] == WeeklyEvent(now, w);
      }
    }
    Filter(cs, InYear(year))
  }

  /** Consecutive weekly candidates are exactly one week apart. */
  lemma WeeklyStep(now: Moment, w: nat)
    ensures Ordinal(WeeklyEvent(now, w + 1).date.date) == Ordinal(WeeklyEvent(now, w).date.date) + 7
  {
  }

  /** `generate_option_expirations`: monthly then weekly events. */
  function OptionExpirations(year: int, now: Moment): (r: seq<MarketEvent>)
    requires year >= 1
    ensures |r| <= 12 + WeeksAhead
    ensures forall e :: e in r ==> e.kind == Expiration && Weekday(e.date.date) == Friday
                                   && e.date.hour == CloseHour && e.date.minute == 0
    ensures forall mo :: 1 <= mo <= 12 ==>
              (MonthlyEvent(year, mo) in r <==> Before(now, DateTime(ThirdFriday(year, mo), 0, 0, 0)))
    ensures forall w :: 0 <= w < WeeksAhead ==> (WeeklyEvent(now, w) in r <==> WeeklyEvent(now, w).date.date.year == year)
    ensures forall e :: e in r ==> (exists mo :: 1 <= mo <= 12 && e == MonthlyEvent(year, mo))
                                   || (exists w :: 0 <= w < WeeksAhead && e == WeeklyEvent(now, w))
  {
    MonthlyExpirations(year, now) + WeeklyExpirations(year, now)
  }
}

=== FILE: event_detection.dfy ===
/** Event detection around a portfolio: upcoming events bucketed by how soon they fall,
    the scenarios those events call for, and weekly options with events near expiry.
    The calendar query is a parameter. */
module EventDetection {
  import opened Wrappers
  import opened Seqs
  import opened Dates
  import opened Dicts
  import opened Positions
  import opened Scenarios
  import opened EventCalendar

  /** The calendar's `get_upcoming_events(days, symbol)`: events of `symbol` within `days`. */
  type Lookup = (nat, string) -> seq<MarketEvent>

  const DefaultLookforward: nat := 30
  const WeeklyLookahead: nat := 7

  // ---------------------------------------------------------------- bucketing

  /** The symbol whose events concern `p`: a non-empty underlying for an option, the symbol
      for a stock, none for an option without an underlying. */
  function WatchedSymbol(p: Position): Option<string>
  {
    if p.isOption && p.underlying.Some? && p.underlying.value != "" then Some(p.underlying.value)
    else if !p.isOption then Some(p.symbol)
    else None
  }

  function SymbolsFrom(ps: seq<Position>): (r: seq<string>)
    ensures forall sym :: sym in r <==> exists i :: 0 <= i < |ps| && WatchedSymbol(ps[i]) == Some(sym)
  {
    if |ps| == 0 then []
    else
      var rest := SymbolsFrom(ps[1..]);
      assert forall i :: 0 < i < |ps| ==> ps[i] == ps[1..][i - 1];
      assert forall i :: 0 <= i < |ps| - 1 ==> ps[1..][i] == ps[i + 1];
      match WatchedSymbol(ps[0])
      case Some(sym) => [sym] + rest
      case None => rest
  }

  /** The set of watched symbols, each once. A Python set has no defined iteration order; the
      model visits symbols in order of first appearance. */
  function WatchedSymbols(ps: seq<Position>): (r: seq<string>)
    ensures NoDuplicates(r)
    ensures forall sym :: sym in r <==> exists i :: 0 <= i < |ps| && WatchedSymbol(ps[i]) == Some(sym)
  {
    Dedup(SymbolsFrom(ps))
  }

  /** The per-symbol event lists concatenated in symbol order. */
  function EventsOf(symbols: seq<string>, lookup: Lookup, days: nat): (r: seq<MarketEvent>)
    ensures forall e :: e in r <==> exists sym :: sym in symbols && e in lookup(days, sym)
  {
    if |symbols| == 0 then []
    else lookup(days, symbols[0]) + EventsOf(symbols[1..], lookup, days)
  }

  /** Every event the bucketing loop visits: the watched symbols' events, then MARKET's. */
  function Gathered(ps: seq<Position>, lookup: Lookup, days: nat): seq<MarketEvent>
  {
    EventsOf(WatchedSymbols(ps), lookup, days) + lookup(days, MarketSymbol)
  }

  /** `(event.date - now).days`. */
  function DaysUntil(e: MarketEvent, now: Moment): int
  {
    DaysBetween(e.date, now)
  }

  /** Days-until exactly 0. */
  function DueToday(now: Moment): MarketEvent -> bool
  {
    (e: MarketEvent) => DaysUntil(e, now) == 0
  }

  /** Days-until at most `limit` (past events included, as in the original). */
  function DueWithin(now: Moment, limit: int): MarketEvent -> bool
  {
    (e: MarketEvent) => DaysUntil(e, now) <= limit
  }

  /** The four lists under keys 'T+0', 'T+1', 'T+5' and 'T+30'. */
  datatype Buckets = Buckets(today: seq<MarketEvent>, nextDay: seq<MarketEvent>,
                             fiveDays: seq<MarketEvent>, thirtyDays: seq<MarketEvent>)

  /** Reference definition of the buckets: four order-preserving filters. */
  function Bucketed(events: seq<MarketEvent>, now: Moment): (b: Buckets)
    ensures forall e :: e in b.today <==> e in events && DaysUntil(e, now) == 0
    ensures forall e :: e in b.nextDay <==> e in events && DaysUntil(e, now) <= 1
    ensures forall e :: e in b.fiveDays <==> e in events && DaysUntil(e, now) <= 5
    ensures forall e :: e in b.thirtyDays <==> e in events && DaysUntil(e, now) <= 30
  {
    Buckets(Filter(events, DueToday(now)), Filter(events, DueWithin(now, 1)),
            Filter(events, DueWithin(now, 5)), Filter(events, DueWithin(now, 30)))
  }

  /** One more event extends each bucket whose test it passes. */
  lemma BucketedSnoc(a: seq<MarketEvent>, e: MarketEvent, now: Moment)
    ensures Bucketed(a + [e], now).today == Bucketed(a, now).today + (if DaysUntil(e, now) == 0 then [e] else [])
    ensures Bucketed(a + [e], now).nextDay == Bucketed(a, now).nextDay + (if DaysUntil(e, now) <= 1 then [e] else [])
    ensures Bucketed(a + [e], now).fiveDays == Bucketed(a, now).fiveDays + (if DaysUntil(e, now) <= 5 then [e] else [])
    ensures Bucketed(a + [e], now).thirtyDays == Bucketed(a, now).thirtyDays + (if DaysUntil(e, now) <= 30 then [e] else [])
  {
    FilterSnoc(a, e, DueToday(now));
    FilterSnoc(a, e, DueWithin(now, 1));
    FilterSnoc(a, e, DueWithin(now, 5));
    FilterSnoc(a, e, DueWithin(now, 30));
  }

  /** The bucketing loop of `check_events`: each event is appended to every bucket whose
      test it passes, the four tests being independent `if`s. */
  method Bucket(events: seq<MarketEvent>, now: Moment) returns (b: Buckets)
    ensures b == Bucketed(events, now)
  {
    b := Buckets([], [], [], []);
    var i := 0;
    while i < |events|
      invariant 0 <= i <= |events|
      invariant b == Bucketed(events[..i], now)
    {
      var e := events[i];
      var days := DaysUntil(e, now);
      var today, nextDay, fiveDays, thirtyDays := b.today, b.nextDay, b.fiveDays, b.thirtyDays;
      if days == 0 {
        today := today + [e];
      }
      if days <= 1 {
        nextDay := nextDay + [e];
      }
      if days <= 5 {
        fiveDays := fiveDays + [e];
      }
      if days <= 30 {
        thirtyDays := thirtyDays + [e];
      }
      b := Buckets(today, nextDay, fiveDays, thirtyDays);
      assert events[..i + 1] == events[..i] + [e];
      BucketedSnoc(events[..i], e, now);
      i := i + 1;
    }
    assert events[..i] == events;
  }

  /** `check_events`: the watched symbols' events and the MARKET events, bucketed. */
  method CheckEvents(ps: seq<Position>, lookup: Lookup, lookforward: nat, now: Moment) returns (b: Buckets)
    ensures b == Bucketed(Gathered(ps, lookup, lookforward), now)
    ensures forall e :: e in b.thirtyDays <==> e in Gathered(ps, lookup, lookforward) && DaysUntil(e, now) <= 30
  {
    b := Bucket(Gathered(ps, lookup, lookforward), now);
  }

  /** The buckets are cumulative: each one is the next wider one, filtered by its own test,
      in the same order. */
  lemma BucketsNest(events: seq<MarketEvent>, now: Moment)
    ensures Filter(Bucketed(events, now).nextDay, DueToday(now)) == Bucketed(events, now).today
    ensures Filter(Bucketed(events, now).fiveDays, DueWithin(now, 1)) == Bucketed(events, now).nextDay
    ensures Filter(Bucketed(events, now).thirtyDays, DueWithin(now, 5)) == Bucketed(events, now).fiveDays
  {
    FilterNarrow(events, DueWithin(now, 1), DueToday(now));
    FilterNarrow(events, DueWithin(now, 5), DueWithin(now, 1));
    FilterNarrow(events, DueWithin(now, 30), DueWithin(now, 5));
  }

  /** An event of a watched symbol is looked at; so is every MARKET event. */
  lemma GatheredCovers(ps: seq<Position>, lookup: Lookup, days: nat, i: int, e: MarketEvent)
    requires 0 <= i < |ps| && WatchedSymbol(ps[i]).Some?
    requires e in lookup(days, WatchedSymbol(ps[i]).value) || e in lookup(days, MarketSymbol)
    ensures e in Gathered(ps, lookup, days)
  {
  }

  // ---------------------------------------------------------------- scenario selection

  const FedScenarios: seq<string> := ["Fed Hawkish", "Fed Dovish", "Fed Neutral"]
  const EarningsScenarios: seq<string> := ["Earnings Beat", "Earnings Miss", "Earnings Inline"]
  const ExpirationScenarios: seq<string> := ["1 Day Pass", "Weekend"]
  const StressScenarios: seq<string> := ["Market Panic", "Relief Rally"]

  /** The scenarios one imminent event asks for. */
  function Triggered(e: MarketEvent): seq<string>
  {
    match e.kind
    case Fomc => FedScenarios
    case Earnings => EarningsScenarios
    case Expiration => ExpirationScenarios
    case OtherKind(_) => []
  }

  function TriggeredBy(es: seq<MarketEvent>): (r: seq<string>)
    ensures forall x :: x in r <==> exists e :: e in es && x in Triggered(e)
  {
    if |es| == 0 then []
    else
      assert forall e :: e in es <==> e == es[0] || e in es[1..] by {
        assert es == [es[0]] + es[1..];
      }
      Triggered(es[0]) + TriggeredBy(es[1..])
  }

  /** T+0 followed by T+1. */
  function Imminent(b: Buckets): seq<MarketEvent>
  {
    b.today + b.nextDay
  }

  /** The list before deduplication: the baseline, the event scenarios when T+0 or T+1 is
      non-empty, then the two stress scenarios. */
  function Candidates(b: Buckets): seq<string>
  {
    ["Normal Day"]
      + (if |b.today| > 0 || |b.nextDay| > 0 then TriggeredBy(Imminent(b)) else [])
      + StressScenarios
  }

  /** `get_relevant_scenarios`: the candidates with repeats dropped by a `seen` set. */
  method RelevantScenarios(b: Buckets) returns (r: seq<string>)
    ensures r == Dedup(Candidates(b))
  {
    var candidates := Candidates(b);
    var seen: set<string> := {};
    r := [];
    var i := 0;
    while i < |candidates|
      invariant 0 <= i <= |candidates|
      invariant r == Dedup(candidates[..i])
      invariant forall x :: x in seen <==> x in r
    {
      var x := candidates[i];
      assert candidates[..i + 1] == candidates[..i] + [x];
      DedupSnoc(candidates[..i], x);
      if x !in seen {
        seen := seen + {x};
        r := r + [x];
      }
      i := i + 1;
    }
    assert candidates[..i] == candidates;
  }

  /** The selection starts with Normal Day, always holds both stress scenarios, and names
      each scenario once, in the order it was first asked for. */
  lemma RelevantScenariosShape(b: Buckets)
    ensures |Dedup(Candidates(b))| > 0 && Dedup(Candidates(b))[0] == "Normal Day"
    ensures "Market Panic" in Dedup(Candidates(b)) && "Relief Rally" in Dedup(Candidates(b))
    ensures NoDuplicates(Dedup(Candidates(b)))
    ensures forall i, j :: 0 <= i < j < |Dedup(Candidates(b))| ==>
              IndexOf(Candidates(b), Dedup(Candidates(b))[i]) < IndexOf(Candidates(b), Dedup(Candidates(b))[j])
  {
    var c := Candidates(b);
    DedupHead(c);
    DedupKeepsFirstOrder(c);
    assert c[|c| - 2] == "Market Panic" && c[|c| - 1] == "Relief Rally";
  }

  /** An event scenario is selected exactly when an imminent event of the matching kind is
      present, and nothing outside the baseline, the stress pair and the triggered lists is. */
  lemma RelevantScenariosFollowEvents(b: Buckets)
    ensures "Fed Hawkish" in Dedup(Candidates(b)) <==> exists e :: e in Imminent(b) && e.kind == Fomc
    ensures "Earnings Beat" in Dedup(Candidates(b)) <==> exists e :: e in Imminent(b) && e.kind == Earnings
    ensures "1 Day Pass" in Dedup(Candidates(b)) <==> exists e :: e in Imminent(b) && e.kind == Expiration
    ensures forall x :: x in Dedup(Candidates(b)) ==>
              x == "Normal Day" || x in StressScenarios || exists e :: e in Imminent(b) && x in Triggered(e)
  {
    CandidateMembers(b);
    forall e: MarketEvent
      ensures "Fed Hawkish" in Triggered(e) <==> e.kind == Fomc
      ensures "Earnings Beat" in Triggered(e) <==> e.kind == Earnings
      ensures "1 Day Pass" in Triggered(e) <==> e.kind == Expiration
    {
      TriggeredKinds(e);
    }
    EventScenariosNotBaseline();
    SelectedIff(b, "Fed Hawkish", Fomc);
    SelectedIff(b, "Earnings Beat", Earnings);
    SelectedIff(b, "1 Day Pass", Expiration);
  }

  /** A scenario that only events of kind `k` ask for is selected exactly when an imminent
      event of that kind is present. */
  lemma SelectedIff(b: Buckets, name: string, k: EventKind)
    requires name != "Normal Day" && name !in StressScenarios
    requires forall e :: name in Triggered(e) <==> e.kind == k
    ensures name in Dedup(Candidates(b)) <==> exists e :: e in Imminent(b) && e.kind == k
  {
    CandidateMembers(b);
    if name in Dedup(Candidates(b)) {
      var e :| e in Imminent(b) && name in Triggered(e);
      assert e.kind == k;
    }
    if exists e :: e in Imminent(b) && e.kind == k {
      var e :| e in Imminent(b) && e.kind == k;
      assert name in Triggered(e);
    }
  }

  /** What the candidate list can hold. */
  lemma CandidateMembers(b: Buckets)
    ensures forall x :: x in Candidates(b) <==>
              x == "Normal Day" || x in StressScenarios || exists e :: e in Imminent(b) && x in Triggered(e)
  {
    var c := Candidates(b);
    var t := if |b.today| > 0 || |b.nextDay| > 0 then TriggeredBy(Imminent(b)) else [];
    assert c == ["Normal Day"] + t + StressScenarios;
    assert forall x :: x in c <==> x == "Normal Day" || x in t || x in StressScenarios;
    assert forall x :: x in t <==> x in TriggeredBy(Imminent(b)) by {
      if |Imminent(b)| == 0 {
        assert TriggeredBy(Imminent(b)) == [];
      }
    }
  }

  /** Each event kind asks for its own scenarios. */
  lemma TriggeredKinds(e: MarketEvent)
    ensures "Fed Hawkish" in Triggered(e) <==> e.kind == Fomc
    ensures "Earnings Beat" in Triggered(e) <==> e.kind == Earnings
    ensures "1 Day Pass" in Triggered(e) <==> e.kind == Expiration
  {
  }

  /** No event scenario is the baseline or a stress scenario. */
  lemma EventScenariosNotBaseline()
    ensures "Fed Hawkish" != "Normal Day" && "Fed Hawkish" !in StressScenarios
    ensures "Earnings Beat" != "Normal Day" && "Earnings Beat" !in StressScenarios
    ensures "1 Day Pass" != "Normal Day" && "1 Day Pass" !in StressScenarios
  {
  }

  /** Every selected name is a key of the scenario catalog, so the selection can be run. */
  lemma RelevantScenariosInCatalog(b: Buckets)
    ensures forall x :: x in Dedup(Candidates(b)) ==> x in Keys(Catalog())
  {
    CandidateMembers(b);
    CatalogKeysAreNames();
    forall x | x in Dedup(Candidates(b))
      ensures x in Names()
    {
      if x != "Normal Day" && x !in StressScenarios {
        var e :| e in Imminent(b) && x in Triggered(e);
        TriggeredNamed(e);
      }
    }
  }

  /** Every name an event asks for is a catalog name. */
  lemma TriggeredNamed(e: MarketEvent)
    ensures forall x :: x in Triggered(e) ==> x in Names()
  {
  }

  // ---------------------------------------------------------------- weekly options near events

  /** The monthly-expiry day as the original computes it: `15 + (4 - weekday(1st)) % 7 + 14`.
      It adds fourteen days twice, so it lands a fortnight after the real third Friday. */
  function ThirdFridayAsWritten(year: int, month: int): (day: int)
    requires year >= 1 && 1 <= month <= 12
    ensures 29 <= day <= 35
    ensures day == ThirdFriday(year, month).day + 14
  {
    var k := DaysUntilFriday(year, month);
    AddDaysWithinMonth(Date(year, month, 1), k + 14);
    15 + k + 14
  }

  /** Which day test decides that an expiry is a weekly. */
  datatype Classification = AsWritten | Corrected

  /** An expiry is weekly when its day differs from the month's expiry day; `AsWritten`
      uses the original's expression, `Corrected` the third Friday. As written, no expiry
      before the 29th can be a monthly one. */
  predicate IsWeekly(exp: CivilDate, c: Classification)
    ensures c == AsWritten && exp.day < 29 ==> IsWeekly(exp, c)
  {
    match c
    case AsWritten => exp.day != ThirdFridayAsWritten(exp.year, exp.month)
    case Corrected => exp.day != ThirdFriday(exp.year, exp.month).day
  }

  /** As written, every standard monthly expiry is taken for a weekly. */
  lemma MonthlyExpiryTakenForWeekly(year: int, month: int)
    requires year >= 1 && 1 <= month <= 12
    ensures IsWeekly(ThirdFriday(year, month), AsWritten)
    ensures !IsWeekly(ThirdFriday(year, month), Corrected)
  {
  }

  /** As written, the weekly expiring on Friday 2024-03-29 (the month's fifth Friday) is
      taken for a monthly. */
  lemma FifthFridayTakenForMonthly()
    ensures Weekday(Date(2024, 3, 29)) == Friday
    ensures !IsWeekly(Date(2024, 3, 29), AsWritten)
    ensures IsWeekly(Date(2024, 3, 29), Corrected)
  {
    assert DaysBeforeYear(2024) == 738885;
    assert Ordinal(Date(2024, 3, 1)) == 738946;
    assert Ordinal(Date(2024, 3, 29)) == 738974;
    assert DaysUntilFriday(2024, 3) == 0;
  }

  /** Corrected, an expiry is monthly exactly when it is its month's third Friday. */
  lemma CorrectedWeeklyIff(exp: CivilDate)
    ensures !IsWeekly(exp, Corrected) <==> exp == ThirdFriday(exp.year, exp.month)
  {
  }

  /** `-3 <= (event.date - expiration).days <= 0`. */
  function InBeforeWindow(expiration: Moment): MarketEvent -> bool
  {
    (e: MarketEvent) => -3 <= DaysBetween(e.date, expiration) <= 0
  }

  /** `0 < (event.date - expiration).days <= 3`, reached through `elif`. */
  function InAfterWindow(expiration: Moment): MarketEvent -> bool
  {
    (e: MarketEvent) => !InBeforeWindow(expiration)(e) && 0 < DaysBetween(e.date, expiration) <= 3
  }

  /** No event falls in both windows, so the `elif` changes nothing: the after-window is
      exactly `1..3` days after expiry. */
  lemma WindowsDisjoint(expiration: Moment, e: MarketEvent)
    ensures !(InBeforeWindow(expiration)(e) && InAfterWindow(expiration)(e))
    ensures InAfterWindow(expiration)(e) <==> 0 < DaysBetween(e.date, expiration) <= 3
  {
  }

  /** One entry of the result: the option, its expiry and the two event windows. */
  datatype WeeklyFlag = WeeklyFlag(position: Position, expiration: Moment,
                                   before: seq<MarketEvent>, after: seq<MarketEvent>)

  /** The events looked up for a weekly: its underlying's next seven days, or none. */
  function NearbyEvents(p: Position, lookup: Lookup): seq<MarketEvent>
  {
    if p.underlying.Some? && p.underlying.value != "" then lookup(WeeklyLookahead, p.underlying.value) else []
  }

  /** `identify_weekly_options_near_events`, with the weekly test chosen by `c`. */
  function NearEvents(ps: seq<Position>, lookup: Lookup, c: Classification): (r: seq<WeeklyFlag>)
    ensures |r| <= |ps|
  {
    if |ps| == 0 then []
    else
      var p := ps[0];
      var rest := NearEvents(ps[1..], lookup, c);
      if !p.isOption || p.expiration.None? || !IsWeekly(p.expiration.value.date, c) then rest
      else
        var events := NearbyEvents(p, lookup);
        var before := Filter(events, InBeforeWindow(p.expiration.value));
        var after := Filter(events, InAfterWindow(p.expiration.value));
        if |before| > 0 || |after| > 0 then [WeeklyFlag(p, p.expiration.value, before, after)] + rest
        else rest
  }

  /** Every flag is a weekly option of the input with a non-empty underlying, its expiry,
      and the two windows of its underlying's events, at least one of them non-empty. */
  lemma {:induction false} NearEventsSound(ps: seq<Position>, lookup: Lookup, c: Classification)
    ensures forall f :: f in NearEvents(ps, lookup, c) ==>
              f.position in ps && f.position.isOption && f.position.expiration == Some(f.expiration)
              && IsWeekly(f.expiration.date, c)
              && f.position.underlying.Some? && f.position.underlying.value != ""
              && (|f.before| > 0 || |f.after| > 0)
              && f.before == Filter(NearbyEvents(f.position, lookup), InBeforeWindow(f.expiration))
              && f.after == Filter(NearbyEvents(f.position, lookup), InAfterWindow(f.expiration))
    decreases |ps|
  {
    if |ps| > 0 {
      NearEventsSound(ps[1..], lookup, c);
      var p := ps[0];
      if p.isOption && p.expiration.Some? && (p.underlying.None? || p.underlying.value == "") {
        assert NearbyEvents(p, lookup) == [];
      }
    }
  }

  /** `p` is a weekly option and `e` is one of its underlying's events in a window. */
  predicate Flaggable(p: Position, lookup: Lookup, c: Classification, e: MarketEvent)
  {
    && p.isOption && p.expiration.Some?
    && IsWeekly(p.expiration.value.date, c)
    && e in NearbyEvents(p, lookup)
    && (InBeforeWindow(p.expiration.value)(e) || InAfterWindow(p.expiration.value)(e))
  }

  /** A weekly option whose underlying has an event in a window is flagged. */
  lemma {:induction false} NearEventsFlags(ps: seq<Position>, lookup: Lookup, c: Classification, i: int, e: MarketEvent)
    requires 0 <= i < |ps| && Flaggable(ps[i], lookup, c, e)
    ensures exists f :: f in NearEvents(ps, lookup, c) && f.position == ps[i]
    decreases |ps|
  {
    if i > 0 {
      var p := ps[i];
      assert ps[1..][i - 1] == p;
      NearEventsFlags(ps[1..], lookup, c, i - 1, e);
      var f :| f in NearEvents(ps[1..], lookup, c) && f.position == p;
      NearEventsKeepsRest(ps, lookup, c);
      assert f in NearEvents(ps, lookup, c);
    } else {
      NearEventsFlagsHead(ps, lookup, c, e);
      assert NearEvents(ps, lookup, c)[0] in NearEvents(ps, lookup, c);
    }
  }

  /** The flags of the tail are kept. */
  lemma NearEventsKeepsRest(ps: seq<Position>, lookup: Lookup, c: Classification)
    requires |ps| > 0
    ensures forall f :: f in NearEvents(ps[1..], lookup, c) ==> f in NearEvents(ps, lookup, c)
  {
  }

  /** A head that qualifies is flagged first. */
  lemma NearEventsFlagsHead(ps: seq<Position>, lookup: Lookup, c: Classification, e: MarketEvent)
    requires |ps| > 0 && Flaggable(ps[0], lookup, c, e)
    ensures |NearEvents(ps, lookup, c)| > 0 && NearEvents(ps, lookup, c)[0].position == ps[0]
  {
    var p := ps[0];
    var events := NearbyEvents(p, lookup);
    assert e in Filter(events, InBeforeWindow(p.expiration.value))
        || e in Filter(events, InAfterWindow(p.expiration.value));
  }
}

=== FILE: iv_model.dfy ===
/** The beta-weighted implied-volatility model used to shift each option's IV under a
    scenario. */
module IvModel {
  import opened Wrappers
  import opened Num
  import opened Dates
  import opened Positions
  import opened Scenarios

  /** IV assumed for an option whose IV is unknown. */
  const DefaultIv: real := 0.30
  /** Days to expiry assumed for an option without an expiration. */
  const DefaultDte: int := 30

  /** `get_moneyness_beta`: deep OTM options move most, deep ITM options least. */
  function MoneynessBeta(m: real): (b: real)
    ensures 0.8 <= b <= 1.3
    ensures b == 1.3 <==> m < 0.95
    ensures b == 1.2 <==> 0.95 <= m < 0.98
    ensures b == 1.0 <==> 0.98 <= m < 1.02
    ensures b == 0.9 <==> 1.02 <= m < 1.05
    ensures b == 0.8 <==> m >= 1.05
  {
    if m < 0.95 then 1.3
    else if m < 0.98 then 1.2
    else if m < 1.02 then 1.0
    else if m < 1.05 then 0.9
    else 0.8
  }

  /** The moneyness beta never increases with moneyness. */
  lemma MoneynessBetaNonIncreasing(m1: real, m2: real)
    requires m1 <= m2
    ensures MoneynessBeta(m2) <= MoneynessBeta(m1)
  {
  }

  /** `get_time_beta`: short-dated options move most. */
  function TimeBeta(dte: int): (b: real)
    ensures 0.5 <= b <= 1.5
    ensures b == 1.5 <==> dte <= 7
    ensures b == 1.0 <==> 7 < dte <= 30
    ensures b == 0.7 <==> 30 < dte <= 90
    ensures b == 0.5 <==> dte > 90
  {
    if dte <= 7 then 1.5
    else if dte <= 30 then 1.0
    else if dte <= 90 then 0.7
    else 0.5
  }

  /** The time beta never increases with days to expiry. */
  lemma TimeBetaNonIncreasing(d1: int, d2: int)
    requires d1 <= d2
    ensures TimeBeta(d2) <= TimeBeta(d1)
  {
  }

  /** A relative IV change applied to a base IV, clamped to [0.01, 3.0]. */
  function ApplyChange(base: real, change: real): (r: real)
    ensures VolFloor <= r <= VolCap
    ensures VolFloor <= base * (1.0 + change) <= VolCap ==> r == base * (1.0 + change)
    ensures base * (1.0 + change) < VolFloor ==> r == VolFloor
    ensures base * (1.0 + change) > VolCap ==> r == VolCap
    ensures change == 0.0 && VolFloor <= base <= VolCap ==> r == base
  {
    ClampVol(base * (1.0 + change))
  }

  /** For a non-negative base, a larger change never gives a lower IV. */
  lemma ApplyChangeMonotone(base: real, c1: real, c2: real)
    requires base >= 0.0 && c1 <= c2
    ensures ApplyChange(base, c1) <= ApplyChange(base, c2)
  {
    assert base * c1 <= base * c2;
    ClampVolMonotone(base * (1.0 + c1), base * (1.0 + c2));
  }

  /** The product of the two betas that scales a scenario multiplier. */
  function BetaWeight(m: real, dte: int): (w: real)
    ensures 0.4 <= w <= 1.95
  {
    MoneynessBeta(m) * TimeBeta(dte)
  }

  /** `calculate_iv_shift`: the scenario multiplier scaled by both betas, applied as a
      relative change and clamped to [0.01, 3.0]. The category argument is accepted and
      has no effect. */
  function IvShift(base: real, m: real, dte: int, multiplier: real, category: string): (r: real)
    ensures VolFloor <= r <= VolCap
    ensures VolFloor <= base * (1.0 + multiplier * BetaWeight(m, dte)) <= VolCap ==>
              r == base * (1.0 + multiplier * BetaWeight(m, dte))
    ensures multiplier == 0.0 && VolFloor <= base <= VolCap ==> r == base
  {
    ApplyChange(base, multiplier * BetaWeight(m, dte))
  }

  /** The category label passed to `IvShift` never changes its result. */
  lemma IvShiftIgnoresCategory(base: real, m: real, dte: int, multiplier: real, c1: string, c2: string)
    ensures IvShift(base, m, dte, multiplier, c1) == IvShift(base, m, dte, multiplier, c2)
  {
  }

  lemma ScaleMonotone(x: real, y: real, w: real)
    requires x <= y && w > 0.0
    ensures x * w <= y * w
  {
  }

  /** For a non-negative base IV, a larger scenario multiplier never lowers the new IV. */
  lemma IvShiftMonotoneInMultiplier(base: real, m: real, dte: int, x: real, y: real, c: string)
    requires base >= 0.0 && x <= y
    ensures IvShift(base, m, dte, x, c) <= IvShift(base, m, dte, y, c)
  {
    BetaWeightPositive(m, dte);
    IvShiftUnfold(base, m, dte, x, c);
    IvShiftUnfold(base, m, dte, y, c);
    ScaledChangeMonotone(base, BetaWeight(m, dte), x, y);
  }

  lemma BetaWeightPositive(m: real, dte: int)
    ensures BetaWeight(m, dte) > 0.0
  {
  }

  lemma IvShiftUnfold(base: real, m: real, dte: int, x: real, c: string)
    ensures IvShift(base, m, dte, x, c) == ApplyChange(base, x * BetaWeight(m, dte))
  {
  }

  /** The same for any positive weight on the multiplier. */
  lemma ScaledChangeMonotone(base: real, w: real, x: real, y: real)
    requires base >= 0.0 && w > 0.0 && x <= y
    ensures ApplyChange(base, x * w) <= ApplyChange(base, y * w)
  {
    ScaleMonotone(x, y, w);
    ApplyChangeMonotone(base, x * w, y * w);
  }

  /** The key of the DTE table that applies to `dte`. */
  function DteBucket(dte: int): (key: string)
    ensures key in {"0-7", "8-30", "31-90", "90+"}
    ensures key == "0-7" <==> dte <= 7
    ensures key == "8-30" <==> 7 < dte <= 30
    ensures key == "31-90" <==> 30 < dte <= 90
    ensures key == "90+" <==> dte > 90
  {
    if dte <= 7 then "0-7"
    else if dte <= 30 then "8-30"
    else if dte <= 90 then "31-90"
    else "90+"
  }

  /** The relative change `calculate_scenario_iv` applies: the DTE bucket's entry when the
      scenario has a non-empty DTE table holding that bucket, the uniform change otherwise. */
  function ScenarioChange(spec: Spec, dte: int): (c: real)
    ensures Scaling(spec) == map[] ==> c == BaseChange(spec)
    ensures DteBucket(dte) !in Scaling(spec) ==> c == BaseChange(spec)
    ensures DteBucket(dte) in Scaling(spec) ==> c == Scaling(spec)[DteBucket(dte)]
  {
    var table := Scaling(spec);
    if table != map[] && DteBucket(dte) in table then table[DteBucket(dte)] else BaseChange(spec)
  }

  /** `calculate_scenario_iv`: the base IV moved by `ScenarioChange`, clamped. */
  function ScenarioIv(base: real, dte: int, spec: Spec): (r: real)
    ensures VolFloor <= r <= VolCap
    ensures VolFloor <= base * (1.0 + ScenarioChange(spec, dte)) <= VolCap ==>
              r == base * (1.0 + ScenarioChange(spec, dte))
    ensures base * (1.0 + ScenarioChange(spec, dte)) < VolFloor ==> r == VolFloor
    ensures base * (1.0 + ScenarioChange(spec, dte)) > VolCap ==> r == VolCap
  {
    ApplyChange(base, ScenarioChange(spec, dte))
  }

  /** Two DTEs in the same bucket get the same scenario IV. */
  lemma ScenarioIvDependsOnBucketOnly(base: real, d1: int, d2: int, spec: Spec)
    requires DteBucket(d1) == DteBucket(d2)
    ensures ScenarioIv(base, d1, spec) == ScenarioIv(base, d2, spec)
  {
  }

  /** The moneyness category `calculate_position_iv` assigns. */
  datatype Category = OtmPut | OtmCall | Atm | ItmPut | ItmCall
  {
    /** The `iv_multipliers` key for this category. */
    function Name(): string
    {
      match this
      case OtmPut => "OTM_PUT"
      case OtmCall => "OTM_CALL"
      case Atm => "ATM"
      case ItmPut => "ITM_PUT"
      case ItmCall => "ITM_CALL"
    }
  }

  /** Category by moneyness: OTM below 0.95, ATM up to (not including) 1.05, ITM from
      1.05; the side is the put side only for type 'P', every other type is a call. */
  function CategoryOf(m: real, optionType: Option<string>): (c: Category)
    ensures c == Atm <==> 0.95 <= m < 1.05
    ensures (c == OtmPut || c == OtmCall) <==> m < 0.95
    ensures (c == ItmPut || c == ItmCall) <==> m >= 1.05
    ensures c != Atm ==> ((c == OtmPut || c == ItmPut) <==> optionType == Some("P"))
  {
    if m < 0.95 then (if optionType == Some("P") then OtmPut else OtmCall)
    else if m < 1.05 then Atm
    else if optionType == Some("P") then ItmPut
    else ItmCall
  }

  /** The category cut points are not the beta table's: both ends of the ATM category carry
      non-unit moneyness betas. */
  lemma AtmCategorySpansFourBetas()
    ensures CategoryOf(0.95, Some("C")) == Atm && MoneynessBeta(0.95) == 1.2
    ensures CategoryOf(1.04, Some("C")) == Atm && MoneynessBeta(1.04) == 0.9
  {
  }

  /** Moneyness with the scenario's underlying price: spot/strike for calls, strike/spot for
      anything else, failing like Python's division on a missing or zero divisor. */
  function ScenarioMoneyness(p: Position, spot: real): (r: Result<real>)
    ensures r.Err? <==> p.strike.None? || (IsCall(p) && p.strike.value == 0.0) || (!IsCall(p) && spot == 0.0)
    ensures r.Err? ==> (r.fault == NoneOperand <==> p.strike.None?)
    ensures r.Ok? && IsCall(p) ==> r.value * p.strike.value == spot
    ensures r.Ok? && !IsCall(p) ==> r.value * spot == p.strike.value
  {
    if p.strike.None? then Err(NoneOperand)
    else if IsCall(p) then (if p.strike.value == 0.0 then Err(ZeroDivision) else Ok(spot / p.strike.value))
    else if spot == 0.0 then Err(ZeroDivision)
    else Ok(p.strike.value / spot)
  }

  /** The base IV and DTE `calculate_position_iv` starts from. */
  function BaseIv(p: Position): real
  {
    p.impliedVolatility.GetOr(DefaultIv)
  }

  function EffectiveDte(p: Position, now: Moment): int
  {
    DaysToExpiration(p, now).GetOr(DefaultDte)
  }

  /** `calculate_position_iv`: 0.0 for stock; for an option, the category's multiplier (or
      the 'default' one) through the beta-weighted `IvShift`, and otherwise the un-beta'd
      `ScenarioIv`. */
  function PositionIv(p: Position, spec: Spec, spot: real, now: Moment): (r: Result<real>)
    ensures !p.isOption ==> r == Ok(0.0)
    ensures p.isOption ==> (r.Err? <==> ScenarioMoneyness(p, spot).Err?)
    ensures p.isOption && r.Ok? ==> VolFloor <= r.value <= VolCap
    ensures p.isOption && ScenarioMoneyness(p, spot).Ok? ==>
              (var m := ScenarioMoneyness(p, spot).value;
               var name := CategoryOf(m, p.optionType).Name();
               var table := Multipliers(spec);
               r == Ok(if name in table then IvShift(BaseIv(p), m, EffectiveDte(p, now), table[name], name)
                       else if "default" in table then IvShift(BaseIv(p), m, EffectiveDte(p, now), table["default"], name)
                       else ScenarioIv(BaseIv(p), EffectiveDte(p, now), spec)))
  {
    if !p.isOption then Ok(0.0)
    else
      match ScenarioMoneyness(p, spot)
      case Err(f) => Err(f)
      case Ok(m) =>
        var base := BaseIv(p);
        var dte := EffectiveDte(p, now);
        var category := CategoryOf(m, p.optionType);
        var table := Multipliers(spec);
        if category.Name() in table then Ok(IvShift(base, m, dte, table[category.Name()], category.Name()))
        else if "default" in table then Ok(IvShift(base, m, dte, table["default"], category.Name()))
        else Ok(ScenarioIv(base, dte, spec))
  }

  /** Lookup order, first tier: an entry for the option's category makes the 'default'
      entry irrelevant. */
  lemma CategoryEntryOverridesDefault(p: Position, spec: Spec, spot: real, now: Moment, d: real)
    requires p.isOption && ScenarioMoneyness(p, spot).Ok?
    requires CategoryOf(ScenarioMoneyness(p, spot).value, p.optionType).Name() in Multipliers(spec)
    ensures PositionIv(p, spec.(ivMultipliers := Some(Multipliers(spec)["default" := d])), spot, now)
         == PositionIv(p, spec, spot, now)
  {
    var c := CategoryOf(ScenarioMoneyness(p, spot).value, p.optionType);
    assert c.Name() != "default";
  }

  /** Lookup order, second tier: when no category has an entry, a 'default' entry acts
      exactly as an entry for the option's own category would. */
  lemma DefaultActsAsCategoryEntry(p: Position, spec: Spec, spot: real, now: Moment, d: real)
    requires p.isOption && ScenarioMoneyness(p, spot).Ok?
    requires forall c: Category :: c.Name() !in Multipliers(spec)
    ensures var name := CategoryOf(ScenarioMoneyness(p, spot).value, p.optionType).Name();
            PositionIv(p, spec.(ivMultipliers := Some(Multipliers(spec)["default" := d])), spot, now) ==
            PositionIv(p, spec.(ivMultipliers := Some(Multipliers(spec)[name := d])), spot, now)
  {
    var c := CategoryOf(ScenarioMoneyness(p, spot).value, p.optionType);
    assert c.Name() != "default";
    assert c.Name() !in Multipliers(spec);
  }

  /** Lookup order, last tier: with neither a category nor a 'default' entry, the new IV
      depends on the underlying price only through whether moneyness is defined, because
      the fallback applies no betas. */
  lemma FallbackIgnoresMoneyness(p: Position, spec: Spec, s1: real, s2: real, now: Moment)
    requires p.isOption && ScenarioMoneyness(p, s1).Ok? && ScenarioMoneyness(p, s2).Ok?
    requires forall c: Category :: c.Name() !in Multipliers(spec)
    requires "default" !in Multipliers(spec)
    ensures PositionIv(p, spec, s1, now) == PositionIv(p, spec, s2, now)
    ensures PositionIv(p, spec, s1, now) == Ok(ScenarioIv(BaseIv(p), EffectiveDte(p, now), spec))
  {
    var c1 := CategoryOf(ScenarioMoneyness(p, s1).value, p.optionType);
    var c2 := CategoryOf(ScenarioMoneyness(p, s2).value, p.optionType);
    assert c1.Name() !in Multipliers(spec);
    assert c2.Name() !in Multipliers(spec);
  }

  /** A custom scenario with only a uniform IV change moves every option's IV by exactly
      that relative change, whatever its moneyness and expiry. */
  lemma UniformScenarioIv(p: Position, name: string, spotChange: real, change: real,
                          days: int, spot: real, now: Moment)
    requires p.isOption && ScenarioMoneyness(p, spot).Ok?
    ensures PositionIv(p, CreateCustom(name, spotChange, Some(change), None, days), spot, now)
         == Ok(ClampVol(BaseIv(p) * (1.0 + change)))
  {
    var spec := CreateCustom(name, spotChange, Some(change), None, days);
    assert Multipliers(spec) == map[];
    assert ScenarioChange(spec, EffectiveDte(p, now)) == change;
    var c := CategoryOf(ScenarioMoneyness(p, spot).value, p.optionType);
    assert c.Name() !in Multipliers(spec);
  }

  /** A put struck at 100 with the underlying shocked to 95 sits at moneyness 100/95, above
      1.05, so it is ITM_PUT, not ATM: under a scenario whose only multiplier is ATM 0.35 it
      takes the fallback and keeps its 0.30 IV. */
  lemma PutAtNinetyFiveIsItmNotAtm(now: Moment)
    ensures var p := Position("XYZ", 1.0, 5.0, 5.0, now, true, Some("XYZ"), Some(100.0), None,
                              Some("P"), 100, None, None, None, None, None, Some(0.30), 500.0);
            var spec := Spec("Sell-off", -0.05, None, Some(map["ATM" := 0.35]), None, 0);
            CategoryOf(100.0 / 95.0, Some("P")) == ItmPut
            && PositionIv(p, spec, 95.0, now) == Ok(0.30)
  {
    var p := Position("XYZ", 1.0, 5.0, 5.0, now, true, Some("XYZ"), Some(100.0), None,
                      Some("P"), 100, None, None, None, None, None, Some(0.30), 500.0);
    var spec := Spec("Sell-off", -0.05, None, Some(map["ATM" := 0.35]), None, 0);
    assert ScenarioMoneyness(p, 95.0) == Ok(100.0 / 95.0);
    assert CategoryOf(100.0 / 95.0, Some("P")) == ItmPut;
    assert "ITM_PUT" !in map["ATM" := 0.35];
  }
}

=== FILE: market_data.dfy ===
/** The market-data cache with a time-to-live and the throttle on database snapshots.
    Clock readings (`time.time()`, in seconds) are parameters; the database write is reduced
    to the rows it would insert and whether it commits. */
module MarketData {
  import opened Wrappers
  import opened Positions

  // ---------------------------------------------------------------- TTL cache

  /** `MarketDataCache`: each key holds its data and the time it was stored. */
  datatype Cache<D> = Cache(ttl: real, entries: map<string, (D, real)>)

  const DefaultTtl: real := 1.0

  function NewCache<D>(ttl: real): (c: Cache<D>)
    ensures c.ttl == ttl && c.entries == map[]
  {
    Cache(ttl, map[])
  }

  /** An entry is fresh while strictly less than `ttl` seconds old. */
  predicate Fresh<D>(c: Cache<D>, key: string, now: real)
    requires key in c.entries
  {
    now - c.entries[key].1 < c.ttl
  }

  /** `get`: the data of a fresh entry; a stale entry is deleted and `None` returned. */
  function CacheGet<D>(c: Cache<D>, key: string, now: real): (r: (Cache<D>, Option<D>))
    ensures r.0.ttl == c.ttl
    ensures r.1.Some? <==> key in c.entries && Fresh(c, key, now)
    ensures r.1.Some? ==> r.1.value == c.entries[key].0 && r.0 == c
    ensures r.1.None? ==> key !in r.0.entries
    ensures forall k :: k != key ==> (k in r.0.entries <==> k in c.entries)
    ensures forall k :: k != key && k in c.entries ==> r.0.entries[k] == c.entries[k]
  {
    if key in c.entries then
      var (data, stamp) := c.entries[key];
      if now - stamp < c.ttl then (c, Some(data))
      else (c.(entries := c.entries - {key}), None)
    else (c, None)
  }

  /** `set`: store `data` stamped with `now`, replacing any earlier entry. */
  function CacheSet<D>(c: Cache<D>, key: string, data: D, now: real): (r: Cache<D>)
    ensures r.ttl == c.ttl
    ensures key in r.entries && r.entries[key] == (data, now)
    ensures forall k :: k != key ==> (k in r.entries <==> k in c.entries)
    ensures forall k :: k != key && k in c.entries ==> r.entries[k] == c.entries[k]
  {
    c.(entries := c.entries[key := (data, now)])
  }

  /** `clear`: drop every entry. */
  function CacheClear<D>(c: Cache<D>): (r: Cache<D>)
    ensures r.ttl == c.ttl && |r.entries| == 0
  {
    c.(entries := map[])
  }

  /** A `get` after a `set` returns the stored data exactly while it is younger than the
      TTL; once it is not, the entry is gone and every other key is as it was. */
  lemma GetAfterSet<D>(c: Cache<D>, key: string, data: D, stored: real, now: real)
    ensures CacheGet(CacheSet(c, key, data, stored), key, now).1 == (if now - stored < c.ttl then Some(data) else None)
    ensures now - stored >= c.ttl ==>
              CacheGet(CacheSet(c, key, data, stored), key, now).0.entries == c.entries - {key}
  {
    var s := CacheSet(c, key, data, stored);
    if now - stored >= c.ttl {
      assert s.entries - {key} == c.entries - {key};
    }
  }

  /** Two `set`s of one key keep only the second. */
  lemma SetOverwrites<D>(c: Cache<D>, key: string, d1: D, t1: real, d2: D, t2: real)
    ensures CacheSet(CacheSet(c, key, d1, t1), key, d2, t2) == CacheSet(c, key, d2, t2)
  {
  }

  /** After `clear` every `get` misses. */
  lemma ClearedMisses<D>(c: Cache<D>, key: string, now: real)
    ensures CacheGet(CacheClear(c), key, now).1 == None
  {
  }

  // ---------------------------------------------------------------- snapshot throttle

  /** One `market_snapshots` row. */
  datatype SnapshotRow = SnapshotRow(symbol: string, price: real, iv: Option<real>,
                                     delta: Option<real>, gamma: Option<real>, theta: Option<real>,
                                     vega: Option<real>, rho: Option<real>)

  function RowOf(p: Position): SnapshotRow
  {
    SnapshotRow(p.symbol, p.currentPrice, p.impliedVolatility, p.delta, p.gamma, p.theta, p.vega, p.rho)
  }

  /** `snapshot_interval` (300 s by default) and `last_snapshot_time` (0 at start). */
  datatype Throttle = Throttle(interval: real, lastSnapshot: real)

  const DefaultThrottle := Throttle(300.0, 0.0)

  /** The outcome of `save_snapshot`: the new throttle state and the rows committed. */
  datatype Saved = Saved(throttle: Throttle, committed: seq<SnapshotRow>)

  /** `save_snapshot` at time `now`; `commits` says whether the database write succeeds.
      The rows are inserted in one transaction, so a failure commits none of them. */
  function SaveSnapshot(th: Throttle, ps: seq<Position>, now: real, commits: bool): (r: Saved)
    ensures r.throttle.interval == th.interval
    ensures now - th.lastSnapshot < th.interval ==> r == Saved(th, [])
    ensures r.throttle.lastSnapshot == th.lastSnapshot || (r.throttle.lastSnapshot == now && commits)
    ensures |r.committed| > 0 ==> r.throttle.lastSnapshot == now
    ensures r.committed == [] || (|r.committed| == |ps| && forall i :: 0 <= i < |ps| ==> r.committed[i] == RowOf(ps[i]))
  {
    if now - th.lastSnapshot < th.interval then Saved(th, [])
    else if !commits then Saved(th, [])
    else Saved(th.(lastSnapshot := now), seq(|ps|, i requires 0 <= i < |ps| => RowOf(ps[i])))
  }

  /** After a committed snapshot at `now`, any call less than the interval later is skipped. */
  lemma NoSnapshotWithinInterval(th: Throttle, ps: seq<Position>, now: real, commits: bool,
                                 qs: seq<Position>, later: real, commitsLater: bool)
    requires now - th.lastSnapshot >= th.interval && commits
    requires later - now < th.interval
    ensures SaveSnapshot(SaveSnapshot(th, ps, now, commits).throttle, qs, later, commitsLater)
              == Saved(SaveSnapshot(th, ps, now, commits).throttle, [])
  {
  }

  /** A failed write leaves the throttle open: the next due call tries again. */
  lemma FailedSnapshotRetries(th: Throttle, ps: seq<Position>, now: real, qs: seq<Position>, later: real)
    requires now - th.lastSnapshot >= th.interval && later >= now
    ensures SaveSnapshot(th, ps, now, false).throttle == th
    ensures |qs| > 0 ==> |SaveSnapshot(SaveSnapshot(th, ps, now, false).throttle, qs, later, true).committed| == |qs|
  {
  }
}

=== FILE: num.dfy ===
/** Scalar helpers for Python's `max`, `min`, `abs` and `int` on floats. */
module Num {

  function Max(a: real, b: real): (r: real)
    ensures r >= a && r >= b && (r == a || r == b)
  {
    if a >= b then a else b
  }

  function Min(a: real, b: real): (r: real)
    ensures r <= a && r <= b && (r == a || r == b)
  {
    if a <= b then a else b
  }

  function Abs(x: real): (r: real)
    ensures r >= 0.0 && (r == x || r == -x)
  {
    if x >= 0.0 then x else -x
  }

  /** The volatility band `[0.01, 3.0]` used by both the IV model and the IV solver. */
  const VolFloor: real := 0.01
  const VolCap: real := 3.0

  /** `max(0.01, min(3.0, x))`. */
  function ClampVol(x: real): (r: real)
    ensures VolFloor <= r <= VolCap
    ensures VolFloor <= x <= VolCap ==> r == x
    ensures x < VolFloor ==> r == VolFloor
    ensures x > VolCap ==> r == VolCap
  {
    Max(VolFloor, Min(VolCap, x))
  }

  lemma ClampVolMonotone(x: real, y: real)
    requires x <= y
    ensures ClampVol(x) <= ClampVol(y)
  {
  }

  /** Python's `int(x)` on a float: truncation toward zero. */
  function Trunc(x: real): (n: int)
    ensures x >= 0.0 ==> n as real <= x < n as real + 1.0
    ensures x < 0.0 ==> n as real - 1.0 < x <= n as real
  {
    if x >= 0.0 then x.Floor else -((-x).Floor)
  }
}

=== FILE: percentile.dfy ===
/** The order-statistic pick behind both Value-at-Risk computations: sort the P&L list
    ascending and read it at `int(fraction * n)`. */
module Percentile {
  import opened Wrappers
  import opened Num
  import opened Seqs

  /** `s[i]` with Python's negative indexing; an index below `-len(s)` raises IndexError. */
  function PyIndex<T>(s: seq<T>, i: int): (r: Result<T>)
    ensures r.Ok? <==> -|s| <= i < |s|
    ensures 0 <= i < |s| ==> r == Ok(s[i])
    ensures -|s| <= i < 0 ==> r == Ok(s[|s| + i])
  {
    if 0 <= i < |s| then Ok(s[i])
    else if -|s| <= i < 0 then Ok(s[|s| + i])
    else Err(IndexOutOfRange)
  }

  /** The index `int(fraction * n)`. */
  function PickIndex(n: nat, fraction: real): int
  {
    Trunc(fraction * n as real)
  }

  /** `sorted(xs)[index] if index < len(xs) else sorted(xs)[0]`, with the index above. */
  function Pick(xs: seq<real>, fraction: real): (r: Result<real>)
    requires |xs| > 0
    ensures r.Err? <==> PickIndex(|xs|, fraction) < -|xs|
    ensures r.Ok? ==> r.value in xs
  {
    var sorted := SortBy(xs, Id);
    var i := PickIndex(|xs|, fraction);
    if i < |xs| then
      var r := PyIndex(sorted, i);
      assert r.Ok? ==> r.value in multiset(sorted);
      r
    else
      assert sorted[0] in multiset(sorted);
      Ok(sorted[0])
  }

  lemma ScaleBelow(f: real, n: nat)
    requires 0.0 <= f < 1.0 && n > 0
    ensures 0.0 <= f * n as real < n as real
  {
  }

  lemma ScaleOrdered(f1: real, f2: real, n: nat)
    requires f1 <= f2
    ensures f1 * n as real <= f2 * n as real
  {
  }

  /** For a fraction in [0, 1) the index is in range, so no fallback and no error. */
  lemma PickInRange(xs: seq<real>, fraction: real)
    requires |xs| > 0 && 0.0 <= fraction < 1.0
    ensures 0 <= PickIndex(|xs|, fraction) < |xs|
    ensures Pick(xs, fraction) == Ok(SortBy(xs, Id)[PickIndex(|xs|, fraction)])
  {
    ScaleBelow(fraction, |xs|);
  }

  lemma PickIndexMonotone(n: nat, f1: real, f2: real)
    requires 0.0 <= f1 <= f2
    ensures PickIndex(n, f1) <= PickIndex(n, f2)
  {
    ScaleOrdered(f1, f2, n);
    assert 0.0 <= f1 * n as real;
  }

  /** A larger fraction never picks a smaller value. */
  lemma PickMonotone(xs: seq<real>, f1: real, f2: real)
    requires |xs| > 0 && 0.0 <= f1 <= f2 < 1.0
    ensures Pick(xs, f1).Ok? && Pick(xs, f2).Ok?
    ensures Pick(xs, f1).value <= Pick(xs, f2).value
  {
    PickInRange(xs, f1);
    PickInRange(xs, f2);
    PickIndexMonotone(|xs|, f1, f2);
    SortedAt(SortBy(xs, Id), PickIndex(|xs|, f1), PickIndex(|xs|, f2));
  }

  lemma SortedAt(s: seq<real>, i: int, j: int)
    requires SortedBy(s, Id) && 0 <= i <= j < |s|
    ensures s[i] <= s[j]
  {
    if i < j {
      assert Id(s[i]) <= Id(s[j]);
    }
  }

  function Below(v: real): real -> bool { (x: real) => x < v }
  function AtMost(v: real): real -> bool { (x: real) => x <= v }

  /** In an ascending list, at most `i` entries lie strictly below the entry at `i`, and at
      least `i + 1` lie at or below it. */
  lemma SortedRank(s: seq<real>, i: int)
    requires SortedBy(s, Id) && 0 <= i < |s|
    ensures Count(s, Below(s[i])) <= i < Count(s, AtMost(s[i]))
  {
    var v := s[i];
    var pre, post := s[..i], s[i..];
    assert s == pre + post;
    CountAppend(pre, post, Below(v));
    forall j | 0 <= j < |post|
      ensures !Below(v)(post[j])
    {
      SortedAt(s, i, i + j);
    }
    CountNone(post, Below(v));
    var upto, after := s[..i + 1], s[i + 1..];
    assert s == upto + after;
    CountAppend(upto, after, AtMost(v));
    forall j | 0 <= j < |upto|
      ensures AtMost(v)(upto[j])
    {
      SortedAt(s, j, i);
    }
    CountAll(upto, AtMost(v));
  }

  /** The picked value is the order statistic of rank `int(fraction * n)`: at most that many
      entries lie strictly below it and more than that many lie at or below it. */
  lemma PickIsOrderStatistic(xs: seq<real>, fraction: real)
    requires |xs| > 0 && 0.0 <= fraction < 1.0
    ensures Pick(xs, fraction).Ok?
    ensures var v, i := Pick(xs, fraction).value, PickIndex(|xs|, fraction);
            Count(xs, Below(v)) <= i < Count(xs, AtMost(v))
  {
    PickInRange(xs, fraction);
    var sorted := SortBy(xs, Id);
    var i := PickIndex(|xs|, fraction);
    SortedRank(sorted, i);
    CountPermutation(xs, sorted, Below(sorted[i]));
    CountPermutation(xs, sorted, AtMost(sorted[i]));
  }

  /** When the index is 0 the pick is the smallest entry. */
  lemma PickZeroIsMinimum(xs: seq<real>, fraction: real)
    requires |xs| > 0 && PickIndex(|xs|, fraction) == 0
    ensures Pick(xs, fraction).Ok?
    ensures forall x :: x in xs ==> Pick(xs, fraction).value <= x
  {
    var sorted := SortBy(xs, Id);
    forall x | x in xs
      ensures sorted[0] <= x
    {
      assert x in multiset(sorted);
      var j :| 0 <= j < |sorted| && sorted[j] == x;
      SortedAt(sorted, 0, j);
    }
  }
}

=== FILE: position_tracker.dfy ===
/** The position tracker's keyed store: positions loaded in broker order under their
    contract key, and the list views over it. */
module PositionTracker {
  import opened Wrappers
  import opened Seqs
  import opened Dicts
  import opened Positions
  import opened Aggregation

  /** `self.positions`: contract key to position, in insertion order. */
  type Tracker = Dict<PositionKey, Position>

  /** The keys of the positions that were created, in item order. A `None` item is one whose
      creation returned nothing or raised; it is skipped. */
  function CreatedKeys(items: seq<Option<Position>>): (ks: seq<PositionKey>)
    ensures forall k :: k in ks <==> exists i :: 0 <= i < |items| && items[i].Some? && Key(items[i].value) == k
    decreases |items|
  {
    if |items| == 0 then []
    else
      var init := items[..|items| - 1];
      assert forall i :: 0 <= i < |init| ==> init[i] == items[i];
      match items[|items| - 1]
      case Some(p) => CreatedKeys(init) + [Key(p)]
      case None => CreatedKeys(init)
  }

  /** The loading loop: each created position is stored under its key, `d[key] = p`. */
  function Load(items: seq<Option<Position>>): (t: Tracker)
    ensures DistinctKeys(t)
    decreases |items|
  {
    if |items| == 0 then []
    else
      var t0 := Load(items[..|items| - 1]);
      match items[|items| - 1]
      case Some(p) => Put(t0, Key(p), p)
      case None => t0
  }

  /** Reference for what a key ends up holding: the last created position with that key. */
  function LastWithKey(items: seq<Option<Position>>, k: PositionKey): (r: Option<Position>)
    ensures r.Some? ==> Key(r.value) == k && r.value in Created(items)
    decreases |items|
  {
    if |items| == 0 then None
    else
      var init := items[..|items| - 1];
      match items[|items| - 1]
      case Some(p) => if Key(p) == k then Some(p) else LastWithKey(init, k)
      case None => LastWithKey(init, k)
  }

  function Created(items: seq<Option<Position>>): seq<Position>
    decreases |items|
  {
    if |items| == 0 then []
    else
      var init := items[..|items| - 1];
      match items[|items| - 1]
      case Some(p) => Created(init) + [p]
      case None => Created(init)
  }

  /** A later item with the same key replaces an earlier one, and the keys keep the order in
      which each first appeared. */
  lemma {:induction false} LoadLastWins(items: seq<Option<Position>>, k: PositionKey)
    ensures Get(Load(items), k) == LastWithKey(items, k)
    ensures Keys(Load(items)) == Dedup(CreatedKeys(items))
    decreases |items|
  {
    if |items| > 0 {
      var init := items[..|items| - 1];
      LoadLastWins(init, k);
      var t0 := Load(init);
      match items[|items| - 1]
      case Some(p) =>
        GetPut(t0, Key(p), p, k);
        PutKeys(t0, Key(p), p);
        assert CreatedKeys(items) == CreatedKeys(init) + [Key(p)];
        assert CreatedKeys(items)[..|CreatedKeys(items)| - 1] == CreatedKeys(init);
      case None =>
    }
  }

  /** `get_position`. */
  function GetPosition(t: Tracker, k: PositionKey): (r: Option<Position>)
    ensures r.Some? <==> k in Keys(t)
  {
    Get(t, k)
  }

  /** `get_all_positions`. */
  function AllPositions(t: Tracker): seq<Position>
  {
    Values(t)
  }

  /** `get_stock_positions` and `get_option_positions`: the two filters split the stored
      positions between them, each keeping store order. */
  function StockPositions(t: Tracker): (r: seq<Position>)
    ensures forall p :: p in r <==> p in AllPositions(t) && !p.isOption
  {
    Filter(Values(t), IsStock)
  }

  function OptionPositions(t: Tracker): (r: seq<Position>)
    ensures forall p :: p in r <==> p in AllPositions(t) && p.isOption
  {
    Filter(Values(t), IsOptionPosition)
  }

  lemma StockAndOptionPartition(t: Tracker)
    ensures multiset(StockPositions(t)) + multiset(OptionPositions(t)) == multiset(AllPositions(t))
    ensures |StockPositions(t)| + |OptionPositions(t)| == |t|
    ensures forall p :: p in StockPositions(t) ==> !p.isOption
    ensures forall p :: p in OptionPositions(t) ==> p.isOption
  {
    FilterPartition(Values(t), IsStock, IsOptionPosition);
    assert |multiset(Values(t))| == |t|;
  }

  /** Options on `u` and the stock `u` itself. */
  function OnUnderlying(u: string): Position -> bool
  {
    (p: Position) => (p.isOption && p.underlying == Some(u)) || (!p.isOption && p.symbol == u)
  }

  /** `get_positions_by_underlying`. */
  function PositionsByUnderlying(t: Tracker, u: string): (r: seq<Position>)
    ensures forall p :: p in r <==> p in Values(t) && ((p.isOption && p.underlying == Some(u)) || (!p.isOption && p.symbol == u))
  {
    Filter(Values(t), OnUnderlying(u))
  }

  /** `get_total_portfolio_value`: the stored values summed; it is the total of the current
      portfolio metrics, and splits into the stock and option totals. */
  function TotalPortfolioValue(t: Tracker): (v: real)
    ensures v == CurrentMetrics(Values(t)).totalValue
    ensures v == Sum(StockPositions(t), ValueOf) + Sum(OptionPositions(t), ValueOf)
  {
    Sum(Values(t), ValueOf)
  }
}

=== FILE: positions.dfy ===
/** The portfolio position record: a stock or an option with its last-known Greeks. */
module Positions {
  import opened Wrappers
  import opened Dates

  /** One stock or option holding. `positionValue` is stored, as in the original, and is
      kept equal to `ExpectedValue` by every operation below (see `ValueConsistent`). */
  datatype Position = Position(
    symbol: string,
    quantity: real,
    entryPrice: real,
    currentPrice: real,
    lastUpdate: Moment,
    isOption: bool,
    underlying: Option<string>,
    strike: Option<real>,
    expiration: Option<Moment>,
    optionType: Option<string>,  // "C" for a call, "P" for a put
    multiplier: int,             // contract multiplier, 100 by default
    delta: Option<real>,
    gamma: Option<real>,
    theta: Option<real>,
    vega: Option<real>,
    rho: Option<real>,
    impliedVolatility: Option<real>,
    positionValue: real)

  const DefaultMultiplier: int := 100

  /** Units of the underlying per unit of quantity: the multiplier for options, 1 for stock. */
  function Factor(p: Position): real
  {
    if p.isOption then p.multiplier as real else 1.0
  }

  /** What `positionValue` should be: price times quantity, times the multiplier for options. */
  function ExpectedValue(p: Position): real
  {
    p.currentPrice * p.quantity * Factor(p)
  }

  predicate ValueConsistent(p: Position)
  {
    p.positionValue == ExpectedValue(p)
  }

  /** `update_position_value`, also what `__post_init__` runs on construction. */
  function UpdatePositionValue(p: Position): (r: Position)
    ensures ValueConsistent(r)
    ensures r.(positionValue := p.positionValue) == p
  {
    p.(positionValue := ExpectedValue(p))
  }

  /** A freshly constructed position: every field as given (the Greeks and the IV default
      to `None` when not supplied), and the value computed by `__post_init__` whatever
      value was passed in. */
  function Create(symbol: string, quantity: real, entryPrice: real, currentPrice: real,
                  lastUpdate: Moment, isOption: bool, underlying: Option<string>,
                  strike: Option<real>, expiration: Option<Moment>,
                  optionType: Option<string>, multiplier: int,
                  delta: Option<real>, gamma: Option<real>, theta: Option<real>, vega: Option<real>,
                  rho: Option<real>, impliedVolatility: Option<real>, positionValue: real): (r: Position)
    ensures ValueConsistent(r)
    ensures r.(positionValue := positionValue) ==
              Position(symbol, quantity, entryPrice, currentPrice, lastUpdate, isOption, underlying, strike,
                       expiration, optionType, multiplier, delta, gamma, theta, vega, rho, impliedVolatility,
                       positionValue)
    ensures r.positionValue == currentPrice * quantity * (if isOption then multiplier as real else 1.0)
  {
    UpdatePositionValue(Position(symbol, quantity, entryPrice, currentPrice, lastUpdate, isOption,
                                 underlying, strike, expiration, optionType, multiplier,
                                 delta, gamma, theta, vega, rho, impliedVolatility, positionValue))
  }

  /** `update_price`: new price, new timestamp, value recomputed; nothing else changes. */
  function UpdatePrice(p: Position, price: real, now: Moment): (r: Position)
    ensures r.currentPrice == price && r.lastUpdate == now
    ensures ValueConsistent(r)
    ensures r.(currentPrice := p.currentPrice, lastUpdate := p.lastUpdate,
               positionValue := p.positionValue) == p
  {
    UpdatePositionValue(p.(currentPrice := price, lastUpdate := now))
  }

  /** `update_greeks`: each Greek (and the IV) is overwritten only when its argument is given. */
  function UpdateGreeks(p: Position, delta: Option<real>, gamma: Option<real>,
                        theta: Option<real>, vega: Option<real>, rho: Option<real>,
                        iv: Option<real>, now: Moment): (r: Position)
    ensures r.delta == (if delta.Some? then delta else p.delta)
    ensures r.gamma == (if gamma.Some? then gamma else p.gamma)
    ensures r.theta == (if theta.Some? then theta else p.theta)
    ensures r.vega == (if vega.Some? then vega else p.vega)
    ensures r.rho == (if rho.Some? then rho else p.rho)
    ensures r.impliedVolatility == (if iv.Some? then iv else p.impliedVolatility)
    ensures r.lastUpdate == now
    ensures r.(delta := p.delta, gamma := p.gamma, theta := p.theta, vega := p.vega,
               rho := p.rho, impliedVolatility := p.impliedVolatility,
               lastUpdate := p.lastUpdate) == p
  {
    p.(delta := if delta.Some? then delta else p.delta,
       gamma := if gamma.Some? then gamma else p.gamma,
       theta := if theta.Some? then theta else p.theta,
       vega := if vega.Some? then vega else p.vega,
       rho := if rho.Some? then rho else p.rho,
       impliedVolatility := if iv.Some? then iv else p.impliedVolatility,
       lastUpdate := now)
  }

  /** Neither update can break the stored value. */
  lemma UpdatesKeepValueConsistent(p: Position, price: real, now: Moment,
                                   d: Option<real>, g: Option<real>, t: Option<real>,
                                   v: Option<real>, r: Option<real>, iv: Option<real>)
    requires ValueConsistent(p)
    ensures ValueConsistent(UpdateGreeks(p, d, g, t, v, r, iv, now))
    ensures ValueConsistent(UpdatePrice(UpdateGreeks(p, d, g, t, v, r, iv, now), price, now))
  {
  }

  /** Repeating a Greek update changes nothing more. */
  lemma UpdateGreeksIdempotent(p: Position, d: Option<real>, g: Option<real>, t: Option<real>,
                               v: Option<real>, r: Option<real>, iv: Option<real>, now: Moment)
    ensures var once := UpdateGreeks(p, d, g, t, v, r, iv, now);
            UpdateGreeks(once, d, g, t, v, r, iv, now) == once
  {
  }

  /** `days_to_expiration`: whole days from `now` to the expiry, for options that have one. */
  function DaysToExpiration(p: Position, now: Moment): (r: Option<int>)
    ensures r.Some? <==> p.isOption && p.expiration.Some?
    ensures r.Some? ==> r.value * 86400 <= Timestamp(p.expiration.value) - Timestamp(now)
                                         < (r.value + 1) * 86400
  {
    if p.isOption && p.expiration.Some? then Some(DaysBetween(p.expiration.value, now)) else None
  }

  /** `get_pnl`: unrealised P&L, scaled by the multiplier for options. */
  function GetPnl(p: Position): (r: real)
    ensures ValueConsistent(p) ==> r == p.positionValue - p.entryPrice * p.quantity * Factor(p)
    ensures p.currentPrice == p.entryPrice ==> r == 0.0
  {
    (p.currentPrice - p.entryPrice) * p.quantity * Factor(p)
  }

  /** `get_pnl_percent`: per-unit return in percent; 0 when the entry price is 0. */
  function GetPnlPercent(p: Position): (r: real)
    ensures p.entryPrice == 0.0 ==> r == 0.0
    ensures p.entryPrice != 0.0 ==> r * p.entryPrice == (p.currentPrice - p.entryPrice) * 100.0
  {
    if p.entryPrice == 0.0 then 0.0 else (p.currentPrice - p.entryPrice) / p.entryPrice * 100.0
  }

  /** The percentage return does not depend on the size of the holding. */
  lemma PnlPercentIgnoresQuantity(p: Position, q: real)
    ensures GetPnlPercent(p.(quantity := q)) == GetPnlPercent(p)
  {
  }

  predicate IsCall(p: Position)
  {
    p.optionType == Some("C")
  }

  /** `not self.is_option or not self.strike`: no strike, or a zero strike, means no answer. */
  predicate HasUsableStrike(p: Position)
  {
    p.isOption && p.strike.Some? && p.strike.value != 0.0
  }

  /** `moneyness`: spot/strike for calls and strike/spot otherwise; the spot defaults to the
      position's own price. A zero spot for a non-call raises `ZeroDivisionError`. */
  function Moneyness(p: Position, spot: Option<real>): (r: Result<Option<real>>)
    ensures !HasUsableStrike(p) ==> r == Ok(None)
    ensures r.Err? <==> HasUsableStrike(p) && !IsCall(p) && spot.GetOr(p.currentPrice) == 0.0
    ensures r.Ok? && r.value.Some? ==>
              HasUsableStrike(p) &&
              (if IsCall(p) then r.value.value * p.strike.value == spot.GetOr(p.currentPrice)
               else r.value.value * spot.GetOr(p.currentPrice) == p.strike.value)
  {
    if !HasUsableStrike(p) then Ok(None)
    else
      var s := spot.GetOr(p.currentPrice);
      var k := p.strike.value;
      if IsCall(p) then Ok(Some(s / k))
      else if s == 0.0 then Err(ZeroDivision)
      else Ok(Some(k / s))
  }

  /** `is_itm`: a call is in the money above the strike, anything else below it. */
  function IsItm(p: Position, spot: Option<real>): (r: Option<bool>)
    ensures r.Some? <==> HasUsableStrike(p)
    ensures r.Some? && spot.GetOr(p.currentPrice) == p.strike.value ==> r == Some(false)
  {
    if !HasUsableStrike(p) then None
    else
      var s := spot.GetOr(p.currentPrice);
      if IsCall(p) then Some(s > p.strike.value) else Some(s < p.strike.value)
  }

  /** For positive prices, in the money means moneyness above 1 on both sides. */
  lemma ItmIffMoneynessAboveOne(p: Position, spot: Option<real>)
    requires HasUsableStrike(p) && p.strike.value > 0.0 && spot.GetOr(p.currentPrice) > 0.0
    ensures Moneyness(p, spot).Ok? && Moneyness(p, spot).value.Some?
    ensures IsItm(p, spot) == Some(Moneyness(p, spot).value.value > 1.0)
  {
    var s := spot.GetOr(p.currentPrice);
    var k := p.strike.value;
    if IsCall(p) {
      RatioAboveOne(s, k);
    } else {
      RatioAboveOne(k, s);
    }
  }

  lemma RatioAboveOne(a: real, b: real)
    requires b > 0.0
    ensures a / b > 1.0 <==> a > b
  {
    var q := a / b;
    assert q * b == a;
    if q > 1.0 {
      assert (q - 1.0) * b > 0.0;
    } else {
      assert (1.0 - q) * b >= 0.0;
    }
  }

  /** The identity under which a position is stored and looked up. The original renders it
      as the text `underlying_type_strike_YYYYMMDD` (or `..._NOEXP`) for options and the
      bare symbol for stock; the model keeps the same components without the rendering. */
  datatype PositionKey =
    | StockKey(symbol: string)
    | OptionKey(underlying: Option<string>, optionType: Option<string>,
                strike: Option<real>, expiry: Option<Date>)

  /** `_get_position_key`: expiry by calendar date only, `None` standing for 'NOEXP'. */
  function Key(p: Position): (k: PositionKey)
    ensures k.StockKey? <==> !p.isOption
  {
    if p.isOption then
      OptionKey(p.underlying, p.optionType, p.strike,
                if p.expiration.Some? then Some(p.expiration.value.date) else None)
    else StockKey(p.symbol)
  }

  /** Two positions share a key exactly when they are the same contract: same symbol for
      stock; same underlying, type, strike and expiry date for options. */
  predicate SameContract(p: Position, q: Position)
  {
    p.isOption == q.isOption &&
    if p.isOption then
      && p.underlying == q.underlying && p.optionType == q.optionType && p.strike == q.strike
      && p.expiration.Some? == q.expiration.Some?
      && (p.expiration.Some? ==> p.expiration.value.date == q.expiration.value.date)
    else p.symbol == q.symbol
  }

  lemma KeyIdentifiesContract(p: Position, q: Position)
    ensures Key(p) == Key(q) <==> SameContract(p, q)
  {
  }
}

=== FILE: risk_alerts.dfy ===
/** Rule-based risk alerts: scenario losses, concentration, short-dated options, IV
    extremes, Greek exposure and stale data, collected afresh by each full check. */
module RiskAlerts {
  import opened Wrappers
  import opened Num
  import opened Seqs
  import opened Dicts
  import opened Dates
  import opened Positions
  import opened Aggregation
  import opened RiskMetrics

  datatype Severity = Low | Medium | High | Critical

  datatype AlertKind = ScenarioLoss | ConcentrationRisk | EarningsRisk | HighIv | LowIv
                     | VegaExposure | GammaExposure | ShortGamma | StaleData

  /** An alert: its type, severity, the scenario or symbol it is about ("" for portfolio-wide
      alerts) and the figure that triggered it. Messages and detail dictionaries are text
      built from these. */
  datatype Alert = Alert(kind: AlertKind, severity: Severity, subject: string, measure: real)

  /** The `risk_limits` and `data` settings the rules read. */
  datatype Limits = Limits(maxPortfolioLoss: real, positionConcentration: real, vegaLimit: real,
                           gammaLimit: real, maxDataAge: int)

  /** The defaults used when a setting is absent. */
  const DefaultLimits := Limits(0.15, 0.25, 10000.0, 5000.0, 60)

  const Escalation := 1.5
  const EarningsWindowDays := 7
  const SignificantValue := 1000.0
  const HighIvLevel := 0.80
  const LowIvLevel := 0.15
  const ShortGammaLevel := -1000.0

  /** The present results of a per-item rule, in input order. */
  function Collect<T, A>(s: seq<T>, f: T -> Option<A>): (r: seq<A>)
    ensures |r| <= |s|
  {
    if |s| == 0 then []
    else if f(s[0]).Some? then [f(s[0]).value] + Collect(s[1..], f)
    else Collect(s[1..], f)
  }

  /** One result per item whose rule fires. */
  lemma {:induction false} CollectCount<T, A>(s: seq<T>, f: T -> Option<A>, fires: T -> bool)
    requires forall x :: fires(x) == f(x).Some?
    ensures |Collect(s, f)| == Count(s, fires)
  {
    if |s| > 0 {
      CollectCount(s[1..], f, fires);
    }
  }

  /** A property every possible result has holds of every collected result. */
  lemma {:induction false} CollectKeeps<T, A>(s: seq<T>, f: T -> Option<A>, p: A -> bool)
    requires forall x :: f(x).Some? ==> p(f(x).value)
    ensures forall i :: 0 <= i < |Collect(s, f)| ==> p(Collect(s, f)[i])
  {
    if |s| > 0 {
      CollectKeeps(s[1..], f, p);
    }
  }

  // ---------------------------------------------------------------- the rules

  /** `_check_scenario_losses` for one scenario: the P&L percentage as a fraction below the
      negated threshold, HIGH beyond one and a half times the threshold. */
  function LossAlert(limits: Limits, entry: (string, ScenarioResult)): (r: Option<Alert>)
    ensures r.Some? <==> entry.1.pnlPercent / 100.0 < -limits.maxPortfolioLoss
    ensures r.Some? ==> r.value.kind == ScenarioLoss && r.value.subject == entry.0
    ensures r.Some? ==> r.value.severity in {High, Medium}
    ensures r.Some? ==> (r.value.severity == High <==> entry.1.pnlPercent / 100.0 < -limits.maxPortfolioLoss * Escalation)
    ensures r.Some? ==> r.value.measure == entry.1.pnlPercent / 100.0
  {
    var loss := entry.1.pnlPercent / 100.0;
    if loss < -limits.maxPortfolioLoss then
      Some(Alert(ScenarioLoss, if loss < -limits.maxPortfolioLoss * Escalation then High else Medium, entry.0, loss))
    else None
  }

  /** A deeper loss never gets a milder alert, for a non-negative threshold. */
  lemma LossAlertMonotone(limits: Limits, a: (string, ScenarioResult), b: (string, ScenarioResult))
    requires limits.maxPortfolioLoss >= 0.0 && a.1.pnlPercent <= b.1.pnlPercent
    ensures LossAlert(limits, b).Some? ==> LossAlert(limits, a).Some?
    ensures LossAlert(limits, b).Some? && LossAlert(limits, b).value.severity == High ==>
              LossAlert(limits, a).value.severity == High
  {
    assert a.1.pnlPercent / 100.0 <= b.1.pnlPercent / 100.0;
  }

  /** `_check_position_concentration` for one position: only with a positive total, when the
      position's share exceeds the threshold; HIGH beyond one and a half times it. */
  function ConcentrationAlert(limits: Limits, totalValue: real, p: Position): (r: Option<Alert>)
    ensures r.Some? <==> totalValue > 0.0 && p.positionValue / totalValue > limits.positionConcentration
    ensures r.Some? ==> r.value.kind == ConcentrationRisk && r.value.subject == p.symbol
    ensures r.Some? ==> r.value.measure == p.positionValue / totalValue
    ensures r.Some? ==> r.value.severity in {High, Medium}
    ensures r.Some? ==> (r.value.severity == High <==> r.value.measure > limits.positionConcentration * Escalation)
  {
    if totalValue > 0.0 && p.positionValue / totalValue > limits.positionConcentration then
      var share := p.positionValue / totalValue;
      Some(Alert(ConcentrationRisk, if share > limits.positionConcentration * Escalation then High else Medium,
                 p.symbol, share))
    else None
  }

  /** The concentration rule and `identify_risk_concentrations` agree: at the same threshold
      and a positive total, a position raises an alert iff it is reported concentrated. */
  lemma ConcentrationRulesAgree(limits: Limits, totalValue: real, p: Position)
    requires totalValue > 0.0
    ensures ConcentrationAlert(limits, totalValue, p).Some? <==> Exceeds(totalValue, limits.positionConcentration)(p)
  {
  }

  /** `_check_earnings_exposure` for one position: an option whose days to expiry are known,
      non-zero (a zero is falsy) and below 7, worth more than 1000 in absolute value. */
  function EarningsAlert(p: Position, now: Moment): (r: Option<Alert>)
    ensures r.Some? <==> p.isOption && DaysToExpiration(p, now).Some?
                         && DaysToExpiration(p, now).value != 0
                         && DaysToExpiration(p, now).value < EarningsWindowDays
                         && Abs(p.positionValue) > SignificantValue
    ensures r.Some? ==> r.value == Alert(EarningsRisk, Medium, p.symbol, DaysToExpiration(p, now).value as real)
  {
    var dte := DaysToExpiration(p, now);
    if p.isOption && dte.Some? && dte.value != 0 && dte.value < EarningsWindowDays
       && Abs(p.positionValue) > SignificantValue
    then Some(Alert(EarningsRisk, Medium, p.symbol, dte.value as real))
    else None
  }

  /** An option expiring today is never flagged, whatever its size. */
  lemma ExpiringTodayNotFlagged(p: Position, now: Moment)
    requires DaysToExpiration(p, now) == Some(0)
    ensures EarningsAlert(p, now).None?
  {
  }

  /** `_check_iv_extremes` for one position: an option with a known non-zero IV is HIGH_IV
      above 0.80 and otherwise LOW_IV below 0.15, both LOW severity. */
  function IvAlert(p: Position): (r: Option<Alert>)
    ensures r.Some? ==> p.isOption && p.impliedVolatility.Some? && r.value.severity == Low
    ensures r.Some? && r.value.kind == HighIv <==>
              p.isOption && p.impliedVolatility.Some? && p.impliedVolatility.value > HighIvLevel
    ensures r.Some? && r.value.kind == LowIv <==>
              p.isOption && p.impliedVolatility.Some? && p.impliedVolatility.value != 0.0
              && p.impliedVolatility.value < LowIvLevel
    ensures r.Some? ==> r.value.kind in {HighIv, LowIv} && r.value.subject == p.symbol
    ensures r.Some? ==> r.value.measure == p.impliedVolatility.value
  {
    if p.isOption && p.impliedVolatility.Some? && p.impliedVolatility.value != 0.0 then
      var iv := p.impliedVolatility.value;
      if iv > HighIvLevel then Some(Alert(HighIv, Low, p.symbol, iv))
      else if iv < LowIvLevel then Some(Alert(LowIv, Low, p.symbol, iv))
      else None
    else None
  }

  /** A negative IV is reported as low, since the rule only excludes a zero IV. */
  lemma NegativeIvIsLow(p: Position)
    requires p.isOption && p.impliedVolatility == Some(-0.2)
    ensures IvAlert(p) == Some(Alert(LowIv, Low, p.symbol, -0.2))
  {
  }

  /** Whether an alert of the kind is in the list. */
  predicate HasKind(alerts: seq<Alert>, k: AlertKind)
  {
    exists i :: 0 <= i < |alerts| && alerts[i].kind == k
  }

  function IfFires(fires: bool, a: Alert): (r: seq<Alert>)
    ensures fires ==> r == [a]
    ensures !fires ==> r == []
  {
    if fires then [a] else []
  }

  /** `_check_greeks_exposure`: absolute vega and gamma against their limits, and a gamma
      below -1000 as HIGH. */
  function GreekAlerts(limits: Limits, m: PortfolioMetrics): (r: seq<Alert>)
    ensures HasKind(r, VegaExposure) <==> Abs(m.vega) > limits.vegaLimit
    ensures HasKind(r, GammaExposure) <==> Abs(m.gamma) > limits.gammaLimit
    ensures HasKind(r, ShortGamma) <==> m.gamma < ShortGammaLevel
    ensures forall i :: 0 <= i < |r| ==> r[i].kind in {VegaExposure, GammaExposure, ShortGamma}
    ensures forall i :: 0 <= i < |r| ==> (r[i].severity == High <==> r[i].kind == ShortGamma)
    ensures forall i :: 0 <= i < |r| ==> r[i].severity in {Medium, High}
    ensures forall i :: 0 <= i < |r| ==> r[i].kind == VegaExposure ==> r[i].measure == Abs(m.vega)
    ensures forall i :: 0 <= i < |r| ==> r[i].kind == GammaExposure ==> r[i].measure == Abs(m.gamma)
    ensures forall i :: 0 <= i < |r| ==> r[i].kind == ShortGamma ==> r[i].measure == m.gamma
  {
    var fa, a := Abs(m.vega) > limits.vegaLimit, Alert(VegaExposure, Medium, "", Abs(m.vega));
    var fb, b := Abs(m.gamma) > limits.gammaLimit, Alert(GammaExposure, Medium, "", Abs(m.gamma));
    var fc, c := m.gamma < ShortGammaLevel, Alert(ShortGamma, High, "", m.gamma);
    ThreeFires(fa, a, fb, b, fc, c);
    ThreeFiresKind(fa, a, fb, b, fc, c, VegaExposure);
    ThreeFiresKind(fa, a, fb, b, fc, c, GammaExposure);
    ThreeFiresKind(fa, a, fb, b, fc, c, ShortGamma);
    IfFires(fa, a) + IfFires(fb, b) + IfFires(fc, c)
  }

  /** A kind is present among three optional alerts iff one that fired has it. */
  lemma ThreeFiresKind(fa: bool, a: Alert, fb: bool, b: Alert, fc: bool, c: Alert, k: AlertKind)
    ensures HasKind(IfFires(fa, a) + IfFires(fb, b) + IfFires(fc, c), k) <==>
              (fa && a.kind == k) || (fb && b.kind == k) || (fc && c.kind == k)
  {
    var r := IfFires(fa, a) + IfFires(fb, b) + IfFires(fc, c);
    ThreeFires(fa, a, fb, b, fc, c);
    if fa && a.kind == k {
      assert r[0].kind == k;
    } else if fb && b.kind == k {
      assert r[|IfFires(fa, a)|].kind == k;
    } else if fc && c.kind == k {
      assert r[|r| - 1].kind == k;
    }
  }

  /** Three optional alerts in a row: each element is one that fired, and each that fired
      is present. */
  lemma ThreeFires(fa: bool, a: Alert, fb: bool, b: Alert, fc: bool, c: Alert)
    ensures var r := IfFires(fa, a) + IfFires(fb, b) + IfFires(fc, c);
            && (forall i :: 0 <= i < |r| ==> (fa && r[i] == a) || (fb && r[i] == b) || (fc && r[i] == c))
            && (fa ==> r[0] == a)
            && (fb ==> r[|IfFires(fa, a)|] == b)
            && (fc ==> r[|r| - 1] == c)
  {
  }

  /** A short gamma below -1000 also breaches a gamma limit below 1000. */
  lemma ShortGammaBreachesSmallLimit(limits: Limits, m: PortfolioMetrics)
    requires m.gamma < ShortGammaLevel && limits.gammaLimit <= 1000.0
    ensures HasKind(GreekAlerts(limits, m), GammaExposure) && HasKind(GreekAlerts(limits, m), ShortGamma)
  {
  }

  /** Whole seconds between the last update and `now`. */
  function AgeSeconds(p: Position, now: Moment): int
  {
    Timestamp(now) - Timestamp(p.lastUpdate)
  }

  /** `_check_stale_data` for one position: LOW when its data is older than the limit. */
  function StaleAlert(limits: Limits, now: Moment, p: Position): (r: Option<Alert>)
    ensures r.Some? <==> AgeSeconds(p, now) > limits.maxDataAge
    ensures r.Some? ==> r.value == Alert(StaleData, Low, p.symbol, AgeSeconds(p, now) as real)
  {
    var age := AgeSeconds(p, now);
    if age > limits.maxDataAge then Some(Alert(StaleData, Low, p.symbol, age as real)) else None
  }

  // ---------------------------------------------------------------- the system

  function LossRule(limits: Limits): ((string, ScenarioResult)) -> Option<Alert>
  {
    (e: (string, ScenarioResult)) => LossAlert(limits, e)
  }

  function ConcentrationRule(limits: Limits, totalValue: real): Position -> Option<Alert>
  {
    (p: Position) => ConcentrationAlert(limits, totalValue, p)
  }

  function EarningsRule(now: Moment): Position -> Option<Alert> { (p: Position) => EarningsAlert(p, now) }

  function IvRule(): Position -> Option<Alert> { (p: Position) => IvAlert(p) }

  function StaleRule(limits: Limits, now: Moment): Position -> Option<Alert>
  {
    (p: Position) => StaleAlert(limits, now, p)
  }

  /** `RiskAlertSystem`: its limits and the alerts of the last check. */
  datatype AlertSystem = AlertSystem(limits: Limits, alerts: seq<Alert>)

  predicate NotCritical(a: Alert) { a.severity != Critical }

  /** Alerts about one scenario or position rather than the whole portfolio's Greeks. */
  predicate PerItem(a: Alert) { a.kind !in {VegaExposure, GammaExposure, ShortGamma} }

  /** Between per-item alert lists, a portfolio-wide kind can only come from the middle. */
  lemma PortfolioKindsInMiddle(before: seq<Alert>, middle: seq<Alert>, after: seq<Alert>, k: AlertKind)
    requires forall i :: 0 <= i < |before| ==> PerItem(before[i])
    requires forall i :: 0 <= i < |after| ==> PerItem(after[i])
    requires k in {VegaExposure, GammaExposure, ShortGamma}
    ensures HasKind(before + middle + after, k) <==> HasKind(middle, k)
  {
    var all := before + middle + after;
    assert forall i :: 0 <= i < |before| ==> all[i] == before[i];
    assert forall i :: |before| + |middle| <= i < |all| ==> all[i] == after[i - |before| - |middle|];
    if HasKind(all, k) {
      var i :| 0 <= i < |all| && all[i].kind == k;
      assert |before| <= i < |before| + |middle|;
      assert middle[i - |before|] == all[i];
    }
    if HasKind(middle, k) {
      var j :| 0 <= j < |middle| && middle[j].kind == k;
      assert all[|before| + j] == middle[j];
    }
  }

  lemma AllOfConcat(a: seq<Alert>, b: seq<Alert>, p: Alert -> bool)
    requires forall i :: 0 <= i < |a| ==> p(a[i])
    requires forall i :: 0 <= i < |b| ==> p(b[i])
    ensures forall i :: 0 <= i < |a + b| ==> p((a + b)[i])
  {
  }

  /** The alerts one check produces, in the order the rules run: scenario losses,
      concentration, earnings, IV extremes, Greeks, stale data. No rule raises a CRITICAL
      alert. */
  function Checked(limits: Limits, ps: seq<Position>, results: Dict<string, ScenarioResult>,
                   m: PortfolioMetrics, now: Moment): (c: seq<Alert>)
    ensures forall i :: 0 <= i < |c| ==> NotCritical(c[i])
  {
    var losses := Collect(results, LossRule(limits));
    var concentrated := Collect(ps, ConcentrationRule(limits, m.totalValue));
    var earnings := Collect(ps, EarningsRule(now));
    var iv := Collect(ps, IvRule());
    var greeks := GreekAlerts(limits, m);
    var stale := Collect(ps, StaleRule(limits, now));
    RulesNotCritical(limits, ps, results, m, now);
    AllOfConcat(losses, concentrated, NotCritical);
    AllOfConcat(losses + concentrated, earnings, NotCritical);
    AllOfConcat(losses + concentrated + earnings, iv, NotCritical);
    AllOfConcat(losses + concentrated + earnings + iv, greeks, NotCritical);
    AllOfConcat(losses + concentrated + earnings + iv + greeks, stale, NotCritical);
    losses + concentrated + earnings + iv + greeks + stale
  }

  /** No per-item rule raises a CRITICAL alert. */
  lemma RulesNotCritical(limits: Limits, ps: seq<Position>, results: Dict<string, ScenarioResult>,
                         m: PortfolioMetrics, now: Moment)
    ensures forall i :: 0 <= i < |Collect(results, LossRule(limits))| ==>
              NotCritical(Collect(results, LossRule(limits))[i])
    ensures forall i :: 0 <= i < |Collect(ps, ConcentrationRule(limits, m.totalValue))| ==>
              NotCritical(Collect(ps, ConcentrationRule(limits, m.totalValue))[i])
    ensures forall i :: 0 <= i < |Collect(ps, EarningsRule(now))| ==> NotCritical(Collect(ps, EarningsRule(now))[i])
    ensures forall i :: 0 <= i < |Collect(ps, IvRule())| ==> NotCritical(Collect(ps, IvRule())[i])
    ensures forall i :: 0 <= i < |Collect(ps, StaleRule(limits, now))| ==>
              NotCritical(Collect(ps, StaleRule(limits, now))[i])
  {
    CollectKeeps(results, LossRule(limits), NotCritical);
    CollectKeeps(ps, ConcentrationRule(limits, m.totalValue), NotCritical);
    CollectKeeps(ps, EarningsRule(now), NotCritical);
    CollectKeeps(ps, IvRule(), NotCritical);
    CollectKeeps(ps, StaleRule(limits, now), NotCritical);
  }

  /** Every per-item rule raises per-item kinds only. */
  lemma RulesPerItem(limits: Limits, ps: seq<Position>, results: Dict<string, ScenarioResult>,
                     m: PortfolioMetrics, now: Moment)
    ensures forall i :: 0 <= i < |Collect(results, LossRule(limits))| ==>
              PerItem(Collect(results, LossRule(limits))[i])
    ensures forall i :: 0 <= i < |Collect(ps, ConcentrationRule(limits, m.totalValue))| ==>
              PerItem(Collect(ps, ConcentrationRule(limits, m.totalValue))[i])
    ensures forall i :: 0 <= i < |Collect(ps, EarningsRule(now))| ==> PerItem(Collect(ps, EarningsRule(now))[i])
    ensures forall i :: 0 <= i < |Collect(ps, IvRule())| ==> PerItem(Collect(ps, IvRule())[i])
    ensures forall i :: 0 <= i < |Collect(ps, StaleRule(limits, now))| ==>
              PerItem(Collect(ps, StaleRule(limits, now))[i])
  {
    CollectKeeps(results, LossRule(limits), PerItem);
    CollectKeeps(ps, ConcentrationRule(limits, m.totalValue), PerItem);
    CollectKeeps(ps, EarningsRule(now), PerItem);
    CollectKeeps(ps, IvRule(), PerItem);
    CollectKeeps(ps, StaleRule(limits, now), PerItem);
  }

  lemma CheckedShortGamma(limits: Limits, ps: seq<Position>, results: Dict<string, ScenarioResult>,
                          m: PortfolioMetrics, now: Moment)
    ensures HasKind(Checked(limits, ps, results, m, now), ShortGamma) <==> m.gamma < ShortGammaLevel
  {
    var losses := Collect(results, LossRule(limits));
    var concentrated := Collect(ps, ConcentrationRule(limits, m.totalValue));
    var earnings := Collect(ps, EarningsRule(now));
    var iv := Collect(ps, IvRule());
    var stale := Collect(ps, StaleRule(limits, now));
    RulesPerItem(limits, ps, results, m, now);
    AllOfConcat(losses, concentrated, PerItem);
    AllOfConcat(losses + concentrated, earnings, PerItem);
    AllOfConcat(losses + concentrated + earnings, iv, PerItem);
    PortfolioKindsInMiddle(losses + concentrated + earnings + iv, GreekAlerts(limits, m), stale, ShortGamma);
  }

  /** `check_all_risks`: the list is reset, then each rule appends its alerts in turn. */
  function CheckAllRisks(s: AlertSystem, ps: seq<Position>, results: Dict<string, ScenarioResult>,
                         m: PortfolioMetrics, now: Moment): (r: AlertSystem)
    ensures r.limits == s.limits
    ensures forall i :: 0 <= i < |r.alerts| ==> NotCritical(r.alerts[i])
    ensures HasKind(r.alerts, ShortGamma) <==> m.gamma < ShortGammaLevel
  {
    CheckedShortGamma(s.limits, ps, results, m, now);
    AlertSystem(s.limits, Checked(s.limits, ps, results, m, now))
  }

  /** The alerts of a check do not depend on what an earlier check left behind. */
  lemma CheckAllRisksResets(s: AlertSystem, earlier: seq<Alert>, ps: seq<Position>,
                            results: Dict<string, ScenarioResult>, m: PortfolioMetrics, now: Moment)
    ensures CheckAllRisks(s, ps, results, m, now) == CheckAllRisks(s.(alerts := earlier), ps, results, m, now)
  {
  }

  /** One scenario-loss alert per losing scenario. */
  lemma LossAlertCount(s: AlertSystem, results: Dict<string, ScenarioResult>)
    ensures |Collect(results, LossRule(s.limits))|
         == Count(results, (e: (string, ScenarioResult)) => e.1.pnlPercent / 100.0 < -s.limits.maxPortfolioLoss)
  {
    CollectCount(results, LossRule(s.limits),
                 (e: (string, ScenarioResult)) => e.1.pnlPercent / 100.0 < -s.limits.maxPortfolioLoss);
  }

  function HasSeverity(sev: Severity): Alert -> bool { (a: Alert) => a.severity == sev }

  /** `get_alerts_by_severity`: the alerts of that severity, in order. */
  function AlertsBySeverity(s: AlertSystem, sev: Severity): (r: seq<Alert>)
    ensures forall a :: a in r <==> a in s.alerts && a.severity == sev
  {
    Filter(s.alerts, HasSeverity(sev))
  }

  /** `has_critical_alerts`: some stored alert is CRITICAL. */
  predicate HasCriticalAlerts(s: AlertSystem)
    ensures HasCriticalAlerts(s) <==> exists i :: 0 <= i < |s.alerts| && s.alerts[i].severity == Critical
  {
    var critical := AlertsBySeverity(s, Critical);
    assert |critical| > 0 ==> critical[0] in s.alerts;
    |critical| > 0
  }

  /** No rule raises a CRITICAL alert, so right after a full check there is none. */
  lemma NoCriticalAfterCheck(s: AlertSystem, ps: seq<Position>, results: Dict<string, ScenarioResult>,
                             m: PortfolioMetrics, now: Moment)
    ensures !HasCriticalAlerts(CheckAllRisks(s, ps, results, m, now))
  {
    var r := CheckAllRisks(s, ps, results, m, now);
    assert forall i :: 0 <= i < |r.alerts| ==> !HasSeverity(Critical)(r.alerts[i]);
    FilterNone(r.alerts, HasSeverity(Critical));
  }

  /** `clear_alerts`. */
  function ClearAlerts(s: AlertSystem): (r: AlertSystem)
    ensures r.limits == s.limits && r.alerts == [] && !HasCriticalAlerts(r)
  {
    s.(alerts := [])
  }
}

=== FILE: risk_metrics.dfy ===
/** Portfolio risk metrics: totals and concentration, Value at Risk from scenario results,
    IV rank against a history, concentration filtering and long/short Greek exposure. */
module RiskMetrics {
  import opened Wrappers
  import opened Seqs
  import opened Dicts
  import opened Positions
  import opened Percentile
  import opened Aggregation

  // ---------------------------------------------------------------- portfolio metrics

  datatype PortfolioMetrics = PortfolioMetrics(
    totalValue: real, totalPnl: real, totalPnlPercent: real, stockValue: real, optionValue: real,
    numPositions: nat, numStockPositions: nat, numOptionPositions: nat,
    delta: real, gamma: real, theta: real, vega: real, rho: real, maxConcentration: real)

  function PnlOfPosition(p: Position): real { GetPnl(p) }

  /** `max(values) / total * 100` when the total is positive, else 0. */
  function MaxConcentration(ps: seq<Position>, total: real): (r: real)
    ensures total <= 0.0 || |ps| == 0 ==> r == 0.0
    ensures total > 0.0 ==> |ps| > 0 ==>
              forall i :: 0 <= i < |ps| ==> ps[i].positionValue / total * 100.0 <= r
    ensures total > 0.0 && |ps| > 0 ==>
              exists i :: 0 <= i < |ps| && r == ps[i].positionValue / total * 100.0
  {
    if total > 0.0 && |ps| > 0 then
      var top := ps[LastMaxIndex(ps, ValueOf)].positionValue;
      assert forall i :: 0 <= i < |ps| ==> ps[i].positionValue / total * 100.0 <= top / total * 100.0 by {
        forall i | 0 <= i < |ps|
          ensures ps[i].positionValue / total * 100.0 <= top / total * 100.0
        {
          assert ValueOf(ps[i]) <= ValueOf(ps[LastMaxIndex(ps, ValueOf)]);
          DivideMonotone(ps[i].positionValue, top, total);
        }
      }
      top / total * 100.0
    else 0.0
  }

  lemma DivideMonotone(a: real, b: real, c: real)
    requires a <= b && c > 0.0
    ensures a / c * 100.0 <= b / c * 100.0
  {
  }

  /** `calculate_portfolio_metrics`. */
  function PortfolioMetricsOf(ps: seq<Position>): (r: PortfolioMetrics)
    ensures r.totalValue == r.stockValue + r.optionValue == Sum(ps, ValueOf)
    ensures r.totalPnl == Sum(ps, PnlOfPosition)
    ensures r.numPositions == |ps| == r.numStockPositions + r.numOptionPositions
    ensures r.numStockPositions == |Filter(ps, IsStock)|
    ensures r.numOptionPositions == |Filter(ps, IsOptionPosition)|
    ensures r.totalValue - r.totalPnl <= 0.0 ==> r.totalPnlPercent == 0.0
    ensures r.totalValue - r.totalPnl > 0.0 ==> r.totalPnlPercent == PercentOf(r.totalPnl, r.totalValue - r.totalPnl)
    ensures var m := CurrentMetrics(ps);
            r.delta == m.delta && r.gamma == m.gamma && r.theta == m.theta && r.vega == m.vega && r.rho == m.rho
    ensures r.maxConcentration == MaxConcentration(ps, r.totalValue)
  {
    var m := CurrentMetrics(ps);
    var pnl := Sum(ps, PnlOfPosition);
    var cost := m.totalValue - pnl;
    CountComplement(ps, IsStock, IsOptionPosition);
    CountIsFilterLength(ps, IsStock);
    CountIsFilterLength(ps, IsOptionPosition);
    PortfolioMetrics(m.totalValue, pnl, if cost > 0.0 then PercentOf(pnl, cost) else 0.0,
                     m.stockValue, m.optionValue,
                     |ps|, Count(ps, IsStock), Count(ps, IsOptionPosition),
                     m.delta, m.gamma, m.theta, m.vega, m.rho, MaxConcentration(ps, m.totalValue))
  }

  // ---------------------------------------------------------------- value at risk

  /** `RiskMetrics.calculate_var`'s dictionary: the two VaR figures and, for a non-empty
      input, their percentages of the first scenario's current value. */
  datatype VarReport = VarReport(var95: real, var99: real, percents: Option<(real, real)>)

  const Tail95 := 0.05
  const Tail99 := 0.01

  /** Percentages divide by the first scenario's current portfolio value; a zero there
      raises. */
  function RiskVar(results: Dict<string, ScenarioResult>): (r: Result<VarReport>)
    ensures |results| == 0 ==> r == Ok(VarReport(0.0, 0.0, None))
    ensures |results| > 0 ==> (r.Err? <==> results[0].1.currentValue == 0.0)
    ensures r.Ok? ==> r.value.var99 <= r.value.var95
    ensures r.Ok? && |results| > 0 ==>
              r.value.var95 in PnlList(results) && r.value.var99 in PnlList(results) && r.value.percents.Some?
  {
    var pnls := PnlList(results);
    if |pnls| == 0 then Ok(VarReport(0.0, 0.0, None))
    else
      PickMonotone(pnls, Tail99, Tail95);
      var v95, v99 := Pick(pnls, Tail95).value, Pick(pnls, Tail99).value;
      var base := results[0].1.currentValue;
      if base == 0.0 then Err(ZeroDivision)
      else Ok(VarReport(v95, v99, Some((v95 / base * 100.0, v99 / base * 100.0))))
  }

  /** Each figure is an order statistic of the scenario P&L: ranks `int(0.05 n)` and
      `int(0.01 n)`. */
  lemma RiskVarRanks(results: Dict<string, ScenarioResult>)
    requires |results| > 0 && results[0].1.currentValue != 0.0
    ensures RiskVar(results).Ok?
    ensures var r := RiskVar(results).value; var pnls := PnlList(results);
            && Count(pnls, Below(r.var95)) <= PickIndex(|pnls|, Tail95) < Count(pnls, AtMost(r.var95))
            && Count(pnls, Below(r.var99)) <= PickIndex(|pnls|, Tail99) < Count(pnls, AtMost(r.var99))
  {
    PickIsOrderStatistic(PnlList(results), Tail95);
    PickIsOrderStatistic(PnlList(results), Tail99);
  }

  /** With fewer than twenty scenarios both figures are the worst scenario P&L. */
  lemma RiskVarFewScenarios(results: Dict<string, ScenarioResult>)
    requires 0 < |results| < 20 && results[0].1.currentValue != 0.0
    ensures RiskVar(results).Ok?
    ensures forall x :: x in PnlList(results) ==> RiskVar(results).value.var95 <= x
    ensures RiskVar(results).value.var99 == RiskVar(results).value.var95
  {
    var pnls := PnlList(results);
    assert PickIndex(|pnls|, Tail95) == 0;
    assert PickIndex(|pnls|, Tail99) == 0;
    PickZeroIsMinimum(pnls, Tail95);
  }

  // ---------------------------------------------------------------- IV rank

  datatype IvRank = IvRank(rank: real, percentile: real, current: real, minIv: real, maxIv: real)

  function Minimum(xs: seq<real>): (m: real)
    requires |xs| > 0
    ensures m in xs && forall i :: 0 <= i < |xs| ==> m <= xs[i]
  {
    xs[FirstMinIndex(xs, Id)]
  }

  function Maximum(xs: seq<real>): (m: real)
    requires |xs| > 0
    ensures m in xs && forall i :: 0 <= i < |xs| ==> xs[i] <= m
  {
    xs[LastMaxIndex(xs, Id)]
  }

  lemma PercentOfCount(c: nat, n: nat)
    requires c <= n && n > 0
    ensures 0.0 <= c as real / n as real * 100.0 <= 100.0
  {
    assert c as real / n as real <= 1.0;
  }

  /** `calculate_iv_rank`: nothing for a stock, a missing IV or an empty history; otherwise
      the position of the current IV in the history's range (50 for a flat history) and the
      share of the history strictly below it. */
  function CalculateIvRank(p: Position, history: seq<real>): (r: Option<IvRank>)
    ensures r.None? <==> !p.isOption || p.impliedVolatility.None? || |history| == 0
    ensures r.Some? ==> r.value.current == p.impliedVolatility.value
    ensures r.Some? ==> r.value.minIv in history && r.value.maxIv in history
    ensures r.Some? ==> forall i :: 0 <= i < |history| ==> r.value.minIv <= history[i] <= r.value.maxIv
    ensures r.Some? && r.value.maxIv == r.value.minIv ==> r.value.rank == 50.0
    ensures r.Some? ==> r.value.rank == RangeRank(r.value.current, r.value.minIv, r.value.maxIv)
    ensures r.Some? ==> 0.0 <= r.value.percentile <= 100.0
    ensures r.Some? ==>
              r.value.percentile == Count(history, Below(r.value.current)) as real / |history| as real * 100.0
  {
    if !p.isOption || p.impliedVolatility.None? || |history| == 0 then None
    else
      var current := p.impliedVolatility.value;
      var lo, hi := Minimum(history), Maximum(history);
      var rank := RangeRank(current, lo, hi);
      var below := Count(history, Below(current));
      PercentOfCount(below, |history|);
      Some(IvRank(rank, below as real / |history| as real * 100.0, current, lo, hi))
  }

  /** Where `current` sits in `[lo, hi]`, in percent; 50 for a flat range. Scaled back by the
      range it is the distance above the minimum. */
  function RangeRank(current: real, lo: real, hi: real): (rank: real)
    ensures hi == lo ==> rank == 50.0
    ensures hi > lo ==> rank * (hi - lo) == (current - lo) * 100.0
  {
    if hi - lo > 0.0 then (current - lo) / (hi - lo) * 100.0 else 50.0
  }

  lemma RankBetween(current: real, lo: real, hi: real)
    requires lo <= current <= hi && hi - lo > 0.0
    ensures 0.0 <= (current - lo) / (hi - lo) * 100.0 <= 100.0
  {
    assert (current - lo) / (hi - lo) <= 1.0;
  }

  /** A current IV inside the historical range has a rank between 0 and 100. */
  lemma IvRankInRange(p: Position, history: seq<real>)
    requires CalculateIvRank(p, history).Some?
    requires var r := CalculateIvRank(p, history).value; r.minIv <= r.current <= r.maxIv
    ensures 0.0 <= CalculateIvRank(p, history).value.rank <= 100.0
  {
    var r := CalculateIvRank(p, history).value;
    if r.maxIv - r.minIv > 0.0 {
      RankBetween(r.current, r.minIv, r.maxIv);
    }
  }

  // ---------------------------------------------------------------- concentrations

  datatype Concentration = Concentration(symbol: string, concentration: real, value: real, threshold: real)

  /** A position's share of the portfolio, 0 for a non-positive portfolio value. */
  function Share(p: Position, portfolioValue: real): real
  {
    if portfolioValue > 0.0 then p.positionValue / portfolioValue else 0.0
  }

  function Exceeds(portfolioValue: real, threshold: real): Position -> bool
  {
    (p: Position) => Share(p, portfolioValue) > threshold
  }

  function EntryOf(p: Position, portfolioValue: real, threshold: real): Concentration
  {
    Concentration(p.symbol, Share(p, portfolioValue) * 100.0, p.positionValue, threshold * 100.0)
  }

  function Entries(ps: seq<Position>, portfolioValue: real, threshold: real): (es: seq<Concentration>)
    ensures |es| == |ps|
    ensures forall i :: 0 <= i < |ps| ==> es[i] == EntryOf(ps[i], portfolioValue, threshold)
  {
    seq(|ps|, i requires 0 <= i < |ps| => EntryOf(ps[i], portfolioValue, threshold))
  }

  function NegatedConcentration(c: Concentration): real { -c.concentration }

  lemma DescendingFromNegated(s: seq<Concentration>)
    requires SortedBy(s, NegatedConcentration)
    ensures forall i, j :: 0 <= i < j < |s| ==> s[i].concentration >= s[j].concentration
  {
    forall i, j | 0 <= i < j < |s|
      ensures s[i].concentration >= s[j].concentration
    {
      assert NegatedConcentration(s[i]) <= NegatedConcentration(s[j]);
    }
  }

  predicate AboveThreshold(c: Concentration) { c.concentration > c.threshold }

  lemma EntriesAboveThreshold(kept: seq<Position>, portfolioValue: real, threshold: real)
    requires forall i :: 0 <= i < |kept| ==> Exceeds(portfolioValue, threshold)(kept[i])
    ensures forall c :: c in multiset(Entries(kept, portfolioValue, threshold)) ==> AboveThreshold(c)
  {
    var es := Entries(kept, portfolioValue, threshold);
    forall c | c in multiset(es)
      ensures AboveThreshold(c)
    {
      var j :| 0 <= j < |es| && es[j] == c;
      assert Exceeds(portfolioValue, threshold)(kept[j]);
    }
  }

  /** `identify_risk_concentrations`: the entries of exactly the positions whose share is
      above the threshold, by concentration from high to low. */
  function IdentifyConcentrations(ps: seq<Position>, portfolioValue: real, threshold: real): (r: seq<Concentration>)
    ensures multiset(r) == multiset(Entries(Filter(ps, Exceeds(portfolioValue, threshold)), portfolioValue, threshold))
    ensures forall i, j :: 0 <= i < j < |r| ==> r[i].concentration >= r[j].concentration
  {
    var kept := Filter(ps, Exceeds(portfolioValue, threshold));
    var sorted := SortBy(Entries(kept, portfolioValue, threshold), NegatedConcentration);
    DescendingFromNegated(sorted);
    sorted
  }

  /** Every reported concentration is above the reported threshold. */
  lemma ConcentrationsAboveThreshold(ps: seq<Position>, portfolioValue: real, threshold: real)
    ensures var r := IdentifyConcentrations(ps, portfolioValue, threshold);
            forall i :: 0 <= i < |r| ==> AboveThreshold(r[i])
  {
    var r := IdentifyConcentrations(ps, portfolioValue, threshold);
    var kept := Filter(ps, Exceeds(portfolioValue, threshold));
    EntriesAboveThreshold(kept, portfolioValue, threshold);
    assert forall i :: 0 <= i < |r| ==> r[i] in multiset(r);
  }

  /** Without a positive portfolio value nothing is concentrated at a non-negative threshold. */
  lemma NoConcentrationWithoutValue(ps: seq<Position>, portfolioValue: real, threshold: real)
    requires portfolioValue <= 0.0 && threshold >= 0.0
    ensures IdentifyConcentrations(ps, portfolioValue, threshold) == []
  {
    forall i | 0 <= i < |ps|
      ensures !Exceeds(portfolioValue, threshold)(ps[i])
    {
      assert Share(ps[i], portfolioValue) == 0.0;
    }
    FilterNone(ps, Exceeds(portfolioValue, threshold));
  }

  // ---------------------------------------------------------------- Greek exposure

  datatype Exposure = Exposure(totalDelta: real, deltaLong: real, deltaShort: real, netDelta: real,
                               totalGamma: real, gammaLong: real, gammaShort: real,
                               totalTheta: real, totalVega: real)

  /** The long side gains a positive contribution. */
  function LongAdd(long: real, x: real): real { if x > 0.0 then long + x else long }

  /** The short side gains every other contribution. */
  function ShortAdd(short: real, x: real): real { if x > 0.0 then short else short + x }

  /** One iteration of `calculate_greeks_exposure`'s loop. An option's weighted delta and
      gamma go to the long or short side by sign and a stock's quantity does the same for
      delta; a missing Greek contributes 0, which changes neither side. */
  function ExposureStep(e: Exposure, p: Position): Exposure
  {
    var d, g := DeltaOf(p), GammaOf(p);
    Exposure(e.totalDelta + d, LongAdd(e.deltaLong, d), ShortAdd(e.deltaShort, d), 0.0,
             e.totalGamma + g, LongAdd(e.gammaLong, g), ShortAdd(e.gammaShort, g),
             e.totalTheta + ThetaOf(p), e.totalVega + VegaOf(p))
  }

  /** The positive part of a contribution, which the long side collects. */
  function LongPart(f: Position -> real): Position -> real
  {
    (p: Position) => if f(p) > 0.0 then f(p) else 0.0
  }

  /** The non-positive part of a contribution, which the short side collects. */
  function ShortPart(f: Position -> real): Position -> real
  {
    (p: Position) => if f(p) > 0.0 then 0.0 else f(p)
  }

  function ExposureLoop(ps: seq<Position>): (e: Exposure)
    ensures e.totalDelta == e.deltaLong + e.deltaShort && e.deltaLong >= 0.0 >= e.deltaShort
    ensures e.totalGamma == e.gammaLong + e.gammaShort && e.gammaLong >= 0.0 >= e.gammaShort
    ensures e.deltaLong == Sum(ps, LongPart(DeltaOf)) && e.deltaShort == Sum(ps, ShortPart(DeltaOf))
    ensures e.gammaLong == Sum(ps, LongPart(GammaOf)) && e.gammaShort == Sum(ps, ShortPart(GammaOf))
    ensures e.totalDelta == Sum(ps, DeltaOf) && e.totalGamma == Sum(ps, GammaOf)
    ensures e.totalTheta == Sum(ps, ThetaOf) && e.totalVega == Sum(ps, VegaOf)
    decreases |ps|
  {
    if |ps| == 0 then Exposure(0.0, 0.0, 0.0, 0.0, 0.0, 0.0, 0.0, 0.0, 0.0)
    else
      var init := ps[..|ps| - 1];
      var last := ps[|ps| - 1];
      assert ps == init + [last];
      SumAppend(init, [last], DeltaOf);
      SumAppend(init, [last], GammaOf);
      SumAppend(init, [last], ThetaOf);
      SumAppend(init, [last], VegaOf);
      SumAppend(init, [last], LongPart(DeltaOf));
      SumAppend(init, [last], ShortPart(DeltaOf));
      SumAppend(init, [last], LongPart(GammaOf));
      SumAppend(init, [last], ShortPart(GammaOf));
      ExposureStep(ExposureLoop(init), last)
  }

  /** `calculate_greeks_exposure`: the loop's totals, with `net_delta` a copy of the total. */
  function GreeksExposure(ps: seq<Position>): (e: Exposure)
    ensures e.netDelta == e.totalDelta == e.deltaLong + e.deltaShort
    ensures e.deltaLong >= 0.0 >= e.deltaShort
    ensures e.totalGamma == e.gammaLong + e.gammaShort && e.gammaLong >= 0.0 >= e.gammaShort
    ensures e.deltaLong == Sum(ps, LongPart(DeltaOf)) && e.deltaShort == Sum(ps, ShortPart(DeltaOf))
    ensures e.gammaLong == Sum(ps, LongPart(GammaOf)) && e.gammaShort == Sum(ps, ShortPart(GammaOf))
    ensures var m := CurrentMetrics(ps);
            e.totalDelta == m.delta && e.totalGamma == m.gamma && e.totalTheta == m.theta && e.totalVega == m.vega
  {
    var e := ExposureLoop(ps);
    e.(netDelta := e.totalDelta)
  }
}

=== FILE: scenarios.dfy ===
/** Scenario parameters and the catalog of predefined market scenarios. */
module Scenarios {
  import opened Wrappers
  import opened Dicts

  /** A scenario dictionary. The three IV rules are optional keys: `ivChange` is a uniform
      relative change, `ivMultipliers` maps moneyness categories (and 'default') to a
      beta-weighted change, `dteScaling` maps the buckets '0-7', '8-30', '31-90' and '90+'
      to a relative change. `daysPass` is the number of calendar days the scenario skips. */
  datatype Spec = Spec(name: string, spotChange: real, ivChange: Option<real>,
                       ivMultipliers: Option<map<string, real>>,
                       dteScaling: Option<map<string, real>>, daysPass: int)

  /** The uniform change, 0.0 when the key is absent. */
  function BaseChange(s: Spec): real
  {
    s.ivChange.GetOr(0.0)
  }

  /** The multiplier table, empty when the key is absent. */
  function Multipliers(s: Spec): map<string, real>
  {
    s.ivMultipliers.GetOr(map[])
  }

  /** The DTE table, empty when the key is absent. */
  function Scaling(s: Spec): map<string, real>
  {
    s.dteScaling.GetOr(map[])
  }

  /** Exactly one of the three IV rules is present. */
  predicate HasOneIvRule(s: Spec)
  {
    (if s.ivChange.Some? then 1 else 0) + (if s.ivMultipliers.Some? then 1 else 0)
      + (if s.dteScaling.Some? then 1 else 0) == 1
  }

  function DteTable(short: real, month: real, quarter: real, long: real): map<string, real>
  {
    map["0-7" := short, "8-30" := month, "31-90" := quarter, "90+" := long]
  }

  function Uniform(name: string, spot: real, change: real, days: int): Spec
  {
    Spec(name, spot, Some(change), None, None, days)
  }

  function ByDte(name: string, spot: real, table: map<string, real>, days: int): Spec
  {
    Spec(name, spot, None, None, Some(table), days)
  }

  function ByCategory(name: string, spot: real, table: map<string, real>): Spec
  {
    Spec(name, spot, None, Some(table), None, 0)
  }

  function NormalDay(): Spec { Uniform("Normal Day", 0.0, 0.0, 0) }
  function EarningsBeat(): Spec { ByDte("Earnings Beat", 0.05, DteTable(-0.35, -0.15, -0.05, 0.0), 1) }
  function EarningsMiss(): Spec { ByDte("Earnings Miss", -0.08, DteTable(-0.30, -0.10, 0.0, 0.0), 1) }
  function EarningsInline(): Spec { ByDte("Earnings Inline", 0.0, DteTable(-0.40, -0.20, -0.05, 0.0), 1) }
  function MarketPanic(): Spec
  {
    ByCategory("Market Panic", -0.05, map["OTM_PUT" := 0.60, "ATM" := 0.35, "OTM_CALL" := 0.25, "default" := 0.35])
  }
  function FlashCrash(): Spec
  {
    ByCategory("Flash Crash", -0.08, map["OTM_PUT" := 1.00, "ATM" := 0.50, "OTM_CALL" := 0.30, "default" := 0.50])
  }
  function BlackSwan(): Spec
  {
    ByCategory("Black Swan", -0.20, map["OTM_PUT" := 1.50, "ATM" := 1.50, "OTM_CALL" := 1.50,
                                        "ITM_PUT" := 1.50, "ITM_CALL" := 1.50, "default" := 1.50])
  }
  function FedHawkish(): Spec { Uniform("Fed Hawkish", -0.02, 0.20, 0) }
  function FedDovish(): Spec { Uniform("Fed Dovish", 0.015, -0.10, 0) }
  function FedNeutral(): Spec { Uniform("Fed Neutral", 0.0, -0.05, 0) }
  function ShortSqueeze(): Spec
  {
    ByCategory("Short Squeeze", 0.10, map["OTM_CALL" := 0.30, "ATM" := 0.10, "OTM_PUT" := -0.10, "default" := 0.10])
  }
  function FomoRally(): Spec
  {
    ByCategory("FOMO Rally", 0.05, map["OTM_CALL" := 0.15, "ATM" := 0.05, "OTM_PUT" := -0.20, "default" := 0.0])
  }
  function ReliefRally(): Spec { Uniform("Relief Rally", 0.03, -0.15, 0) }
  function OneDayPass(): Spec { ByDte("1 Day Pass", 0.0, DteTable(-0.01, -0.01, 0.0, 0.0), 1) }
  function Weekend(): Spec { ByDte("Weekend", 0.0, DteTable(-0.02, -0.01, 0.0, 0.0), 3) }
  function OneWeek(): Spec { ByDte("1 Week", 0.0, DteTable(-0.05, -0.03, -0.01, 0.0), 7) }

  /** The sixteen templates in catalog order. */
  function Templates(): seq<Spec>
  {
    [NormalDay(), EarningsBeat(), EarningsMiss(), EarningsInline(), MarketPanic(),
     FlashCrash(), BlackSwan(), FedHawkish(), FedDovish(), FedNeutral(),
     ShortSqueeze(), FomoRally(), ReliefRally(), OneDayPass(), Weekend(), OneWeek()]
  }

  /** `get_all_scenarios`: the templates keyed by their names, in catalog order. */
  function Catalog(): (c: Dict<string, Spec>)
    ensures |c| == 16
    ensures forall i :: 0 <= i < |c| ==> c[i].1.name == c[i].0
  {
    var t := Templates();
    seq(|t|, i requires 0 <= i < |t| => (t[i].name, t[i]))
  }

  /** The catalog's keys are distinct, so it is a well-formed dictionary. */
  lemma CatalogKeysDistinct()
    ensures DistinctKeys(Catalog())
  {
    TemplateNames();
    NamesDistinct();
  }

  /** The template names, in catalog order. */
  function Names(): seq<string>
  {
    ["Normal Day", "Earnings Beat", "Earnings Miss", "Earnings Inline", "Market Panic",
     "Flash Crash", "Black Swan", "Fed Hawkish", "Fed Dovish", "Fed Neutral",
     "Short Squeeze", "FOMO Rally", "Relief Rally", "1 Day Pass", "Weekend", "1 Week"]
  }

  lemma TemplateNames()
    ensures |Templates()| == |Names()|
    ensures forall i :: 0 <= i < |Names()| ==> Templates()[i].name == Names()[i]
  {
  }

  /** The catalog's keys are the names, in order. */
  lemma CatalogKeysAreNames()
    ensures Keys(Catalog()) == Names()
  {
    TemplateNames();
  }

  lemma NamesDistinct()
    ensures forall i, j :: 0 <= i < j < |Names()| ==> Names()[i] != Names()[j]
  {
  }

  /** The keys a multiplier table may use: the five moneyness categories and 'default'. */
  const MultiplierKeys: set<string> := {"OTM_PUT", "OTM_CALL", "ATM", "ITM_PUT", "ITM_CALL", "default"}

  /** Every template sets exactly one IV rule; every multiplier table has a 'default'
      entry and otherwise only category keys, and every DTE table covers the four buckets. */
  lemma TemplatesWellFormed()
    ensures forall i :: 0 <= i < |Templates()| ==> HasOneIvRule(Templates()[i])
    ensures forall i :: 0 <= i < |Templates()| && Templates()[i].ivMultipliers.Some? ==>
              "default" in Templates()[i].ivMultipliers.value
    ensures forall i :: 0 <= i < |Templates()| && Templates()[i].ivMultipliers.Some? ==>
              Templates()[i].ivMultipliers.value.Keys <= MultiplierKeys
    ensures forall i :: 0 <= i < |Templates()| && Templates()[i].dteScaling.Some? ==>
              Templates()[i].dteScaling.value.Keys == {"0-7", "8-30", "31-90", "90+"}
  {
    var t := Templates();
    forall i | 0 <= i < |t|
      ensures WellFormed(t[i])
    {
      DteTableKeys();
    }
  }

  /** The three template properties together. */
  predicate WellFormed(s: Spec)
  {
    && HasOneIvRule(s)
    && (s.ivMultipliers.Some? ==> "default" in s.ivMultipliers.value)
    && (s.ivMultipliers.Some? ==> s.ivMultipliers.value.Keys <= MultiplierKeys)
    && (s.dteScaling.Some? ==> s.dteScaling.value.Keys == {"0-7", "8-30", "31-90", "90+"})
  }

  lemma DteTableKeys()
    ensures forall a, b, c, d :: DteTable(a, b, c, d).Keys == {"0-7", "8-30", "31-90", "90+"}
  {
    forall a, b, c, d
      ensures DteTable(a, b, c, d).Keys == {"0-7", "8-30", "31-90", "90+"}
    {
    }
  }

  /** The catalog entry at position `i` is found under its name. */
  lemma CatalogFinds(i: int)
    requires 0 <= i < 16
    ensures Get(Catalog(), Templates()[i].name) == Some(Templates()[i])
  {
    CatalogKeysDistinct();
    GetAt(Catalog(), i);
  }

  /** The catalog holds the baseline, the panic and the earnings-beat scenarios. */
  lemma CatalogHasCoreScenarios()
    ensures "Normal Day" in Keys(Catalog()) && Get(Catalog(), "Normal Day") == Some(NormalDay())
    ensures "Market Panic" in Keys(Catalog())
    ensures "Earnings Beat" in Keys(Catalog())
  {
    var c := Catalog();
    assert c[0].0 == "Normal Day";
    assert c[1].0 == "Earnings Beat";
    assert c[4].0 == "Market Panic";
  }

  /** Normal Day moves nothing: no spot change, a zero uniform IV change, no days pass. */
  lemma NormalDayIsNeutral()
    ensures NormalDay().spotChange == 0.0 && NormalDay().ivChange == Some(0.0) && NormalDay().daysPass == 0
  {
  }

  /** Every earnings template crushes short-dated IV, and an inline print crushes it most. */
  lemma EarningsCrushShortDated()
    ensures Scaling(EarningsBeat())["0-7"] < 0.0
    ensures Scaling(EarningsMiss())["0-7"] < 0.0
    ensures Scaling(EarningsInline())["0-7"] < Scaling(EarningsBeat())["0-7"]
    ensures Scaling(EarningsInline())["0-7"] < Scaling(EarningsMiss())["0-7"]
  {
  }

  /** The panic template raises OTM put IV more than ATM and ATM more than OTM call. */
  lemma PanicSkewsToPuts()
    ensures Multipliers(MarketPanic())["OTM_PUT"] > Multipliers(MarketPanic())["ATM"] > Multipliers(MarketPanic())["OTM_CALL"] > 0.0
  {
  }

  /** `create_custom_scenario`: `iv_change` is included iff given, `iv_multipliers` iff
      given and non-empty; a custom scenario never carries a DTE table. */
  function CreateCustom(name: string, spotChange: real, ivChange: Option<real>,
                        ivMultipliers: Option<map<string, real>>, daysPass: int): (s: Spec)
    ensures s.name == name && s.spotChange == spotChange && s.daysPass == daysPass
    ensures s.ivChange == ivChange
    ensures s.ivMultipliers.Some? <==> ivMultipliers.Some? && ivMultipliers.value != map[]
    ensures s.ivMultipliers.Some? ==> s.ivMultipliers == ivMultipliers
    ensures s.dteScaling.None?
  {
    var table := if ivMultipliers.Some? && ivMultipliers.value != map[] then ivMultipliers else None;
    Spec(name, spotChange, ivChange, table, None, daysPass)
  }

  /** An omitted and an empty multiplier table yield the same scenario. */
  lemma CustomEmptyMultipliersDropped(name: string, spot: real, change: Option<real>, days: int)
    ensures CreateCustom(name, spot, change, Some(map[]), days) == CreateCustom(name, spot, change, None, days)
  {
  }
}

=== FILE: scheduler.dfy ===
/** Market-session predicates, the minutes until the next open, and the gating rule of the
    real-time monitor loop. Every clock read is a `now` parameter; the awaited callbacks are
    reduced to whether each one returns or raises. */
module Scheduler {
  import opened Wrappers
  import opened Dates
  import opened Seqs

  // ---------------------------------------------------------------- sessions

  /** Seconds after midnight of the session boundaries. */
  const PreMarketStart := 4 * 3600
  const MarketOpen := 9 * 3600 + 30 * 60
  const MarketClose := 16 * 3600
  const AfterHoursEnd := 20 * 3600

  /** `weekday() >= 5`. */
  predicate IsWeekend(t: Moment)
  {
    Weekday(t.date) >= 5
  }

  /** `is_market_hours`: a weekday between 09:30 and 16:00, both ends included. Market hours
      exclude the two extended sessions. */
  predicate IsMarketHours(t: Moment)
    ensures IsMarketHours(t) ==> !IsPreMarket(t) && !IsAfterHours(t)
    ensures !IsWeekend(t) && (SecondOfDay(t) == MarketOpen || SecondOfDay(t) == MarketClose) ==> IsMarketHours(t)
  {
    !IsWeekend(t) && MarketOpen <= SecondOfDay(t) <= MarketClose
  }

  /** `is_pre_market`: a weekday from 04:00 up to, not including, 09:30. */
  predicate IsPreMarket(t: Moment)
    ensures IsPreMarket(t) ==> !IsAfterHours(t)
    ensures !IsWeekend(t) && SecondOfDay(t) == PreMarketStart ==> IsPreMarket(t)
    ensures SecondOfDay(t) == MarketOpen ==> !IsPreMarket(t)
  {
    !IsWeekend(t) && PreMarketStart <= SecondOfDay(t) < MarketOpen
  }

  /** `is_after_hours`: a weekday after 16:00 up to and including 20:00. */
  predicate IsAfterHours(t: Moment)
    ensures SecondOfDay(t) == MarketClose ==> !IsAfterHours(t)
    ensures !IsWeekend(t) && SecondOfDay(t) == AfterHoursEnd ==> IsAfterHours(t)
  {
    !IsWeekend(t) && MarketClose < SecondOfDay(t) <= AfterHoursEnd
  }

  /** On a weekday the three sessions split 04:00-20:00 between them: each such moment is in
      exactly one, and no moment outside that span is in any. On a weekend none holds. */
  lemma SessionsPartitionTradingDay(t: Moment)
    ensures IsWeekend(t) ==> !IsMarketHours(t) && !IsPreMarket(t) && !IsAfterHours(t)
    ensures !(IsMarketHours(t) && IsPreMarket(t)) && !(IsMarketHours(t) && IsAfterHours(t))
    ensures !(IsPreMarket(t) && IsAfterHours(t))
    ensures (IsMarketHours(t) || IsPreMarket(t) || IsAfterHours(t)) <==> (!IsWeekend(t) && PreMarketStart <= SecondOfDay(t) <= AfterHoursEnd)
  {
  }

  // ---------------------------------------------------------------- time until the open

  /** The weekday moves on by one with the date. */
  lemma WeekdayOfNextDay(d: CivilDate)
    ensures Weekday(NextDay(d)) == (Weekday(d) + 1) % 7
  {
    ModShift(Ordinal(d) + 6, 1, 7);
  }

  /** How many weekend days remain from `d` on: 2 on Saturday, 1 on Sunday, else 0. */
  function WeekendLeft(d: CivilDate): nat
  {
    if Weekday(d) >= 5 then 7 - Weekday(d) else 0
  }

  /** The `while next_open.weekday() >= 5` loop, stepping with a real calendar successor. */
  function SkipWeekend(d: CivilDate): (r: CivilDate)
    ensures Weekday(r) < 5
    ensures Ordinal(r) == Ordinal(d) + WeekendLeft(d)
    decreases WeekendLeft(d)
  {
    if Weekday(d) >= 5 then
      WeekdayOfNextDay(d);
      SkipWeekend(NextDay(d))
    else d
  }

  /** Every day the loop steps over (the `WeekendLeft(d)` days from `d` on, by the contract
      of `SkipWeekend`) is a Saturday or a Sunday, stated on day ordinals, whose
      `(n + 6) % 7` is the weekday. */
  lemma SkipWeekendSkipsOnlyWeekend(d: CivilDate, n: int)
    requires Ordinal(d) <= n < Ordinal(d) + WeekendLeft(d)
    ensures (n + 6) % 7 >= 5
  {
    WeekendRun(Ordinal(d), n);
  }

  /** The same for a date: a skipped day is a Saturday or a Sunday. */
  lemma SkippedDayIsWeekend(d: CivilDate, e: CivilDate)
    requires Ordinal(d) <= Ordinal(e) < Ordinal(d) + WeekendLeft(d)
    ensures Weekday(e) >= 5
  {
    SkipWeekendSkipsOnlyWeekend(d, Ordinal(e));
  }

  /** The same on bare day numbers: from a Saturday two days, from a Sunday one. */
  lemma WeekendRun(o: int, n: int)
    requires o <= n < o + (if (o + 6) % 7 >= 5 then 7 - (o + 6) % 7 else 0)
    ensures (n + 6) % 7 >= 5
  {
    if n > o {
      ModShift(o + 6, 1, 7);
    }
  }

  /** The date of the next 09:30 open: today while it is not yet past 09:30, otherwise the
      next day, then moved past any weekend. */
  function NextOpenDate(t: Moment): (d: CivilDate)
    ensures Weekday(d) < 5
    ensures Ordinal(t.date) <= Ordinal(d) <= Ordinal(t.date) + 3
    ensures SecondOfDay(t) > MarketOpen ==> Ordinal(t.date) < Ordinal(d)
    ensures SecondOfDay(t) <= MarketOpen && Weekday(t.date) < 5 ==> d == t.date
  {
    SkipWeekend(if SecondOfDay(t) > MarketOpen then NextDay(t.date) else t.date)
  }

  /** `time_until_market_open` with the day advanced by the calendar successor: 0 during
      market hours, else the whole minutes until the next open. The original divides a float
      by 60 and truncates; the difference is positive, so that is floor division. */
  function TimeUntilMarketOpen(t: Moment): (minutes: int)
    ensures minutes >= 0
    ensures IsMarketHours(t) ==> minutes == 0
    ensures !IsMarketHours(t) ==>
              minutes * 60 <= Timestamp(At(NextOpenDate(t), 9, 30)) - Timestamp(t) < (minutes + 1) * 60
  {
    if IsMarketHours(t) then 0
    else
      NextOpenAhead(t);
      (Timestamp(At(NextOpenDate(t), 9, 30)) - Timestamp(t)) / 60
  }

  /** Outside market hours the next open lies strictly ahead, on a weekday. */
  lemma NextOpenAhead(t: Moment)
    requires !IsMarketHours(t)
    ensures Weekday(NextOpenDate(t)) < 5
    ensures Before(t, At(NextOpenDate(t), 9, 30))
  {
    var start := if SecondOfDay(t) > MarketOpen then NextDay(t.date) else t.date;
    if start == t.date && Weekday(t.date) < 5 {
      assert SecondOfDay(t) < MarketOpen;
    }
  }

  /** The next open is the first one: no weekday 09:30 lies strictly between `t` and it. */
  lemma NextOpenIsFirst(t: Moment, d: CivilDate)
    requires !IsMarketHours(t)
    requires Weekday(d) < 5 && Before(t, At(d, 9, 30))
    ensures !Before(At(d, 9, 30), At(NextOpenDate(t), 9, 30))
  {
    var start := if SecondOfDay(t) > MarketOpen then NextDay(t.date) else t.date;
    var open: Moment := At(d, 9, 30);
    var next: Moment := At(NextOpenDate(t), 9, 30);
    BeforeByDay(t, open);
    BeforeByDay(open, next);
    assert SecondOfDay(open) == MarketOpen && SecondOfDay(next) == MarketOpen;
    assert Ordinal(start) <= Ordinal(d);
    if Ordinal(d) < Ordinal(NextOpenDate(t)) {
      SkippedDayIsWeekend(start, d);
    }
  }

  /** `replace(day=day + 1)`: the same month with the next day number, which raises when the
      month has no such day. */
  function ReplaceNextDay(d: CivilDate): (r: Result<CivilDate>)
    ensures r.Err? <==> d.day == DaysInMonth(d.year, d.month)
    ensures r.Ok? ==> r.value == NextDay(d)
  {
    if d.day + 1 <= DaysInMonth(d.year, d.month) then Ok(Date(d.year, d.month, d.day + 1))
    else Err(DayOutOfRange)
  }

  /** The weekend loop as written, with `replace(day=day + 1)` as its step. */
  function SkipWeekendAsWritten(d: CivilDate): (r: Result<CivilDate>)
    ensures r.Ok? ==> r.value == SkipWeekend(d)
    decreases WeekendLeft(d)
  {
    if Weekday(d) >= 5 then
      match ReplaceNextDay(d)
      case Err(f) => Err(f)
      case Ok(next) =>
        WeekdayOfNextDay(d);
        SkipWeekendAsWritten(next)
    else Ok(d)
  }

  /** `time_until_market_open` as written: the day steps use `replace(day=day + 1)`. */
  function TimeUntilMarketOpenAsWritten(t: Moment): (r: Result<int>)
    ensures r.Ok? ==> r.value == TimeUntilMarketOpen(t)
  {
    if IsMarketHours(t) then Ok(0)
    else
      var start := if SecondOfDay(t) > MarketOpen then ReplaceNextDay(t.date) else Ok(t.date);
      match start
      case Err(f) => Err(f)
      case Ok(s) =>
        match SkipWeekendAsWritten(s)
        case Err(f) => Err(f)
        case Ok(d) => Ok((Timestamp(At(d, 9, 30)) - Timestamp(t)) / 60)
  }

  /** As written, any call after 09:30 on the last day of a month raises instead of
      answering, although the corrected count exists. */
  lemma AsWrittenFailsOnMonthEnd(t: Moment)
    requires !IsMarketHours(t) && SecondOfDay(t) > MarketOpen
    requires t.date.day == DaysInMonth(t.date.year, t.date.month)
    ensures TimeUntilMarketOpenAsWritten(t) == Err(DayOutOfRange)
    ensures TimeUntilMarketOpen(t) >= 0
  {
  }

  /** The concrete case: Friday 2024-05-31 at 17:00 raises as written; the corrected
      count runs to Monday 2024-06-03 at 09:30. */
  lemma MayThirtyFirstEvening()
    ensures TimeUntilMarketOpenAsWritten(DateTime(Date(2024, 5, 31), 17, 0, 0)) == Err(DayOutOfRange)
    ensures NextOpenDate(DateTime(Date(2024, 5, 31), 17, 0, 0)) == Date(2024, 6, 3)
  {
    var t := DateTime(Date(2024, 5, 31), 17, 0, 0);
    assert SecondOfDay(t) == 61200;
    AsWrittenFailsOnMonthEnd(t);
    JuneFirstIsSaturday();
    var sat, sun := Date(2024, 6, 1), Date(2024, 6, 2);
    assert NextDay(t.date) == sat;
    WeekdayOfNextDay(sat);
    assert NextDay(sat) == sun;
    WeekdayOfNextDay(sun);
    assert NextDay(sun) == Date(2024, 6, 3);
  }

  lemma JuneFirstIsSaturday()
    ensures Weekday(Date(2024, 6, 1)) == 5
  {
    assert DaysBeforeYear(2024) == 738885;
    assert Ordinal(Date(2024, 6, 1)) == 739038;
  }

  // ---------------------------------------------------------------- monitor gating

  /** The three periodic jobs of the monitor loop, in the order they are tried. */
  datatype Job = UpdateData | RunScenarios | SaveSnapshot

  const JobOrder: seq<Job> := [UpdateData, RunScenarios, SaveSnapshot]

  /** Last successful run of each job; `None` before the first. */
  datatype Monitor = Monitor(lastUpdate: Option<Moment>, lastScenarioRun: Option<Moment>,
                             lastSnapshot: Option<Moment>)

  const Fresh := Monitor(None, None, None)

  /** `update_interval` (60 s by default) and `snapshot_interval` (300 s by default); the
      latter paces both the scenario runs and the snapshots. */
  datatype Intervals = Intervals(update: int, snapshot: int)

  const DefaultIntervals := Intervals(60, 300)

  function LastRun(m: Monitor, j: Job): Option<Moment>
  {
    match j
    case UpdateData => m.lastUpdate
    case RunScenarios => m.lastScenarioRun
    case SaveSnapshot => m.lastSnapshot
  }

  function Recorded(m: Monitor, j: Job, now: Moment): (r: Monitor)
    ensures LastRun(r, j) == Some(now)
    ensures forall k :: k != j ==> LastRun(r, k) == LastRun(m, k)
  {
    match j
    case UpdateData => m.(lastUpdate := Some(now))
    case RunScenarios => m.(lastScenarioRun := Some(now))
    case SaveSnapshot => m.(lastSnapshot := Some(now))
  }

  function IntervalOf(iv: Intervals, j: Job): int
  {
    if j == UpdateData then iv.update else iv.snapshot
  }

  /** A job is due when it never ran or at least its interval has elapsed since it did. */
  predicate Due(m: Monitor, iv: Intervals, j: Job, now: Moment)
  {
    LastRun(m, j).None? || Timestamp(now) - Timestamp(LastRun(m, j).value) >= IntervalOf(iv, j)
  }

  /** The outcome of one pass: the new state, the jobs invoked in order, and whether one of
      them raised (the rest of the pass is then skipped). */
  datatype Tick = Tick(monitor: Monitor, fired: seq<Job>, raised: bool)

  /** Tries `jobs` in order; `succeeds(j)` says whether job `j`'s callback returns. The
      jobs invoked keep their listed order, so none runs twice in a pass over distinct jobs. */
  function RunJobs(m: Monitor, jobs: seq<Job>, iv: Intervals, now: Moment, succeeds: Job -> bool): (r: Tick)
    ensures |r.fired| <= |jobs|
    ensures forall j :: j in r.fired ==> j in jobs
    ensures Subsequence(r.fired, jobs)
    ensures NoDuplicates(jobs) ==> NoDuplicates(r.fired)
    decreases |jobs|
  {
    if |jobs| == 0 then Tick(m, [], false)
    else
      var j := jobs[0];
      assert NoDuplicates(jobs) ==> NoDuplicates(jobs[1..]) && j !in jobs[1..];
      if !Due(m, iv, j, now) then RunJobs(m, jobs[1..], iv, now, succeeds)
      else if !succeeds(j) then
        assert Subsequence([j][1..], jobs[1..]);
        Tick(m, [j], true)
      else
        var rest := RunJobs(Recorded(m, j, now), jobs[1..], iv, now, succeeds);
        assert ([j] + rest.fired)[1..] == rest.fired;
        Tick(rest.monitor, [j] + rest.fired, rest.raised)
  }

  /** A pass stops at the first callback that raises: every job invoked before the last one
      returned, and the pass reports a raise exactly when the last job invoked raised. */
  lemma {:induction false} RaisesOnlyOnLast(m: Monitor, jobs: seq<Job>, iv: Intervals, now: Moment, succeeds: Job -> bool)
    ensures var r := RunJobs(m, jobs, iv, now, succeeds);
            && (r.raised <==> |r.fired| > 0 && !succeeds(r.fired[|r.fired| - 1]))
            && (forall i :: 0 <= i < |r.fired| - 1 ==> succeeds(r.fired[i]))
    decreases |jobs|
  {
    if |jobs| > 0 {
      var j := jobs[0];
      if !Due(m, iv, j, now) {
        RaisesOnlyOnLast(m, jobs[1..], iv, now, succeeds);
      } else if succeeds(j) {
        RaisesOnlyOnLast(Recorded(m, j, now), jobs[1..], iv, now, succeeds);
      }
    }
  }

  /** One pass of the monitor loop at time `now`. */
  function MonitorTick(m: Monitor, iv: Intervals, now: Moment, succeeds: Job -> bool): (r: Tick)
    ensures Subsequence(r.fired, JobOrder) && NoDuplicates(r.fired)
  {
    assert NoDuplicates(JobOrder);
    RunJobs(m, JobOrder, iv, now, succeeds)
  }

  /** When every callback returns, exactly the due jobs run, each is stamped with `now`, and
      the others keep their stamps. */
  lemma {:induction false} AllSucceedRunsDueJobs(m: Monitor, jobs: seq<Job>, iv: Intervals, now: Moment, succeeds: Job -> bool)
    requires NoDuplicates(jobs)
    requires forall j :: succeeds(j)
    ensures !RunJobs(m, jobs, iv, now, succeeds).raised
    ensures forall j :: j in jobs ==> (j in RunJobs(m, jobs, iv, now, succeeds).fired <==> Due(m, iv, j, now))
    ensures forall j :: LastRun(RunJobs(m, jobs, iv, now, succeeds).monitor, j) ==
              if j in jobs && Due(m, iv, j, now) then Some(now) else LastRun(m, j)
    decreases |jobs|
  {
    if |jobs| > 0 {
      var j := jobs[0];
      var m1 := if Due(m, iv, j, now) then Recorded(m, j, now) else m;
      AllSucceedRunsDueJobs(m1, jobs[1..], iv, now, succeeds);
      assert forall k :: k in jobs <==> k == j || k in jobs[1..] by {
        assert jobs == [j] + jobs[1..];
      }
      assert j !in jobs[1..];
      forall k | k != j
        ensures Due(m1, iv, k, now) == Due(m, iv, k, now)
      {
      }
    }
  }

  /** A job's stamp moves only when it ran and returned, and then to `now`; a job that is
      not due is never invoked. */
  lemma {:induction false} StampsMoveOnlyOnSuccess(m: Monitor, jobs: seq<Job>, iv: Intervals, now: Moment, succeeds: Job -> bool, j: Job)
    ensures var r := RunJobs(m, jobs, iv, now, succeeds);
            LastRun(r.monitor, j) == LastRun(m, j) || (LastRun(r.monitor, j) == Some(now) && j in r.fired && succeeds(j))
    ensures NoDuplicates(jobs) && j in RunJobs(m, jobs, iv, now, succeeds).fired ==> Due(m, iv, j, now)
    decreases |jobs|
  {
    if |jobs| > 0 {
      var k := jobs[0];
      StampsMoveOnlyOnSuccess(m, jobs[1..], iv, now, succeeds, j);
      if Due(m, iv, k, now) && succeeds(k) {
        StampsMoveOnlyOnSuccess(Recorded(m, k, now), jobs[1..], iv, now, succeeds, j);
      }
      if NoDuplicates(jobs) {
        assert NoDuplicates(jobs[1..]);
      }
    }
  }

  /** A raising callback ends the pass: nothing after it runs and its own stamp stays. */
  lemma FailingUpdateSkipsRest(m: Monitor, iv: Intervals, now: Moment, succeeds: Job -> bool)
    requires Due(m, iv, UpdateData, now) && !succeeds(UpdateData)
    ensures MonitorTick(m, iv, now, succeeds) == Tick(m, [UpdateData], true)
  {
  }

  /** A fresh monitor runs every job on its first pass when all callbacks return. */
  lemma FirstTickRunsEverything(iv: Intervals, now: Moment, succeeds: Job -> bool)
    requires forall j :: succeeds(j)
    ensures MonitorTick(Fresh, iv, now, succeeds).fired == JobOrder
    ensures MonitorTick(Fresh, iv, now, succeeds).monitor == Monitor(Some(now), Some(now), Some(now))
  {
  }

  /** After a job ran and returned at `now`, a pass less than its interval later does not
      invoke it again. */
  lemma NoRerunWithinInterval(m: Monitor, iv: Intervals, now: Moment, later: Moment, succeeds: Job -> bool, j: Job)
    requires j in MonitorTick(m, iv, now, succeeds).fired && succeeds(j)
    requires Timestamp(later) - Timestamp(now) < IntervalOf(iv, j)
    ensures j !in MonitorTick(MonitorTick(m, iv, now, succeeds).monitor, iv, later, succeeds).fired
  {
    var r := MonitorTick(m, iv, now, succeeds);
    RanAndReturnedIsStamped(m, JobOrder, iv, now, succeeds, j);
    StampsMoveOnlyOnSuccess(r.monitor, JobOrder, iv, later, succeeds, j);
  }

  /** A job that ran and returned during the pass carries the stamp `now` afterwards. */
  lemma {:induction false} RanAndReturnedIsStamped(m: Monitor, jobs: seq<Job>, iv: Intervals, now: Moment, succeeds: Job -> bool, j: Job)
    requires NoDuplicates(jobs)
    requires j in RunJobs(m, jobs, iv, now, succeeds).fired && succeeds(j)
    ensures LastRun(RunJobs(m, jobs, iv, now, succeeds).monitor, j) == Some(now)
    decreases |jobs|
  {
    var k := jobs[0];
    assert NoDuplicates(jobs[1..]);
    if !Due(m, iv, k, now) {
      RanAndReturnedIsStamped(m, jobs[1..], iv, now, succeeds, j);
    } else if succeeds(k) {
      var m1 := Recorded(m, k, now);
      var rest := RunJobs(m1, jobs[1..], iv, now, succeeds);
      if j == k {
        assert k !in jobs[1..];
        StampsMoveOnlyOnSuccess(m1, jobs[1..], iv, now, succeeds, j);
      } else {
        RanAndReturnedIsStamped(m1, jobs[1..], iv, now, succeeds, j);
      }
    }
  }
}

=== FILE: seqs.dfy ===
/** Sequence helpers: sums, filters, and the stable sort behind Python's `sorted`. */
module Seqs {

  /** The identity on reals, used as the sort key of `sorted(list_of_floats)`. */
  function Id(x: real): real { x }

  /** Sum of `f` over the elements of `s`, as `sum(f(x) for x in s)`. */
  function Sum<T>(s: seq<T>, f: T -> real): real
  {
    if |s| == 0 then 0.0 else f(s[0]) + Sum(s[1..], f)
  }

  lemma {:induction false} SumAppend<T>(a: seq<T>, b: seq<T>, f: T -> real)
    ensures Sum(a + b, f) == Sum(a, f) + Sum(b, f)
  {
    if |a| == 0 {
      assert a + b == b;
    } else {
      assert (a + b)[1..] == a[1..] + b;
      SumAppend(a[1..], b, f);
    }
  }

  /** Sums of two functions that agree on every element are equal. */
  lemma {:induction false} SumCongruent<T>(s: seq<T>, f: T -> real, g: T -> real)
    requires forall i :: 0 <= i < |s| ==> f(s[i]) == g(s[i])
    ensures Sum(s, f) == Sum(s, g)
  {
    if |s| > 0 {
      SumCongruent(s[1..], f, g);
    }
  }

  /** The order-preserving list comprehension `[x for x in s if p(x)]`. */
  function Filter<T(!new)>(s: seq<T>, p: T -> bool): (r: seq<T>)
    ensures |r| <= |s|
    ensures forall x :: x in r <==> x in s && p(x)
    ensures forall i :: 0 <= i < |r| ==> p(r[i])
  {
    if |s| == 0 then []
    else if p(s[0]) then [s[0]] + Filter(s[1..], p)
    else Filter(s[1..], p)
  }

  /** When every element passes, the filter keeps the whole sequence. */
  lemma {:induction false} FilterAll<T(!new)>(s: seq<T>, p: T -> bool)
    requires forall i :: 0 <= i < |s| ==> p(s[i])
    ensures Filter(s, p) == s
  {
    if |s| > 0 {
      FilterAll(s[1..], p);
      assert [s[0]] + s[1..] == s;
    }
  }

  lemma {:induction false} FilterNone<T(!new)>(s: seq<T>, p: T -> bool)
    requires forall i :: 0 <= i < |s| ==> !p(s[i])
    ensures Filter(s, p) == []
  {
    if |s| > 0 {
      FilterNone(s[1..], p);
    }
  }

  lemma {:induction false} FilterAppend<T(!new)>(a: seq<T>, b: seq<T>, p: T -> bool)
    ensures Filter(a + b, p) == Filter(a, p) + Filter(b, p)
  {
    if |a| == 0 {
      assert a + b == b;
    } else {
      assert (a + b)[1..] == a[1..] + b;
      FilterAppend(a[1..], b, p);
    }
  }

  /** One more element is kept at the end exactly when it passes. */
  lemma FilterSnoc<T(!new)>(a: seq<T>, x: T, p: T -> bool)
    ensures Filter(a + [x], p) == Filter(a, p) + (if p(x) then [x] else [])
  {
    FilterAppend(a, [x], p);
    assert [x][1..] == [];
  }

  lemma SumSnoc<T>(a: seq<T>, x: T, f: T -> real)
    ensures Sum(a + [x], f) == Sum(a, f) + f(x)
  {
    SumAppend(a, [x], f);
    assert [x][1..] == [];
  }

  /** The sum over the kept elements grows by the new element's term exactly when it passes. */
  lemma SumFilterSnoc<T(!new)>(a: seq<T>, x: T, p: T -> bool, f: T -> real)
    ensures Sum(Filter(a + [x], p), f) == Sum(Filter(a, p), f) + (if p(x) then f(x) else 0.0)
  {
    FilterSnoc(a, x, p);
    if p(x) {
      SumSnoc(Filter(a, p), x, f);
    } else {
      assert Filter(a, p) + [] == Filter(a, p);
    }
  }

  /** Number of elements of `s` satisfying `p`, as `sum(1 for x in s if p(x))`. */
  function Count<T>(s: seq<T>, p: T -> bool): (n: nat)
    ensures n <= |s|
  {
    if |s| == 0 then 0 else (if p(s[0]) then 1 else 0) + Count(s[1..], p)
  }

  lemma {:induction false} CountIsFilterLength<T(!new)>(s: seq<T>, p: T -> bool)
    ensures Count(s, p) == |Filter(s, p)|
  {
    if |s| > 0 {
      CountIsFilterLength(s[1..], p);
    }
  }

  lemma {:induction false} CountAppend<T>(a: seq<T>, b: seq<T>, p: T -> bool)
    ensures Count(a + b, p) == Count(a, p) + Count(b, p)
  {
    if |a| == 0 {
      assert a + b == b;
    } else {
      assert (a + b)[1..] == a[1..] + b;
      CountAppend(a[1..], b, p);
    }
  }

  /** Counting does not depend on the order of the elements. */
  lemma {:induction false} CountPermutation<T>(a: seq<T>, b: seq<T>, p: T -> bool)
    requires multiset(a) == multiset(b)
    ensures Count(a, p) == Count(b, p)
    decreases |a|
  {
    if |a| == 0 {
      assert |b| == |multiset(b)| == 0;
    } else {
      assert a[0] in multiset(b);
      var k :| 0 <= k < |b| && b[k] == a[0];
      var rest := b[..k] + b[k + 1..];
      MultisetWithout(b, k);
      assert a == [a[0]] + a[1..];
      assert multiset(a[1..]) == multiset(a) - multiset{a[0]};
      CountPermutation(a[1..], rest, p);
      CountWithout(b, k, p);
    }
  }

  lemma MultisetWithout<T>(b: seq<T>, k: int)
    requires 0 <= k < |b|
    ensures multiset(b[..k] + b[k + 1..]) == multiset(b) - multiset{b[k]}
  {
    assert b == b[..k] + [b[k]] + b[k + 1..];
  }

  lemma CountWithout<T>(b: seq<T>, k: int, p: T -> bool)
    requires 0 <= k < |b|
    ensures Count(b, p) == Count(b[..k] + b[k + 1..], p) + (if p(b[k]) then 1 else 0)
  {
    var tail := b[k..];
    assert b == b[..k] + tail;
    assert tail[0] == b[k] && tail[1..] == b[k + 1..];
    CountAppend(b[..k], tail, p);
    CountAppend(b[..k], b[k + 1..], p);
  }

  /** When every element satisfies `p`, all of them are counted. */
  lemma {:induction false} CountAll<T>(s: seq<T>, p: T -> bool)
    requires forall i :: 0 <= i < |s| ==> p(s[i])
    ensures Count(s, p) == |s|
  {
    if |s| > 0 {
      CountAll(s[1..], p);
    }
  }

  /** When no element satisfies `p`, none is counted. */
  lemma {:induction false} CountNone<T>(s: seq<T>, p: T -> bool)
    requires forall i :: 0 <= i < |s| ==> !p(s[i])
    ensures Count(s, p) == 0
  {
    if |s| > 0 {
      CountNone(s[1..], p);
    }
  }

  /** Every element satisfies exactly one of `p` and its negation. */
  lemma {:induction false} CountComplement<T>(s: seq<T>, p: T -> bool, q: T -> bool)
    requires forall x :: q(x) == !p(x)
    ensures Count(s, p) + Count(s, q) == |s|
  {
    if |s| > 0 {
      CountComplement(s[1..], p, q);
    }
  }

  /** A filter and its complement together hold every element exactly once. */
  lemma {:induction false} FilterPartition<T(!new)>(s: seq<T>, p: T -> bool, q: T -> bool)
    requires forall x :: q(x) == !p(x)
    ensures multiset(Filter(s, p)) + multiset(Filter(s, q)) == multiset(s)
  {
    if |s| > 0 {
      FilterPartition(s[1..], p, q);
      assert s == [s[0]] + s[1..];
    }
  }

  predicate NoDuplicates<T(==)>(s: seq<T>)
  {
    forall i, j :: 0 <= i < j < |s| ==> s[i] != s[j]
  }

  /** `a` is `b` with some elements dropped and the rest kept in order. */
  predicate Subsequence<T(==)>(a: seq<T>, b: seq<T>)
    decreases |b|
  {
    && |a| <= |b|
    && (|a| == 0 || (a[0] == b[0] && Subsequence(a[1..], b[1..])) || Subsequence(a, b[1..]))
  }

  /** Filtering by a weaker condition first changes nothing: `[x for x in [y for y in s if p(y)] if q(x)]`
      equals `[x for x in s if q(x)]` when `q` implies `p`. */
  lemma {:induction false} FilterNarrow<T(!new)>(s: seq<T>, p: T -> bool, q: T -> bool)
    requires forall i :: 0 <= i < |s| && q(s[i]) ==> p(s[i])
    ensures Filter(Filter(s, p), q) == Filter(s, q)
  {
    if |s| > 0 {
      FilterNarrow(s[1..], p, q);
    }
  }

  /** Position of the first occurrence of `x` in `s`, as `s.index(x)`. */
  function IndexOf<T(==)>(s: seq<T>, x: T): (i: nat)
    requires x in s
    ensures i < |s| && s[i] == x && x !in s[..i]
  {
    if s[0] == x then 0 else 1 + IndexOf(s[1..], x)
  }

  /** The first occurrence is the only position with nothing equal before it. */
  lemma IndexOfUnique<T>(s: seq<T>, x: T, k: int)
    requires 0 <= k < |s| && s[k] == x && x !in s[..k]
    ensures IndexOf(s, x) == k
  {
    var i := IndexOf(s, x);
    assert forall m :: 0 <= m < k ==> s[..k][m] == s[m];
    assert forall m :: 0 <= m < i ==> s[..i][m] == s[m];
  }

  /** The elements of `s` in order of first occurrence, each once (the `seen`-set idiom). */
  function Dedup<T(==,!new)>(s: seq<T>): (r: seq<T>)
    ensures NoDuplicates(r)
    ensures forall x :: x in r <==> x in s
    decreases |s|
  {
    if |s| == 0 then []
    else
      var init := s[..|s| - 1];
      var r0 := Dedup(init);
      assert forall x :: x in s <==> x in init || x == s[|s| - 1] by {
        assert s == init + [s[|s| - 1]];
      }
      if s[|s| - 1] in r0 then r0 else r0 + [s[|s| - 1]]
  }

  /** Appending one element to the input either leaves the deduplication alone or appends
      the element to it. */
  lemma DedupSnoc<T(!new)>(s: seq<T>, x: T)
    ensures Dedup(s + [x]) == if x in Dedup(s) then Dedup(s) else Dedup(s) + [x]
  {
    assert (s + [x])[..|s|] == s;
  }

  /** `Dedup` keeps the order of first occurrences. */
  lemma {:induction false} DedupKeepsFirstOrder<T(!new)>(s: seq<T>)
    ensures forall i, j :: 0 <= i < j < |Dedup(s)| ==> IndexOf(s, Dedup(s)[i]) < IndexOf(s, Dedup(s)[j])
    decreases |s|
  {
    if |s| > 0 {
      var n := |s| - 1;
      var init := s[..n];
      var r0 := Dedup(init);
      var r := Dedup(s);
      DedupKeepsFirstOrder(init);
      assert s[..n] == init;
      forall y | y in init
        ensures IndexOf(s, y) == IndexOf(init, y)
      {
        var k := IndexOf(init, y);
        assert s[..k] == init[..k];
        IndexOfUnique(s, y, k);
      }
      if s[n] !in r0 {
        IndexOfUnique(s, s[n], n);
        assert r == r0 + [s[n]];
        forall i, j | 0 <= i < j < |r|
          ensures IndexOf(s, r[i]) < IndexOf(s, r[j])
        {
          if j < |r0| {
            assert r[i] == r0[i] && r[j] == r0[j];
          } else {
            assert r[i] == r0[i];
          }
        }
      }
    }
  }

  /** The first element survives deduplication in front. */
  lemma {:induction false} DedupHead<T(!new)>(s: seq<T>)
    requires |s| > 0
    ensures |Dedup(s)| > 0 && Dedup(s)[0] == s[0]
    decreases |s|
  {
    if |s| > 1 {
      var init := s[..|s| - 1];
      DedupHead(init);
      assert init[0] == s[0];
    }
  }

  /** `s` is ascending by `key`. */
  predicate SortedBy<T>(s: seq<T>, key: T -> real)
  {
    forall i, j :: 0 <= i < j < |s| ==> key(s[i]) <= key(s[j])
  }

  /** Inserts `x` before the first element whose key is not below `key(x)`. Because `x`
      goes before equal keys and `SortBy` inserts the head last, equal keys keep their
      input order: this is the stable sort of Python's `sorted`. */
  function InsertBy<T>(x: T, s: seq<T>, key: T -> real): (r: seq<T>)
    requires SortedBy(s, key)
    ensures |r| == |s| + 1
    ensures multiset(r) == multiset{x} + multiset(s)
    ensures SortedBy(r, key)
  {
    if |s| == 0 then [x]
    else if key(x) <= key(s[0]) then [x] + s
    else
      var rest := InsertBy(x, s[1..], key);
      assert forall i :: 0 <= i < |rest| ==> key(s[0]) <= key(rest[i]) by {
        forall i | 0 <= i < |rest|
          ensures key(s[0]) <= key(rest[i])
        {
          assert rest[i] in multiset(rest);
          if rest[i] != x {
            assert rest[i] in multiset(s[1..]);
            var k :| 0 <= k < |s[1..]| && s[1..][k] == rest[i];
            assert s[1 + k] == rest[i];
          }
        }
      }
      assert s == [s[0]] + s[1..];
      [s[0]] + rest
  }

  /** `sorted(s, key=key)`: a stable ascending sort. */
  function SortBy<T>(s: seq<T>, key: T -> real): (r: seq<T>)
    ensures |r| == |s|
    ensures multiset(r) == multiset(s)
    ensures SortedBy(r, key)
  {
    if |s| == 0 then []
    else
      assert s == [s[0]] + s[1..];
      InsertBy(s[0], SortBy(s[1..], key), key)
  }

  /** `i` is the first position of a minimal key in `s`. */
  predicate IsFirstMin<T>(s: seq<T>, key: T -> real, i: int)
  {
    && 0 <= i < |s|
    && (forall j :: 0 <= j < |s| ==> key(s[i]) <= key(s[j]))
    && (forall j :: 0 <= j < i ==> key(s[i]) < key(s[j]))
  }

  /** `i` is the last position of a maximal key in `s`. */
  predicate IsLastMax<T>(s: seq<T>, key: T -> real, i: int)
  {
    && 0 <= i < |s|
    && (forall j :: 0 <= j < |s| ==> key(s[j]) <= key(s[i]))
    && (forall j :: i < j < |s| ==> key(s[j]) < key(s[i]))
  }

  /** There is only one first position of the minimum. */
  lemma FirstMinUnique<T>(s: seq<T>, key: T -> real, i: int, j: int)
    requires IsFirstMin(s, key, i) && IsFirstMin(s, key, j)
    ensures i == j
  {
    assert key(s[i]) <= key(s[j]) && key(s[j]) <= key(s[i]);
  }

  function FirstMinIndex<T>(s: seq<T>, key: T -> real): (i: nat)
    requires |s| > 0
    ensures IsFirstMin(s, key, i)
  {
    if |s| == 1 then 0
    else
      var j := FirstMinIndex(s[1..], key);
      if key(s[0]) <= key(s[1 + j]) then 0 else 1 + j
  }

  function LastMaxIndex<T>(s: seq<T>, key: T -> real): (i: nat)
    requires |s| > 0
    ensures IsLastMax(s, key, i)
  {
    if |s| == 1 then 0
    else
      var j := LastMaxIndex(s[1..], key);
      if key(s[0]) > key(s[1 + j]) then 0 else 1 + j
  }

  lemma {:induction false} InsertByLast<T>(x: T, s: seq<T>, key: T -> real)
    requires SortedBy(s, key) && |s| > 0
    ensures var r := InsertBy(x, s, key);
            r[|r| - 1] == if key(x) > key(s[|s| - 1]) then x else s[|s| - 1]
  {
    var r := InsertBy(x, s, key);
    if key(x) <= key(s[0]) {
      assert r == [x] + s;
    } else if |s| == 1 {
      assert s[1..] == [];
      assert InsertBy(x, s[1..], key) == [x];
      assert r == [s[0]] + [x];
    } else {
      var rest := InsertBy(x, s[1..], key);
      assert r == [s[0]] + rest;
      InsertByLast(x, s[1..], key);
      assert s[1..][|s[1..]| - 1] == s[|s| - 1];
      assert r[|r| - 1] == rest[|rest| - 1];
    }
  }

  /** The head of the stable ascending sort is the first occurrence of the minimum. */
  lemma {:induction false} SortByHeadIsFirstMin<T>(s: seq<T>, key: T -> real)
    requires |s| > 0
    ensures SortBy(s, key)[0] == s[FirstMinIndex(s, key)]
  {
    if |s| > 1 {
      SortByHeadIsFirstMin(s[1..], key);
    }
  }

  /** The tail of the stable ascending sort is the last occurrence of the maximum. */
  lemma {:induction false} SortByLastIsLastMax<T>(s: seq<T>, key: T -> real)
    requires |s| > 0
    ensures var r := SortBy(s, key); r[|r| - 1] == s[LastMaxIndex(s, key)]
  {
    if |s| > 1 {
      SortByLastIsLastMax(s[1..], key);
      InsertByLast(s[0], SortBy(s[1..], key), key);
    }
  }
}

=== FILE: wrappers.dfy ===
/** Failure-carrying result types shared by the whole model.

    Python signals absence with `None` and failure by raising; the model makes both
    explicit so that every branch of the original has a value here. */
module Wrappers {

  /** `None` or a value, as in Python's `Optional[T]`. */
  datatype Option<+T> = None | Some(value: T) {

    /** The wrapped value, or `default` when there is none (`x if x is not None else d`). */
    function GetOr(default: T): T
    {
      match this
      case Some(v) => v
      case None => default
    }
  }

  /** The exceptions the modelled Python code can raise on the paths the model covers. */
  datatype Fault =
    | ZeroDivision   // `ZeroDivisionError` from a Python float division
    | NoneOperand    // `TypeError` from arithmetic on a missing (`None`) value
    | DayOutOfRange  // `ValueError` from `datetime.replace(day=...)` past the month end
    | UnpackMismatch // `ValueError` from unpacking a value into the wrong number of names
    | IndexOutOfRange // `IndexError` from a list index below `-len(list)`

  /** Either a value or the exception that the Python code would raise instead. */
  datatype Result<+T> = Ok(value: T) | Err(fault: Fault)
}
